=== FILE: README.md ===
# ACL portal and code-review helpers, modelled in Dafny

This project models the core of a repository with two parts.

The first part is an access-list (ACL) portal. It covers these pieces:

- the ACL record and its statuses;
- the views that change a record: approval, form save, delete, the requested-jobs list and the status page;
- the background tasks that send a record to the OmniTracker service desk and poll it;
- the service desk's reply parsing and status mapping;
- the owner-list utilities:
  - the IPv4 helpers and the netmask table;
  - the Markdown table writer and the Markdown reader, with a round trip between them;
  - the session clean-up;
  - the port-rule matcher of the ACL info API;
  - the log view of the administration panel.

The second part is an LLM code-review tool. It covers these pieces:

- picking merge commits and summing file counts from the GitHub API;
- the directory names of stored changes;
- parsing linked issues;
- the date-range and coder filter of the review;
- the default clone directory and the diff-line walk of the repository parser;
- the GitHub URL validation of the web front end.

Every operation is a pure function, or a method with loop invariants, over immutable values. The database, the session, the cache and the files become map or set values that the function takes and returns.

Network replies are given as a sequence of `Attempt` values: a reply with status 200 and its body, a reply with another status, or a raised exception. Regular-expression matches that the source takes from `re.findall` are parameters where the pattern is not the point. Otherwise they are written out as predicates.

Python exceptions are the `Raise` case of a `Result`.

## Model

Path prefixes used below:

- `github_data_structured/pr_1/before_merge/ownerlist/utils.py` is the owner-list utilities;
- `github_data_structured/pr_1/before_merge/acladmin/tasks.py` is the Celery tasks;
- `github_data_structured/pr_2/before_merge/accesslist/views.py` is the portal views;
- `github_data_structured/pr_2/before_merge/panel/views.py` is the panel.

| member | source | states |
|---|---|---|
| Acl.Parse | github_data_structured/pr_2/before_merge/accesslist/views.py:932-935 | A stored status text outside the listed codes is kept as that text. |
| Acl.CodeOfParse | github_data_structured/pr_2/before_merge/accesslist/views.py:932-935 | Every stored status text reads back as itself, and the status read is canonical. |
| Acl.ParseOfCode | github_data_structured/pr_2/before_merge/accesslist/views.py:932-935 | Every canonical status is recovered from its stored text, so text and status are in bijection. |
| Acl.AdoptableListed | github_data_structured/pr_1/before_merge/ownerlist/utils.py:2730-2732 | The three codes the service desk may impose (CMP, JOB, CNL) read as listed statuses. |
| AclTasks.SendAcl | github_data_structured/pr_1/before_merge/acladmin/tasks.py:19-128 | A record with a ticket is skipped unchanged; a failed docx leaves it unchanged. The task raises exactly when a fresh record lacks an owner or an approver (`AttributeError`), or when a ticket arrives and a later Markdown/Git step raises; the transaction then undoes the ticket and JOB. Only a received ticket with no later raise changes the record, to that ticket and JOB. |
| AclTasks.SendAclRollbackResends | github_data_structured/pr_1/before_merge/acladmin/tasks.py:20-104 | A raise after the ticket is stored leaves the record without a ticket, so the next run sends it again although the service desk already opened one. |
| AclTasks.SendAclOnce | github_data_structured/pr_1/before_merge/acladmin/tasks.py:27-28 | Once a numbered ticket is set, running the task again changes nothing and opens no second ticket. |
| AclTasks.SendAclEmptyTicket | github_data_structured/pr_1/before_merge/acladmin/tasks.py:63-74 | A 200 reply with an empty value is a send with ticket "", and the stored record still counts as having no task. |
| AclTasks.CheckAclInOmniAsWritten | github_data_structured/pr_1/before_merge/ownerlist/utils.py:2969-2980 | As written: the check raises `TypeError` if and only if the record has a ticket and the status check returns nothing. A record without a ticket is untouched. Otherwise the reported code is returned, and whenever one is reported the record's status text becomes that code, "UNK" included. Nothing else in the record changes. |
| AclTasks.CheckAclInOmniAdoptsUnknown | github_data_structured/pr_1/before_merge/ownerlist/utils.py:2976-2979 | An empty reply body moves the record to the unlisted code "UNK". |
| AclTasks.CheckAclInOmni | github_data_structured/pr_1/before_merge/ownerlist/utils.py:2969-2980 | Corrected: a record without a ticket is untouched. A reported CMP, JOB or CNL becomes the record's status text; any other report, or none, leaves the record as it was. Only the status changes. |
| AclTasks.CheckAclInOmniAgrees | github_data_structured/pr_1/before_merge/ownerlist/utils.py:2969-2980 | Where the reported status is adoptable, the as-written and corrected checks give the same result. |
| AclTasks.CheckAclStatusAsWritten | github_data_structured/pr_1/before_merge/acladmin/tasks.py:131-146 | As written: exactly the JOB records with a non-empty ticket are checked, in order. A record whose check raises, including the `TypeError` of a missing status pair, is logged and left alone. Every other checked record becomes the as-written check's result. |
| AclTasks.PollEachAsWritten | github_data_structured/pr_1/before_merge/acladmin/tasks.py:137-146 | As written: the loop leaves unpolled records and records whose check raises unchanged, and replaces each other polled record by the as-written check's result. |
| AclTasks.CheckAclStatus | github_data_structured/pr_1/before_merge/acladmin/tasks.py:131-146 | Corrected: the same loop with the corrected check. Exactly the JOB records with a non-empty ticket are checked, in order. Each checked record that does not raise becomes its check's result, and every other record is left alone. |
| AclTasks.PollEach | github_data_structured/pr_1/before_merge/acladmin/tasks.py:137-146 | Corrected: the loop leaves unpolled and raising records unchanged and replaces each polled one by the corrected check's result. |
| AclTasks.PolledIndices | github_data_structured/pr_1/before_merge/acladmin/tasks.py:134-137 | The visited positions are increasing and are exactly the polled records. |
| AclTasks.PolledStaysListed | github_data_structured/pr_1/before_merge/acladmin/tasks.py:134-146 | Corrected: with the corrected check, a polled record leaves the poll in JOB, CMP or CNL. |
| AclTasks.PolledAsWrittenStatus | github_data_structured/pr_1/before_merge/acladmin/tasks.py:134-146 | As written, a polled record leaves the poll in JOB, CMP, CNL or the unlisted code "UNK". |
| AclTasks.PollsAgree | github_data_structured/pr_1/before_merge/acladmin/tasks.py:137-146 | When the status check yields a pair that is not "UNK", the as-written and corrected polls leave the record alike. |
| AclTasks.AclSendingRetryChecking | github_data_structured/pr_1/before_merge/ownerlist/utils.py:2718-2735 | Corrected: an empty ticket lookup leaves the record unchanged and returns nothing. Otherwise the record takes the found ticket and returns it. A reported CMP, JOB or CNL becomes the record's status text; no other status is ever taken. |
| AclTasks.AclSendingRetryCheckingAsWritten | github_data_structured/pr_1/before_merge/ownerlist/utils.py:2718-2735 | As written: the check raises `TypeError` if and only if a ticket is found and the status check returns nothing, before anything is saved. Otherwise it leaves the record and returns the ticket exactly as the corrected check does. |
| AclTasks.RetryCheckingIdempotent | github_data_structured/pr_1/before_merge/ownerlist/utils.py:2718-2735 | Checking again with the same answers leaves the record as the first check did. |
| AclViews.StageChange | github_data_structured/pr_2/before_merge/accesslist/views.py:904-966 | A refused request leaves the store unchanged. An accepted one changes only the named record, and only these fields: status, sole approver, comment cut to 127 characters, fresh token. A missing referer raises TypeError. |
| AclViews.StageChangeGuards | github_data_structured/pr_2/before_merge/accesslist/views.py:905-957 | A request changes the record if and only if every guard passes. The handler raises if and only if an APRV/CNL request from a non-approver has no referer. |
| AclViews.StageChangeTargets | github_data_structured/pr_2/before_merge/accesslist/views.py:932-939 | A stage change never sets WTE, FLY or an unlisted code. |
| AclViews.StageChangeComment | github_data_structured/pr_2/before_merge/accesslist/views.py:959-964 | The comment is a prefix of the text, and all of it when short. A cancellation without text gets the default reason. |
| AclViews.ActivityList | github_data_structured/pr_2/before_merge/accesslist/views.py:662-676 | The activity list holds only requested jobs that are set in the session. |
| AclViews.FinishAsWritten | github_data_structured/pr_2/before_merge/accesslist/views.py:740-769 | As written, the tail of the save changes nothing but the sections and the activity. |
| AclViews.Finish | github_data_structured/pr_2/before_merge/accesslist/views.py:740-769 | Corrected: the status changes only from CMP to FL. |
| AclViews.SaveFormAsWritten | github_data_structured/pr_2/before_merge/accesslist/views.py:635-805 | Without a form nothing changes. Otherwise the store gains or updates exactly the named record. A "teamid" that `int` refuses or that names no team fails the save before the status step, leaving only the record `get_or_create` made. |
| AclViews.SaveFormKeepsChangedCmp | github_data_structured/pr_2/before_merge/accesslist/views.py:743-745 | As written, an existing CMP record with changed data fails to save and keeps CMP and its old data. |
| AclViews.SaveForm | github_data_structured/pr_2/before_merge/accesslist/views.py:635-805 | Corrected save: same frame and the same team failure as the as-written save; nothing changes without a form, and the save fails only through the team bookkeeping. |
| AclViews.SaveFormBadTeamId | github_data_structured/pr_2/before_merge/accesslist/views.py:683-685 | A "teamid" of "" or "[]" fails both versions of the save and leaves an existing record as it was. |
| AclViews.SaveFormStatus | github_data_structured/pr_2/before_merge/accesslist/views.py:710-758 | The status rules: at most one section gives NOTFL; an existing NOTFL record becomes FL; a changed CMP record returns to FL; a changed WTE record is refused and left alone. |
| AclViews.SaveFormTakesSections | github_data_structured/pr_2/before_merge/accesslist/views.py:718-765 | Outside CMP/WTE the record takes every section the session holds and keeps the others. |
| AclViews.SaveFormAgrees | github_data_structured/pr_2/before_merge/accesslist/views.py:740-769 | The two versions differ only on a changed CMP record. |
| AclViews.AclRemove | github_data_structured/pr_2/before_merge/accesslist/views.py:1376-1399 | Only a POST with a well-formed id of an existing record outside WTE/CMP deletes, and it deletes only that record. |
| AclViews.RemoveKeepsProtected | github_data_structured/pr_2/before_merge/accesslist/views.py:1385-1393 | No WTE or CMP record is ever deleted, and the deletion removes at most one record. |
| AclViews.TaskOf | github_data_structured/pr_2/before_merge/accesslist/views.py:80-81 | Each job maps to its own activity entry, which is a task name. |
| AclViews.IndexOf | github_data_structured/pr_2/before_merge/accesslist/views.py:1879-1880 | The first position holding the element, as `list.remove` uses it. |
| AclViews.VerbOf | github_data_structured/pr_2/before_merge/accesslist/views.py:1867 | Only "add" and "remove" are accepted, each as its own verb. |
| AclViews.Act | github_data_structured/pr_2/before_merge/accesslist/views.py:1864-1873 | An unknown job or action is forbidden; a missing record is not found; nothing changes in either case. |
| AclViews.ActOn | github_data_structured/pr_2/before_merge/accesslist/views.py:1870-1908 | An accepted request changes only the record's activity. Add appends the job's entry and sets its session key. Remove drops the first occurrence and clears the key. |
| AclViews.ActAccepted | github_data_structured/pr_2/before_merge/accesslist/views.py:1867-1876 | The two accepted actions reach the accepted-request path with their verb. |
| AclViews.EntriesFree | github_data_structured/pr_2/before_merge/accesslist/views.py:1875 | No entry read back from an activity text holds the separator. |
| AclViews.ActAddRecords | github_data_structured/pr_2/before_merge/accesslist/views.py:1889-1892 | After an add, the job's entry is in the record's activity. An absent entry is appended at the end and its key joins the session; a present one leaves the session as it was. |
| AclViews.AddRecords | github_data_structured/pr_2/before_merge/accesslist/views.py:1889-1905 | The same on the accepted-request path. |
| AclViews.ActAddIdempotent | github_data_structured/pr_2/before_merge/accesslist/views.py:1890-1905 | Adding a job twice equals adding it once. |
| AclViews.AddTwice | github_data_structured/pr_2/before_merge/accesslist/views.py:1890-1905 | The same on the accepted-request path. |
| AclViews.RemoveAppended | github_data_structured/pr_2/before_merge/accesslist/views.py:1879-1891 | Removing an entry just appended, and present nowhere else, restores the list. |
| AclViews.ActivityAddRemove | github_data_structured/pr_2/before_merge/accesslist/views.py:1875-1902 | On the activity text: an absent entry is appended by add and removed again by remove. |
| AclViews.ActStore | github_data_structured/pr_2/before_merge/accesslist/views.py:1902-1905 | Saved or not, the record afterwards holds the computed activity text. |
| AclViews.ActAddThenRemove | github_data_structured/pr_2/before_merge/accesslist/views.py:1875-1905 | Removing a job right after adding it restores the record's activity. |
| AclViews.AddThenRemove | github_data_structured/pr_2/before_merge/accesslist/views.py:1875-1905 | The same on the accepted-request path. |
| AclViews.RemoveRestores | github_data_structured/pr_2/before_merge/accesslist/views.py:1876-1905 | The removal step of that round trip gives back the original store. |
| AclViews.LookupByTicket | github_data_structured/pr_2/before_merge/accesslist/views.py:1933-1936 | Lookup by ticket happens only for an argument of at least three digits (a final newline allowed), and always for one of at least three digits and nothing else. The model takes the record found as a parameter of `TaskStatus`, so this states the choice of lookup alone. |
| AclViews.TaskStatus | github_data_structured/pr_2/before_merge/accesslist/views.py:1911-1958 | Corrected: the reply is keyed by the argument. No record, or a record without a numbered ticket, gives the unknown-status reply and no change. A checked record's reply is the status check's pair. A reported CMP, JOB or CNL becomes the record's status text, and nothing else changes. |
| AclViews.TaskStatusAsWritten | github_data_structured/pr_2/before_merge/accesslist/views.py:1911-1958 | As written: the view raises `TypeError` if and only if the record has a numbered ticket and the status check returns nothing. Otherwise it replies and leaves the record as the corrected view does. |
| AclViews.TaskStatusMatchesPoll | github_data_structured/pr_2/before_merge/accesslist/views.py:1940-1954 | For a record with a numbered ticket, the corrected status page leaves the record exactly as the poller's corrected check `AclTasks.CheckAclInOmni` does. |
| AclViews.TaskStatusIdempotent | github_data_structured/pr_2/before_merge/accesslist/views.py:1951-1954 | Asking again with the same answers changes nothing more. |
| CodeReview.DateRange | llm_logic/code_reviewer.py:48-58 | A bound is set only from a non-empty text that parses. When both are set, start is at most end. Both are set if and only if both parse and are ordered. |
| CodeReview.RelevantDatePreference | llm_logic/code_reviewer.py:134-142 | A pull request is judged by its merge, close or update date, first filled first. A merge commit is judged by its committer date, then its author date. |
| CodeReview.SelectChanges | llm_logic/code_reviewer.py:119-165 | The chosen changes are the fetched ones in date range by the coder, in fetch order. An invalid range, no changes or the placeholder coder choose none. |
| CodeReview.SelectedMembers | llm_logic/code_reviewer.py:144-152 | A change is chosen if and only if it was fetched, its date parses, lies in the closed range, and the coder wrote, committed or merged it. |
| DiffLines.LastSegment | llm_logic/parsing/repo_parsing.py:24 | The last "/"-segment of a URL holds no "/". |
| DiffLines.LastSegmentAfterSlash | llm_logic/parsing/repo_parsing.py:24 | `url.split('/')[-1]` is the text after the last "/": it ends the URL and is either the whole URL or preceded by "/". |
| DiffLines.DefaultClonePath | llm_logic/parsing/repo_parsing.py:23-24 | Corrected: the last segment with one trailing ".git" removed, and only then. |
| DiffLines.ReplaceSuffix | llm_logic/parsing/repo_parsing.py:24 | Replacing ".git" in a name that has it only at the end removes just that suffix. |
| DiffLines.ClonePathsAgree | llm_logic/parsing/repo_parsing.py:23-24 | On a name whose only ".git" is the suffix, as written and corrected agree. |
| DiffLines.ClonePathDropsInnerGit | llm_logic/parsing/repo_parsing.py:24 | As written, an inner ".git" is removed too; the corrected path keeps it. |
| DiffLines.PagesClonePath | llm_logic/parsing/repo_parsing.py:24 | "my.github.io.git" becomes "myhub.io" as written and "my.github.io" corrected. |
| DiffLines.Rest | llm_logic/parsing/repo_parsing.py:95 | `line[1:]`: the first character and the rest give the line back. |
| DiffLines.Step | llm_logic/parsing/repo_parsing.py:87-115 | Only a hunk header can raise. |
| DiffLines.NothingBeforeHunk | llm_logic/parsing/repo_parsing.py:84-115 | Before the first hunk header no change is saved and no line number is set, in both versions. |
| DiffLines.HeaderSetsLine | llm_logic/parsing/repo_parsing.py:88-92 | The header `@@ -a,b +c,d @@` sets the line number to c and empties the content. |
| DiffLines.StepInHunk | llm_logic/parsing/repo_parsing.py:93-115 | Inside a hunk: an added line is saved at the current number and advances it; a removed line leaves it; any other line advances it. |
| DiffLines.DoubleDashAdvances | llm_logic/parsing/repo_parsing.py:109-115 | As written, a removed line showing as "--x" advances the new-file number; corrected, it does not. |
| DiffLines.DoublePlusDropped | llm_logic/parsing/repo_parsing.py:93-107 | As written, an added line showing as "++x" is not saved; corrected, it is saved with text "+x". |
| DiffLines.RunAgrees | llm_logic/parsing/repo_parsing.py:87-115 | Both walks agree on diffs with no line starting "++" or "--". |
| DiffLines.HunkBody | llm_logic/parsing/repo_parsing.py:93-115 | Corrected: a hunk body advances the number once per added or context line. It keeps the earlier changes and appends exactly the reference list: one change per added line, with its text and its new-file number. |
| DiffLines.ExpectedShape | llm_logic/parsing/repo_parsing.py:105-110 | The reference list has one change per added line, at strictly increasing numbers within the hunk's range. |
| DiffLines.ExpectedAt | llm_logic/parsing/repo_parsing.py:105-115 | Each added line is in the reference list with its text after the "+", at the start number plus the count of added and context lines before it. |
| GithubChanges.ParentShas | llm_logic/core.py:414 | One sha per parent that is a dict with a truthy "sha", and every sha kept is truthy. |
| GithubChanges.MergeCommits | llm_logic/core.py:391-427 | One record per history entry that is a merge commit (a dict commit and more than one parent), in history order, each built from its entry. |
| GithubChanges.MergeCommitsMembers | llm_logic/core.py:392-399 | An entry yields a record if and only if it is a merge commit. |
| GithubChanges.SumOfSnoc | llm_logic/core.py:181-183 | The reference sum grows by each entry's count. |
| GithubChanges.CountOf | llm_logic/core.py:177-183 | A missing count adds 0, an integer adds itself and a boolean adds 1 or 0; any other value makes the addition raise. |
| GithubChanges.TotalsSums | llm_logic/core.py:172-200 | The loop over usable entries succeeds if and only if every count is missing, an integer or a boolean. Its totals are then the reference sums and its metadata one entry per file. |
| GithubChanges.ProcessFiles | llm_logic/core.py:157-209 | The file loop skips unusable entries and never raises. With every count usable it returns the reference totals; a bad count is caught and answers `([], 0, 0, 0)`. |
| GithubChanges.TotalsRaise | llm_logic/core.py:181-183 | Once the totals raise, more entries do not undo it. |
| GithubChanges.RaiseStays | llm_logic/core.py:177-183 | A bad count anywhere makes the whole loop raise. |
| GithubChanges.LoadChangeDir | llm_logic/core.py:1053-1064 | A directory exists if and only if the change type is "pr" or "merge_commit"; the internal id is the given id. |
| GithubChanges.ParseChangeDir | llm_logic/core.py:815-820 | A directory name without "_" cannot be parsed. |
| GithubChanges.LoadChangeRoundTrip | llm_logic/core.py:815-820 | Reading back a written directory name gives its prefix and the (for merge commits, shortened) id. |
| Ipv4.SplitCount | github_data_structured/pr_1/before_merge/ownerlist/utils.py:193 | Splitting on a character yields one more part than there are occurrences. |
| Ipv4.IsValidIp | github_data_structured/pr_1/before_merge/ownerlist/utils.py:189-197 | An address is accepted if and only if it has 1 to 15 characters and at least three "."-parts. |
| Ipv4.IsValidIpDots | github_data_structured/pr_1/before_merge/ownerlist/utils.py:189-197 | Equivalently: non-empty, at most 15 characters, at least two dots. |
| Ipv4.Ip2Int | github_data_structured/pr_1/before_merge/ownerlist/utils.py:312-316 | Succeeds if and only if every part parses and there are at least four, giving the big-endian value of the first four. Otherwise it raises ValueError for a bad part, else IndexError. |
| Ipv4.Ip2IntDotted | github_data_structured/pr_1/before_merge/ownerlist/utils.py:312-316 | A dotted quad of octets converts to its 32-bit value, from which each octet is recovered. |
| Ipv4.OctetsValue | github_data_structured/pr_1/before_merge/ownerlist/utils.py:315 | The weighted sum of four octets fits in 32 bits and determines each octet. |
| Ipv4.MaskTableEntry24 | github_data_structured/pr_1/before_merge/ownerlist/utils.py:2229 | The table entry for /24 is "255.255.255.000". |
| Ipv4.NumberFromMask | github_data_structured/pr_1/before_merge/ownerlist/utils.py:2201-2243 | A recognised mask maps to its position as text; anything else is returned unchanged. |
| Ipv4.CanonicalMaskInjective | github_data_structured/pr_1/before_merge/ownerlist/utils.py:2204-2238 | Different prefix lengths give different padded masks. |
| Ipv4.MaskTableDistinct | github_data_structured/pr_1/before_merge/ownerlist/utils.py:2204-2238 | The 33 table entries are pairwise distinct. |
| Ipv4.NumberFromCanonicalMask | github_data_structured/pr_1/before_merge/ownerlist/utils.py:2239-2243 | The padded mask of prefix length p maps back to p. |
| Ipv4.UnpaddedMaskUnchanged | github_data_structured/pr_1/before_merge/ownerlist/utils.py:2239-2242 | A mask without zero padding ("255.255.255.0") is not recognised and comes back unchanged. |
| Ipv4.DigitGroupsCover | github_data_structured/pr_1/before_merge/ownerlist/utils.py:603 | The digit groups hold every digit of the text, in order, and nothing else, each of one to three digits. |
| Ipv4.IpFromPage | github_data_structured/pr_1/before_merge/ownerlist/utils.py:600-606 | The address built from a sheet name holds only digits and dots. |
| Ipv4.IpFromPageDigits | github_data_structured/pr_1/before_merge/ownerlist/utils.py:600-606 | Without its dots, the address is exactly the digits of the sheet name. |
| Json.GetOr | llm_logic/core.py:177-179 | `dict.get`: a missing key gives the default; a present key gives its value. |
| LinkedIssues.BelowTransitive | llm_logic/core.py:114 | The string order used by `sorted` is transitive. |
| LinkedIssues.BelowTotal | llm_logic/core.py:114 | The string order used by `sorted` is total. |
| LinkedIssues.BelowIrreflexive | llm_logic/core.py:114 | The string order used by `sorted` is irreflexive. |
| LinkedIssues.SortUnique | llm_logic/core.py:114 | `sorted(set(xs))` is strictly sorted and has exactly the elements of xs. |
| LinkedIssues.SortedUnique | llm_logic/core.py:114 | Two strictly sorted lists with the same elements are equal, so the answer does not depend on insertion order. |
| LinkedIssues.ParseLinkedIssues | llm_logic/core.py:100-114 | The answer is strictly sorted; an empty or missing text gives none. |
| LinkedIssues.ParseLinkedIssuesContents | llm_logic/core.py:106-114 | A reference is in the answer if and only if it is "GH-" plus a keyword or bare GitHub number, or a Jira key. |
| LinkedIssues.ParseLinkedIssuesNoRepeats | llm_logic/core.py:109-114 | No reference occurs twice. |
| LinkedIssues.ParseLinkedIssuesKeywordFree | llm_logic/core.py:110-112 | A number found with a closing keyword and one found bare give the same answer. |
| LogPanel.Tag | github_data_structured/pr_2/before_merge/panel/views.py:27-29 | A non-matching entry gains a counter of 1 unless it has one; its fields are kept. |
| LogPanel.Bump | github_data_structured/pr_2/before_merge/panel/views.py:21-25 | A matching entry's counter goes up by one, or starts at 2; its fields are kept. |
| LogPanel.CheckInBuf | github_data_structured/pr_2/before_merge/panel/views.py:13-33 | An empty buffer is answered False unchanged. A finished scan keeps the buffer's length. |
| LogPanel.CheckInBufSpec | github_data_structured/pr_2/before_merge/panel/views.py:13-33 | Entry by entry: the scan raises if and only if a reached entry's test raises. It finds a duplicate if and only if a reached entry matches. Matched entries are bumped, passed ones tagged, the rest left alone. |
| LogPanel.ShortEntriesKept | github_data_structured/pr_2/before_merge/panel/views.py:19-20 | Entries of at most one field are never touched. |
| LogPanel.ScanStopsAtDepth | github_data_structured/pr_2/before_merge/panel/views.py:30-31 | A non-match at or past the depth ends the scan with no duplicate, and nothing later is touched. |
| LogPanel.Column | github_data_structured/pr_2/before_merge/panel/views.py:86-97 | A line is kept if and only if it is WARNING or ERROR, or INFO/DEBUG with severity other than 1. WARNING compares field 6 and the others field 5. |
| LogPanel.ReadLogShown | github_data_structured/pr_2/before_merge/panel/views.py:78-103 | The buffer only ever holds lines of at least five fields of a shown level. |
| LogPanel.ScanKeepsShown | github_data_structured/pr_2/before_merge/panel/views.py:100 | The duplicate counter keeps every buffered entry shown. |
| LogPanel.AddedShown | github_data_structured/pr_2/before_merge/panel/views.py:100-103 | Appending a new line of a shown level keeps the buffer shown. |
| LogPanel.PyTail | github_data_structured/pr_2/before_merge/panel/views.py:107 | Python's `buf[-m:]`: the last m entries for positive m, and a prefix-dropping slice otherwise. |
| LogPanel.Reverse | github_data_structured/pr_2/before_merge/panel/views.py:108 | Entry k of the result is entry n-1-k of the input. |
| LogPanel.ShownLogLast | github_data_structured/pr_2/before_merge/panel/views.py:105-108 | Corrected: the page shows exactly the last min(view, n) entries, newest first. |
| LogPanel.ShownLogAgrees | github_data_structured/pr_2/before_merge/panel/views.py:105-108 | For a positive view size, as written and corrected agree. |
| LogPanel.ZeroViewShowsAll | github_data_structured/pr_2/before_merge/panel/views.py:106-107 | As written, `?view=0` shows the whole buffer; corrected, it shows none. |
| LogPanel.PanelLogAsWritten | github_data_structured/pr_2/before_merge/panel/views.py:49-54 | The page raises if and only if the view size is negative. Otherwise it shows no log for an empty buffer. Else it shows every entry for a size of 0 or at least the buffer's length, and the last `view` entries otherwise, newest first. |
| MdReader.Inner | github_data_structured/pr_1/before_merge/ownerlist/utils.py:2686 | `xs[1:-1]`: the parts between the outer bars. |
| MdReader.Normalize | github_data_structured/pr_1/before_merge/ownerlist/utils.py:2698-2700 | Empty cells of a resource row become a single space; the others are kept. |
| MdReader.Append | github_data_structured/pr_1/before_merge/ownerlist/utils.py:2689 | Appending adds the value to the current section only. |
| MdReader.RowStep | github_data_structured/pr_1/before_merge/ownerlist/utils.py:2684-2710 | A non-title line never opens or closes a section. |
| MdReader.Step | github_data_structured/pr_1/before_merge/ownerlist/utils.py:2662-2710 | A title line opens its section afresh; other lines keep the set of sections. |
| MdReader.ReadLinesKeys | github_data_structured/pr_1/before_merge/ownerlist/utils.py:2662-2710 | The reader collects exactly the sections whose title lines occur. |
| MdReader.ConvertKeys | github_data_structured/pr_1/before_merge/ownerlist/utils.py:2655-2715 | The sections in the result are exactly those whose title line occurs in the text. |
| MdReader.SectionNeedsHashes | github_data_structured/pr_1/before_merge/ownerlist/utils.py:2664-2682 | A title line starts with "#####". |
| MdTable.Repeat | github_data_structured/pr_1/before_merge/ownerlist/utils.py:1385 | `c * n`: n copies of c, and none for n not positive. |
| MdTable.PadCell | github_data_structured/pr_1/before_merge/ownerlist/utils.py:1367-1381 | A formatted cell is max(w, len) wide and holds the text among blanks only. |
| MdTable.RuleCell | github_data_structured/pr_1/before_merge/ownerlist/utils.py:1383-1388 | A rule cell is the alignment colons around dashes, at least two characters wide. |
| MdTable.FieldWidths | github_data_structured/pr_1/before_merge/ownerlist/utils.py:1356-1358 | Every column is at least as wide as each of its cells. |
| MdTable.ColumnWidths | github_data_structured/pr_1/before_merge/ownerlist/utils.py:1359-1365 | Columns fit every cell and, with headings, the heading and at least 2. |
| MdTable.Cells | github_data_structured/pr_1/before_merge/ownerlist/utils.py:1342-1345 | Cell (r, i) is field i of record r. |
| MdTable.Render | github_data_structured/pr_1/before_merge/ownerlist/utils.py:1391-1398 | An optional heading line, the ruling, one line per record and two empty lines. |
| MdTable.FillAlignment | github_data_structured/pr_1/before_merge/ownerlist/utils.py:1348-1352 | Exactly n alignment pairs: the given ones cut to n, then centred-heading/left-cell defaults. |
| MdTable.Table | github_data_structured/pr_1/before_merge/ownerlist/utils.py:1337-1398 | Corrected: AssertionError if and only if the heading count is wrong; IndexError if and only if a record lacks a field; success if and only if no check fails and there are fields. The output is the rendered lines ending with two empty ones. |
| MdTable.TableAsWritten | github_data_structured/pr_1/before_merge/ownerlist/utils.py:1352 | As written: TypeError if and only if the checks pass and fewer alignment pairs than fields are given. |
| MdTable.TableAsWrittenAgrees | github_data_structured/pr_1/before_merge/ownerlist/utils.py:1348-1352 | With a pair for every field the two versions agree. |
| MdTable.TableAsWrittenRejectsDefaults | github_data_structured/pr_1/before_merge/ownerlist/utils.py:1352 | A one-column table with no alignment list raises as written and is written when corrected. |
| MdTable.PrepareRows | github_data_structured/pr_1/before_merge/ownerlist/utils.py:1525-1532 | Every row is cut or padded with "" to exactly n cells, keeping its first cells. |
| MdTable.WriteCreateInfo | github_data_structured/pr_1/before_merge/ownerlist/utils.py:1436-1451 | Raises if and only if the data has fewer than five entries. Otherwise: the "## " title from the fifth entry, the section title, and one table row per labelled entry. |
| MdTable.WriteResource | github_data_structured/pr_1/before_merge/ownerlist/utils.py:1454-1522 | An empty line and the section title, then a table of the rows. A non-traffic first row of the wrong width raises AssertionError; the traffic writer never raises. |
| MdTable.CreateMarkdown | github_data_structured/pr_1/before_merge/ownerlist/utils.py:1401-1433 | The function returns the file path, rather than `False`, if and only if every section writer succeeds. The contact block needs five entries. |
| MdRoundTrip.JoinWrapBars | github_data_structured/pr_1/before_merge/ownerlist/utils.py:1373-1381 | A table line is the space-wrapped cells between bars. |
| MdRoundTrip.StripWrappedPad | github_data_structured/pr_1/before_merge/ownerlist/utils.py:2686 | Padding a trimmed cell and wrapping it in spaces does not survive the reader's strip. |
| MdRoundTrip.ReadPaddedRow | github_data_structured/pr_1/before_merge/ownerlist/utils.py:2697 | A padded table line reads back as its original cells. |
| MdRoundTrip.HeadingsClean | github_data_structured/pr_1/before_merge/ownerlist/utils.py:2702-2709 | Heading labels are clean cells, and their row is one the reader skips. |
| MdRoundTrip.StepRuleLine | github_data_structured/pr_1/before_merge/ownerlist/utils.py:2704 | The ruling line starts with ":--", so the reader skips it. |
| MdRoundTrip.ReadResourceTable | github_data_structured/pr_1/before_merge/ownerlist/utils.py:2684-2710 | The lines of a resource table add exactly its data rows to the section being read. |
| MdRoundTrip.WriteResourceLines | github_data_structured/pr_1/before_merge/ownerlist/utils.py:1454-1522 | A resource section is an empty line, its title and the table of its prepared rows. |
| MdRoundTrip.PrepareTwice | github_data_structured/pr_1/before_merge/ownerlist/utils.py:1525-1532 | Preparing rows that already have n cells changes nothing. |
| MdRoundTrip.ReadResourceSection | github_data_structured/pr_1/before_merge/ownerlist/utils.py:2662-2710 | Reading what the resource writer wrote, from any reader state, opens the section afresh with exactly the prepared rows. |
| MdRoundTrip.RenderSingleLine | github_data_structured/pr_1/before_merge/ownerlist/utils.py:1391-1398 | No line of a rendered table of clean cells holds a newline. |
| MdRoundTrip.ConvertLines | github_data_structured/pr_1/before_merge/ownerlist/utils.py:2659 | Splitting the text of newline-free lines gives back those lines. |
| MdRoundTrip.ConvertResourceFile | github_data_structured/pr_1/before_merge/ownerlist/utils.py:1454-1522 | The file of one written resource section converts back to that section with exactly its prepared rows. |
| Omni.After | github_data_structured/pr_1/before_merge/ownerlist/utils.py:2323-2325 | A value is read if and only if the marker occurs, and it holds no "</". |
| Omni.AfterEnvelope | github_data_structured/pr_1/before_merge/ownerlist/utils.py:2323-2325 | Reading a well-formed reply gives back the value it carries. |
| Omni.FirstAnswer | github_data_structured/pr_1/before_merge/ownerlist/utils.py:2319 | The first attempt with a status-200 reply; all earlier ones failed. |
| Omni.TicketOfText | github_data_structured/pr_1/before_merge/ownerlist/utils.py:2319-2335 | A ticket read from a reply is never empty. |
| Omni.SendTicket | github_data_structured/pr_1/before_merge/ownerlist/utils.py:2291-2430 | The first status-200 reply decides. With none, no ticket; an empty value also gives none. |
| Omni.CelerySendTicket | github_data_structured/pr_1/before_merge/ownerlist/utils.py:2862-2966 | The Celery sender also takes the first status-200 reply; with none, no ticket. |
| Omni.TicketReadingsAgree | github_data_structured/pr_1/before_merge/ownerlist/utils.py:2914-2931 | The two readings agree on every reply, except that only the Celery one accepts an empty value. |
| Omni.TicketOfEnvelope | github_data_structured/pr_1/before_merge/ownerlist/utils.py:2914-2931 | A well-formed reply yields its value to the Celery sender, and to the portal sender exactly when it is non-empty. |
| Omni.SendTicketAfterFailures | github_data_structured/pr_1/before_merge/ownerlist/utils.py:2291-2430 | Failures before the first status-200 reply, and anything after it, do not matter. |
| Omni.Lookup | github_data_structured/pr_1/before_merge/ownerlist/utils.py:2487 | `dict.get`: a value if and only if the key is present. |
| Omni.StateKey | github_data_structured/pr_1/before_merge/ownerlist/utils.py:2483-2486 | A short text is its own key. A longer one has a key if and only if it holds the marker. |
| Omni.StateRange | github_data_structured/pr_1/before_merge/ownerlist/utils.py:122-141 | A mapped state is JOB, CMP, CNL or UNK and comes with an HTTP status text. It is UNK if and only if the key read is empty. |
| Omni.StateOfEnvelope | github_data_structured/pr_1/before_merge/ownerlist/utils.py:2481-2487 | A well-formed reply is looked up by the value it carries. |
| Omni.CheckLoopNoReturn | github_data_structured/pr_1/before_merge/ownerlist/utils.py:2460-2504 | As written, the loop ends without a pair if and only if there were no attempts, or none got a status-200 reply and the last one got another status. |
| Omni.CheckStatusUnpackFails | github_data_structured/pr_1/before_merge/ownerlist/utils.py:2460-2504 | Three non-200 replies leave the caller nothing to unpack. |
| Omni.CheckStatus | github_data_structured/pr_1/before_merge/ownerlist/utils.py:2433-2504 | Corrected: agrees with the as-written pair when there is one. The first status-200 reply decides; with none, both parts are None. |
| Omni.CheckStatusRange | github_data_structured/pr_1/before_merge/ownerlist/utils.py:122-130 | Every status the check reports is JOB, CMP, CNL or UNK. |
| Omni.CheckLoopFirstAnswer | github_data_structured/pr_1/before_merge/ownerlist/utils.py:2481-2492 | The loop's pair comes from the first status-200 reply. |
| Omni.TaskIdOf | github_data_structured/pr_1/before_merge/ownerlist/utils.py:2770-2796 | The task id is "" if and only if `int` fails; otherwise it is the canonical text of the same number. |
| Omni.TaskIdOfEnvelope | github_data_structured/pr_1/before_merge/ownerlist/utils.py:2775-2796 | A reply carrying a number in any form `int` accepts yields its canonical text. |
| Omni.TaskIdCanonical | github_data_structured/pr_1/before_merge/ownerlist/utils.py:2792-2796 | A canonical number read back is itself. |
| Omni.UpdateCallbackStatus | github_data_structured/pr_1/before_merge/ownerlist/utils.py:1046-1066 | The note under the name becomes the value, under "done" for event 2, "status" for 1, "error" otherwise. Other notes and other tasks are untouched. |
| Omni.CallbackLastWins | github_data_structured/pr_1/before_merge/ownerlist/utils.py:1048-1066 | A later note under the same name replaces an earlier one. |
| Omni.CallbackCommute | github_data_structured/pr_1/before_merge/ownerlist/utils.py:1048-1066 | Notes under different names or tasks commute. |
| PortRules.ElementMatchHolds | github_data_structured/pr_2/before_merge/accesslist/views.py:2147-2155 | The element test answers the reference meaning (equal number, or inside an inclusive range). It raises only for a range and a non-numeric port. |
| PortRules.AnyElementHolds | github_data_structured/pr_2/before_merge/accesslist/views.py:2145-2155 | The comma-list loop, when it returns, is true if and only if some element holds. It raises if and only if an element before the first hit raises. |
| PortRules.RangeShape | github_data_structured/pr_2/before_merge/accesslist/views.py:2140-2141 | A range is its two numbers around the dash. |
| PortRules.RuleMatchIsAny | github_data_structured/pr_2/before_merge/accesslist/views.py:2137-2155 | The single-number and single-range branches are the one-element case of the list loop. |
| PortRules.RuleMatchHolds | github_data_structured/pr_2/before_merge/accesslist/views.py:2137-2155 | When it answers, a rule matches if and only if some comma element equals the port or contains it. |
| PortRules.RangeRuleInclusive | github_data_structured/pr_2/before_merge/accesslist/views.py:2140-2143 | The rule `a-b` matches port n if and only if a <= n <= b, also when `b` is followed by a newline. |
| PortRules.RangeWithNewline | github_data_structured/pr_2/before_merge/accesslist/views.py:2140-2143 | The rule "1-100" followed by a newline admits port 50. |
| PortRules.RowPort | github_data_structured/pr_2/before_merge/accesslist/views.py:2134-2136 | It raises if and only if the protocol field is missing or has no "/". The port text holds no blanks. |
| PortRules.ScanRulesHolds | github_data_structured/pr_2/before_merge/accesslist/views.py:2130-2155 | One ACL's rules: the answer is the flag or some applicable rule matching. |
| PortRules.ScanAclsCovers | github_data_structured/pr_2/before_merge/accesslist/views.py:2127-2157 | Over the ACLs: true if and only if some queried ACL has a rule for the two addresses admitting the port. |
| PortRules.PostAnswers | github_data_structured/pr_2/before_merge/accesslist/views.py:2121-2157 | Whenever the handler answers, it answers True if and only if some queried ACL opens that traffic on the blank-stripped port. |
| Seqs.FilterMembers | app/components/user_date_validation.py:39 | A comprehension keeps exactly the elements satisfying its condition. |
| Seqs.FilterAppend | llm_logic/code_reviewer.py:126-152 | Filtering goes piece by piece, keeping order. |
| Seqs.FilterAll | app/components/user_date_validation.py:39 | Everything is kept if and only if every element satisfies the condition. |
| SessionMeta.Basename | github_data_structured/pr_1/before_merge/ownerlist/utils.py:2049 | The base name holds no "/" and ends the path. |
| SessionMeta.DropKeys | github_data_structured/pr_1/before_merge/ownerlist/utils.py:2034-2045 | A key survives the first loop if and only if it was present and is not listed; values are kept. |
| SessionMeta.DropKeysAbsorbs | github_data_structured/pr_1/before_merge/ownerlist/utils.py:2043-2045 | Deleting a listed key beforehand makes no difference. |
| SessionMeta.RemoveDownload | github_data_structured/pr_1/before_merge/ownerlist/utils.py:2047-2056 | The key is gone. The named file is deleted if and only if the key was present with a non-empty base name. |
| SessionMeta.ClearKeepsDocx | github_data_structured/pr_1/before_merge/ownerlist/utils.py:2041-2056 | As written, no .docx file is ever removed. |
| SessionMeta.ClearLeavesDownload | github_data_structured/pr_1/before_merge/ownerlist/utils.py:2041-2056 | Concretely, the session naming "dir/acl.docx" leaves the file "acl.docx" behind. |
| SessionMeta.ClearSessionMetaClears | github_data_structured/pr_1/before_merge/ownerlist/utils.py:2031-2067 | Corrected: page keys and both download keys are gone, and both named files are deleted. |
| SessionMeta.ClearSessionMetaAgrees | github_data_structured/pr_1/before_merge/ownerlist/utils.py:2031-2067 | Both versions leave the same session; the only difference is the .docx file. |
| Sheets.IsRowEmpty | github_data_structured/pr_1/before_merge/ownerlist/utils.py:591-598 | A row is empty if and only if every cell is "". |
| Strings.JoinSplit | llm_logic/core.py:815-820 | Splitting and re-joining on the same separator gives the text back. |
| Strings.SplitLast | llm_logic/parsing/repo_parsing.py:24 | The last part of `s.split(d)` ends `s` and is all of `s` or follows a `d`. |
| Strings.SplitJoinChar | github_data_structured/pr_2/before_merge/accesslist/views.py:1875-1902 | Joining separator-free parts and splitting again gives the parts back. |
| Strings.Find | github_data_structured/pr_1/before_merge/ownerlist/utils.py:2323 | The first occurrence of the separator. |
| Strings.Split | github_data_structured/pr_1/before_merge/ownerlist/utils.py:2323-2325 | The parts hold no separator and join back to the text. |
| Strings.NatToStringValue | github_data_structured/pr_1/before_merge/ownerlist/utils.py:2243 | `str(n)` is digits without leading zeros whose value is n. |
| Strings.IntToStringRoundTrip | github_data_structured/pr_1/before_merge/ownerlist/utils.py:2792-2796 | `int(str(n)) == n`. |
| UrlValidation.UrlParse | app/components/user_date_validation.py:34 | `urlparse` raises only for a network location with one of "[" and "]". |
| UrlValidation.Segments | app/components/user_date_validation.py:38-39 | A text is a segment if and only if it is a non-empty part of `path.split("/")`; no segment is empty or holds "/". |
| UrlValidation.Checked | app/components/user_date_validation.py:61-73 | The checks pass if and only if the host is github.com or www.github.com and the path has at least two non-empty segments. |
| UrlValidation.OwnerRepoPattern | app/components/user_date_validation.py:78 | The pattern yields two non-empty slash-free names from an http(s) github.com URL. |
| UrlValidation.UrlValidationsAsWritten | app/components/user_date_validation.py:60-86 | As written: False when the checks fail. Once they pass, it raises AttributeError if and only if the pattern does not match, and otherwise gives the pattern's two names. |
| UrlValidation.UrlValidations | app/components/user_date_validation.py:60-86 | Corrected: False if and only if the checks fail; otherwise the first two path segments. |
| UrlValidation.SetRepoUrlAsWritten | app/components/user_date_validation.py:31-57 | As written: a rejected URL leaves the session alone. An accepted one stores the URL, then the owner and repository, or raises. |
| UrlValidation.SetRepoUrl | app/components/user_date_validation.py:31-57 | Corrected: the same, with the names from the checked path. |
| UrlValidation.SetRepoUrlMatchesAsWritten | app/components/user_date_validation.py:31-86 | `set_repo_url` stores exactly what `url_validations` returns, as written. |
| UrlValidation.SetRepoUrlMatches | app/components/user_date_validation.py:31-86 | The same for the corrected versions. |
| UrlValidation.OtherHostsRejected | app/components/user_date_validation.py:35-36 | Every host but the two GitHub ones is rejected by both versions. |
| UrlValidation.ShortPathRejected | app/components/user_date_validation.py:40-41 | A path with fewer than two non-empty segments is rejected. |
| UrlValidation.RepoUrlChecked | app/components/user_date_validation.py:61-70 | A repository URL on a GitHub host passes the checks, with owner and repository as its segments. |
| UrlValidation.OwnerRepoFromGithub | app/components/user_date_validation.py:78-86 | `http(s)://github.com/owner/repo` gives owner and repository, and both versions agree. |
| UrlValidation.WwwHostRaises | app/components/user_date_validation.py:64-86 | `https://www.github.com/owner/repo` passes the checks but raises AttributeError as written; corrected, it gives the names. |

## Left out

- Network transport, timeouts, sleeps between retries, NTLM authentication and proxies: replies are given as `Attempt` sequences; the number of retries in `send_onmitracker` and `celery_send_omnitracker` is whatever the sequence holds.
- Mattermost messages, e-mails, `messages.*` notices, logging, prints and threads started after approval: they change no modelled state.
- The docx generation (`make_doc`) and the Markdown/GitLab steps in `send_acl`: the docx result is a boolean parameter, and whether a later step raises is the `later` parameter of `AclTasks.SendAcl`. When those steps finish they change nothing in the record, and when one raises the transaction undoes the stored ticket and JOB.
- `MakeTemporaryToken`: the fresh token is a parameter of `AclViews.StageChange`.
- `save__form`: owner, project, file-name, IP and Owners bookkeeping and the team a successful save stores are left out; the model keeps status, sections and activity. Of the team bookkeeping it keeps the failure before the status step: the posted "teamid" and the set of team ids are parameters. Python's `hash` of the JSON dump is modelled as equality of the stored values.
- Database ordering and querysets: `taskstatus` receives the newest record the lookup finds; `check_acl_status` receives the records in query order; per-record exceptions in the poll are a `raised` parameter.
- Regular-expression engines: `parse_linked_issues` receives the three `re.findall` match lists as parameters; the digit patterns of the port rules, task status and sheet names are written out as predicates on ASCII digits, with the one final newline that `$` admits. Python's `int` accepting underscores and non-ASCII digits is not modelled.
- `isoparse`: a parameter `string -> Option<int>` of the date filter; time zones (comparing naive and aware dates raises `TypeError`) are not modelled.
- GitHub API fields other than those the modelled loops read, and the request and decoding steps before the file loop of `github_process_commit_files_list`.
- Git and pygit I/O in the repository parser, the database session and the "\ No newline at end of file" diff line (it is a context line to the loop and advances the number as written).
- `urlparse`'s NFKC check of the network location and its bracketed-host parsing beyond the unmatched-bracket `ValueError`; `os.environ` writes in `set_repo_url`, which mirror the session writes.
- The panel's psutil figures, the rows of the history query, the `int()` parsing of the `view` and `severity` query arguments, and reading the log file (lines are given).
- `table` with `file=None` (it writes nothing) and with field entries that are names or functions: fields are record indices, as every caller in the writers passes.
- MdRoundTrip.ConvertResourceFile: the round trip is proved for one resource section at a time and for cells that are single-line, free of "|" and of surrounding whitespace, in rows the reader does not take for a heading or ruling row; the contact block and multi-section files are not covered.
- AclViews.SaveFormAsWritten, AclViews.SaveForm: of the bookkeeping failures only the team-id one is modelled; a database error in the Owners and IP steps, which also ends the save, is not.
- AclTasks.CheckAclStatusAsWritten: only the `TypeError` of a missing status pair is derived from the replies. Other exceptions of a record's check are a parameter.
- AclTasks.CheckAclStatus, AclTasks.PollEach, AclTasks.PolledStaysListed, AclTasks.AclSendingRetryChecking, AclViews.TaskStatus: these use the corrected status checks (Omni.CheckStatus, AclTasks.CheckAclInOmni). The program's own behaviour is in the members ending in `AsWritten`, and the lemmas PollsAgree, AclSendingRetryCheckingAsWritten and TaskStatusAsWritten state where the two agree.
- MdTable.CreateMarkdown: the file is opened for writing before the sections are written, so a section that raises leaves a truncated file behind. The model returns only the lines of a complete file.
- MdTable.CreateMarkdown: the two `update_callback_status` notes before and after writing are not part of it; Omni.UpdateCallbackStatus models such notes.
- GithubChanges.CountOf: a boolean count is stored in the file metadata as 1 or 0, where Python keeps `True` or `False`. Floating-point counts are not modelled.
- LogPanel.ShownLogAsWritten: it models lines 105-108 alone, for every integer view size. The page never reaches them with a negative size, because the history query raises first (LogPanel.PanelLogAsWritten). Older Django versions raise `AssertionError` there rather than `ValueError`.
- Omni.CheckStatus: requires exactly three attempts, the retry count of `omni_check_status`.

## Findings

| source | as written | input that shows it | evidently intended | confidence | as-written member | corrected member |
|---|---|---|---|---|---|---|
| github_data_structured/pr_1/before_merge/ownerlist/utils.py:1352 | `range[...]` subscripts the `range` type and raises `TypeError` | `table([["a"]], [0])` with no alignment list | missing pairs default to `("^", "<")` | high, not executed | MdTable.TableAsWritten, MdTable.TableAsWrittenRejectsDefaults | MdTable.Table |
| github_data_structured/pr_1/before_merge/ownerlist/utils.py:2460-2504 | when no attempt gets status 200 and the last one does not raise, the function returns `None`, which callers unpack as a pair | three replies with status 500 | return `(None, None)` | high, not executed | Omni.CheckStatusAsWritten, Omni.CheckStatusUnpackFails, AclTasks.AclSendingRetryCheckingAsWritten, AclViews.TaskStatusAsWritten | Omni.CheckStatus, AclTasks.AclSendingRetryChecking, AclViews.TaskStatus |
| github_data_structured/pr_1/before_merge/ownerlist/utils.py:2976-2979 | any reported status is adopted, including "UNK" for an empty reply | a record in JOB whose status reply body is empty | adopt only CMP, JOB or CNL, like `acl_sending_retry_checking` and `taskstatus` | medium, not executed | AclTasks.CheckAclInOmniAsWritten, AclTasks.CheckAclInOmniAdoptsUnknown, AclTasks.PolledAsWrittenStatus | AclTasks.CheckAclInOmni, AclTasks.PolledStaysListed |
| github_data_structured/pr_2/before_merge/accesslist/views.py:743-745 | `obj.approve.add([])` raises before the status is reset, so a changed CMP record keeps CMP and the save fails | an existing CMP record whose session data differs | reset the record to FL and save | medium, not executed | AclViews.SaveFormAsWritten, AclViews.SaveFormKeepsChangedCmp | AclViews.SaveForm |
| github_data_structured/pr_1/before_merge/ownerlist/utils.py:2041-2056 | "file_download" is deleted by the first loop, so the .docx block never runs | session `file_download = "dir/acl.docx"` | remove the generated .docx file | high, not executed | SessionMeta.ClearSessionMetaAsWritten, SessionMeta.ClearLeavesDownload | SessionMeta.ClearSessionMeta |
| llm_logic/parsing/repo_parsing.py:24 | `.replace('.git', '')` removes every ".git" in the name | `https://github.com/u/my.github.io.git` | strip only a trailing ".git" | high, not executed | DiffLines.DefaultClonePathAsWritten, DiffLines.ClonePathDropsInnerGit | DiffLines.DefaultClonePath |
| llm_logic/parsing/repo_parsing.py:93-115 | inside a hunk, "++x" is not taken as added and "--x" is taken as context | a hunk adding the line "+x" or removing the line "-x" | the first character alone decides | medium, not executed | DiffLines.KindAsWritten, DiffLines.DoublePlusDropped, DiffLines.DoubleDashAdvances | DiffLines.KindOf, DiffLines.HunkBody |
| app/components/user_date_validation.py:60-86 | the host check admits www.github.com but the pattern requires github.com, so `match.group` is called on `None` | `https://www.github.com/owner/repo` | return the owner and repository of an accepted URL | high, not executed | UrlValidation.UrlValidationsAsWritten, UrlValidation.WwwHostRaises | UrlValidation.UrlValidations |
| github_data_structured/pr_2/before_merge/panel/views.py:105-108 | `buf[-0:]` is the whole buffer | `?view=0` with a non-empty log | show no more than `view` entries | medium, not executed | LogPanel.ShownLogAsWritten, LogPanel.ZeroViewShowsAll | LogPanel.ShownLog, LogPanel.ShownLogLast |

=== FILE: acl.dfy ===
/** The access-list (ACL) record of the portal and the statuses it moves
    through: NOTFL (form not filled), FL (filled), WTE (waiting for
    approval), APRV (approved), JOB (ticket open at the service desk), CMP
    (done), CNL (cancelled), FLY. The database keeps the status as text, so
    a record can also hold a code outside the list. */
module Acl {
  import opened Wrappers
  import opened Strings
  import opened MdReader

  datatype Status = NOTFL | FL | WTE | APRV | JOB | CMP | CNL | FLY | Unlisted(code: string)

  /** The text the database stores. */
  function Code(s: Status): string {
    match s
    case NOTFL => "NOTFL"
    case FL => "FL"
    case WTE => "WTE"
    case APRV => "APRV"
    case JOB => "JOB"
    case CMP => "CMP"
    case CNL => "CNL"
    case FLY => "FLY"
    case Unlisted(c) => c
  }

  function Parse(code: string): (s: Status)
    ensures s.Unlisted? ==> s.code == code
  {
    if code == "NOTFL" then NOTFL
    else if code == "FL" then FL
    else if code == "WTE" then WTE
    else if code == "APRV" then APRV
    else if code == "JOB" then JOB
    else if code == "CMP" then CMP
    else if code == "CNL" then CNL
    else if code == "FLY" then FLY
    else Unlisted(code)
  }

  /** A status whose text is one of the eight codes is that status. */
  predicate Canonical(s: Status) {
    s.Unlisted? ==> Parse(s.code).Unlisted?
  }

  /** Every stored text reads back as itself. */
  lemma CodeOfParse(code: string)
    ensures Code(Parse(code)) == code
    ensures Canonical(Parse(code))
  {
  }

  /** Every canonical status is read back from its text. */
  lemma ParseOfCode(s: Status)
    requires Canonical(s)
    ensures Parse(Code(s)) == s
  {
  }

  /** The statuses the service desk may impose on a record. */
  predicate Adoptable(code: string) {
    code == "CMP" || code == "JOB" || code == "CNL"
  }

  lemma AdoptableListed(code: string)
    requires Adoptable(code)
    ensures !Parse(code).Unlisted? && (Parse(code) == CMP || Parse(code) == JOB || Parse(code) == CNL)
  {
  }

  type User = string

  /** One access list. `taskid` is the service-desk ticket (`None` for a
      database NULL), `approvers` the users asked to approve, `token` the
      one-time token of the approval link, `activity` the ";"-joined list of
      requested jobs (`None` for NULL), and `sections` the form data per
      section (a missing entry is an empty field). */
  datatype Acl = Acl(
    id: string,
    status: Status,
    taskid: Option<string>,
    approvers: set<User>,
    owner: Option<User>,
    token: string,
    comment: string,
    activity: Option<string>,
    sections: map<SectionKey, seq<Stored>>)

  /** Python's truth value of `taskid`: set and not empty. */
  predicate HasTask(a: Acl) {
    a.taskid.Some? && a.taskid.value != ""
  }

  /** The records by id. */
  type Store = map<string, Acl>
}

=== FILE: acl_tasks.dfy ===
/** The background tasks that move an access list to and from the service
    desk: `send_acl` opens the ticket, `check_acl_status` polls the open
    ones, and `check_acl_in_omni` / `acl_sending_retry_checking` take over
    the ticket's state. Every service-desk call is given as the attempts it
    makes; the docx document is given as whether it could be generated. */
module AclTasks {
  import opened Wrappers
  import opened Strings
  import opened Omni
  import opened Acl

  /** What `send_acl` returns: `None` when the record already has a
      ticket, `False` on a failure, or the new ticket number. */
  datatype SendOutcome = Skipped | Failed | Sent(ticket: string)

  datatype Sending = Sending(acl: Acl, outcome: SendOutcome)

  /** `send_acl`: a record that has a ticket is left alone; a document
      that cannot be generated, or a service desk that gives no number,
      fails without a change; the owner's e-mail and the first approver's
      name are read on the way (`AttributeError` when either is missing); a
      number opens the ticket and moves the record to JOB. The Markdown and
      Git steps that follow are given as `later`: `Some(e)` when one of them
      raises `e` (a missing file name for `splitext`, a malformed Git
      address, a failed checkout). The task is one transaction, so a raise
      undoes the stored ticket and JOB status, although the service desk
      has already opened the ticket. */
  function SendAcl(acl: Acl, docx: bool, attempts: seq<Attempt>, later: Option<Exc>): (r: Result<Sending>)
    ensures HasTask(acl) ==> r.Ok? && r.value.outcome.Skipped? && r.value.acl == acl
    ensures !HasTask(acl) && !docx ==> r.Ok? && r.value.outcome.Failed? && r.value.acl == acl
    ensures r.Raise? <==>
      !HasTask(acl) && docx &&
      (acl.owner.None? || acl.approvers == {} || (CelerySendTicket(attempts).Some? && later.Some?))
    ensures r.Raise? && (acl.owner.None? || acl.approvers == {}) ==> r.exc == AttributeError
    ensures r.Raise? && acl.owner.Some? && acl.approvers != {} ==> later.Some? && r.exc == later.value
    ensures r.Ok? && !r.value.outcome.Sent? ==> r.value.acl == acl
    ensures r.Ok? && r.value.outcome.Sent? ==>
      later.None? &&
      CelerySendTicket(attempts).Some? && r.value.outcome.ticket == CelerySendTicket(attempts).value &&
      r.value.acl == acl.(taskid := Some(r.value.outcome.ticket), status := JOB)
  {
    if HasTask(acl) then Ok(Sending(acl, Skipped))
    else if !docx then Ok(Sending(acl, Failed))
    else if acl.owner.None? || acl.approvers == {} then Raise(AttributeError)
    else
      match CelerySendTicket(attempts)
      case None => Ok(Sending(acl, Failed))
      case Some(t) =>
        match later
        case Some(e) => Raise(e)
        case None => Ok(Sending(acl.(taskid := Some(t), status := JOB), Sent(t)))
  }

  /** Running the task again after it opened a ticket with a number opens no
      second ticket and changes nothing. */
  lemma SendAclOnce(acl: Acl, docx: bool, attempts: seq<Attempt>, later: Option<Exc>,
                    docx2: bool, attempts2: seq<Attempt>, later2: Option<Exc>)
    requires SendAcl(acl, docx, attempts, later).Ok?
    requires SendAcl(acl, docx, attempts, later).value.outcome.Sent?
    requires SendAcl(acl, docx, attempts, later).value.outcome.ticket != ""
    ensures var first := SendAcl(acl, docx, attempts, later).value.acl;
      SendAcl(first, docx2, attempts2, later2).Ok? &&
      SendAcl(first, docx2, attempts2, later2).value.outcome.Skipped? &&
      SendAcl(first, docx2, attempts2, later2).value.acl == first
  {
  }

  /** When a step after the ticket raises, the record keeps no ticket, so
      the next run sends the same record again and the service desk opens
      a second ticket for it. */
  lemma SendAclRollbackResends(acl: Acl, attempts: seq<Attempt>, e: Exc)
    requires !HasTask(acl) && acl.owner.Some? && acl.approvers != {}
    requires CelerySendTicket(attempts).Some?
    ensures SendAcl(acl, true, attempts, Some(e)).Raise?
    ensures SendAcl(acl, true, attempts, Some(e)).exc == e
    ensures SendAcl(acl, true, attempts, None).Ok?
    ensures SendAcl(acl, true, attempts, None).value.outcome == Sent(CelerySendTicket(attempts).value)
  {
  }

  /** A reply with status 200 and an empty body is taken as ticket "": the
      record goes to JOB with an empty ticket number, which counts as no
      ticket, so the next run sends it again. */
  lemma SendAclEmptyTicket(acl: Acl)
    requires !HasTask(acl) && acl.owner.Some? && acl.approvers != {}
    ensures SendAcl(acl, true, [Answer("")], None).Ok?
    ensures SendAcl(acl, true, [Answer("")], None).value.outcome == Sent("")
    ensures !HasTask(SendAcl(acl, true, [Answer("")], None).value.acl)
  {
    assert FirstAnswer([Answer("")]) == Some(0);
  }

  /** What `check_acl_in_omni` leaves and returns: the record and the
      status code the service desk reported, if it reported one. */
  datatype Checked = Checked(acl: Acl, remote: Option<string>)

  /** `check_acl_in_omni` as written: a record with a ticket takes over
      any status code the service desk reports, "UNK" included; the
      missing pair of the status check raises `TypeError` on unpacking. */
  function CheckAclInOmniAsWritten(acl: Acl, attempts: seq<Attempt>): (r: Result<Checked>)
    requires |attempts| == MaxRetries
    ensures r.Raise? <==> HasTask(acl) && CheckStatusAsWritten(attempts).NoReturn?
    ensures r.Raise? ==> r.exc == TypeError
    ensures r.Ok? && !HasTask(acl) ==> r.value.acl == acl && r.value.remote.None?
    ensures r.Ok? && HasTask(acl) ==> r.value.remote == CheckStatusAsWritten(attempts).pair.acl
    ensures r.Ok? ==> r.value.acl.(status := acl.status) == acl
    ensures r.Ok? && r.value.remote.None? ==> r.value.acl == acl
    ensures r.Ok? && r.value.remote.Some? ==> Code(r.value.acl.status) == r.value.remote.value
    ensures r.Ok? && r.value.acl.status != acl.status ==>
      r.value.remote.Some? && RemoteStatus(r.value.remote.value) &&
      r.value.acl.status == Parse(r.value.remote.value)
  {
    if !HasTask(acl) then Ok(Checked(acl, None))
    else
      match CheckStatusAsWritten(attempts)
      case NoReturn => Raise(TypeError)
      case Returned(p) =>
        CheckStatusRange(attempts);
        match p.acl
        case None => Ok(Checked(acl, None))
        case Some(code) =>
          CodeOfParse(code);
          var next := if Code(acl.status) != code then acl.(status := Parse(code)) else acl;
          Ok(Checked(next, Some(code)))
  }

  /** An empty reply body moves a polled record out of JOB to the code
      "UNK", which is no status of the list and which the poller never
      looks at again. */
  lemma CheckAclInOmniAdoptsUnknown(acl: Acl)
    requires HasTask(acl) && acl.status == JOB
    ensures CheckAclInOmniAsWritten(acl, [Answer(""), Failure, Failure]).Ok?
    ensures CheckAclInOmniAsWritten(acl, [Answer(""), Failure, Failure]).value.acl.status == Unlisted("UNK")
  {
    assert StateOfText("") == StatePair(Some("UNK"), Some("Статус не известен"));
  }

  /** `check_acl_in_omni` as evidently intended, like its sibling checks:
      only CMP, JOB and CNL are taken over, and the status check always
      yields a pair. */
  function CheckAclInOmni(acl: Acl, attempts: seq<Attempt>): (r: Checked)
    requires |attempts| == MaxRetries
    ensures !HasTask(acl) ==> r.acl == acl && r.remote.None?
    ensures HasTask(acl) ==> r.remote == CheckStatus(attempts).acl
    ensures r.acl.(status := acl.status) == acl
    ensures r.remote.Some? && Adoptable(r.remote.value) ==> Code(r.acl.status) == r.remote.value
    ensures r.remote.None? || !Adoptable(r.remote.value) ==> r.acl == acl
    ensures r.acl.status != acl.status ==> r.acl.status == Parse(r.remote.value)
  {
    if !HasTask(acl) then Checked(acl, None)
    else
      var p := CheckStatus(attempts);
      match p.acl
      case None => Checked(acl, None)
      case Some(code) =>
        CodeOfParse(code);
        var next := if Code(acl.status) != code && Adoptable(code) then acl.(status := Parse(code)) else acl;
        Checked(next, Some(code))
  }

  /** Where the service desk reports one of the three adoptable statuses,
      the two versions agree. */
  lemma CheckAclInOmniAgrees(acl: Acl, attempts: seq<Attempt>)
    requires |attempts| == MaxRetries
    requires CheckAclInOmniAsWritten(acl, attempts).Ok?
    requires var rem := CheckAclInOmniAsWritten(acl, attempts).value.remote;
      rem.None? || Adoptable(rem.value)
    ensures CheckAclInOmniAsWritten(acl, attempts).value == CheckAclInOmni(acl, attempts)
  {
  }

  /** The records `check_acl_status` polls: status JOB and a ticket number
      that is neither NULL nor empty. */
  predicate Polled(a: Acl) {
    a.status == JOB && HasTask(a)
  }

  /** `check_acl_status` as written: every polled record is checked in
      turn with its own attempts by `CheckAclInOmniAsWritten`. An exception
      of the check is logged and leaves that record as it was, and the loop
      goes on: the `TypeError` of a missing status pair, or, where
      `raised[i]` says so, a failure outside this model (a database error,
      say). Returns the records afterwards and the indices it checked. */
  method CheckAclStatusAsWritten(acls: seq<Acl>, replies: seq<seq<Attempt>>, raised: seq<bool>)
    returns (out: seq<Acl>, visited: seq<nat>)
    requires |replies| == |acls| && |raised| == |acls|
    requires forall i :: 0 <= i < |replies| ==> |replies[i]| == MaxRetries
    ensures |out| == |acls|
    ensures forall i :: 0 <= i < |acls| && (!Polled(acls[i]) || raised[i]) ==> out[i] == acls[i]
    ensures forall i :: 0 <= i < |acls| && CheckAclInOmniAsWritten(acls[i], replies[i]).Raise? ==> out[i] == acls[i]
    ensures forall i ::
      0 <= i < |acls| && Polled(acls[i]) && !raised[i] && CheckAclInOmniAsWritten(acls[i], replies[i]).Ok? ==>
      out[i] == CheckAclInOmniAsWritten(acls[i], replies[i]).value.acl
    ensures forall k :: 0 <= k < |visited| ==> visited[k] < |acls| && Polled(acls[visited[k]])
    ensures forall i :: 0 <= i < |acls| && Polled(acls[i]) ==> i in visited
    ensures forall k, l :: 0 <= k < l < |visited| ==> visited[k] < visited[l]
  {
    out := PollEachAsWritten(acls, replies, raised);
    visited := PolledIndices(acls);
  }

  /** The loop as written, for what it leaves in the records. */
  method PollEachAsWritten(acls: seq<Acl>, replies: seq<seq<Attempt>>, raised: seq<bool>) returns (out: seq<Acl>)
    requires |replies| == |acls| && |raised| == |acls|
    requires forall i :: 0 <= i < |replies| ==> |replies[i]| == MaxRetries
    ensures |out| == |acls|
    ensures forall i :: 0 <= i < |acls| && (!Polled(acls[i]) || raised[i]) ==> out[i] == acls[i]
    ensures forall i :: 0 <= i < |acls| && CheckAclInOmniAsWritten(acls[i], replies[i]).Raise? ==> out[i] == acls[i]
    ensures forall i ::
      0 <= i < |acls| && Polled(acls[i]) && !raised[i] && CheckAclInOmniAsWritten(acls[i], replies[i]).Ok? ==>
      out[i] == CheckAclInOmniAsWritten(acls[i], replies[i]).value.acl
  {
    out := [];
    var i := 0;
    while i < |acls|
      invariant 0 <= i <= |acls|
      invariant |out| == i
      invariant forall j :: 0 <= j < i ==> out[j] == PollAsWritten(acls[j], replies[j], raised[j])
    {
      out := out + [PollAsWritten(acls[i], replies[i], raised[i])];
      i := i + 1;
    }
  }

  /** `check_acl_status` with the corrected check: the same loop, with
      `CheckAclInOmni` in place of the check as written. */
  method CheckAclStatus(acls: seq<Acl>, replies: seq<seq<Attempt>>, raised: seq<bool>)
    returns (out: seq<Acl>, visited: seq<nat>)
    requires |replies| == |acls| && |raised| == |acls|
    requires forall i :: 0 <= i < |replies| ==> |replies[i]| == MaxRetries
    ensures |out| == |acls|
    ensures forall i :: 0 <= i < |acls| && (!Polled(acls[i]) || raised[i]) ==> out[i] == acls[i]
    ensures forall i :: 0 <= i < |acls| && Polled(acls[i]) && !raised[i] ==>
      out[i] == CheckAclInOmni(acls[i], replies[i]).acl
    ensures forall k :: 0 <= k < |visited| ==> visited[k] < |acls| && Polled(acls[visited[k]])
    ensures forall i :: 0 <= i < |acls| && Polled(acls[i]) ==> i in visited
    ensures forall k, l :: 0 <= k < l < |visited| ==> visited[k] < visited[l]
  {
    out := PollEach(acls, replies, raised);
    visited := PolledIndices(acls);
  }

  /** The corrected loop, for what it leaves in the records. */
  method PollEach(acls: seq<Acl>, replies: seq<seq<Attempt>>, raised: seq<bool>) returns (out: seq<Acl>)
    requires |replies| == |acls| && |raised| == |acls|
    requires forall i :: 0 <= i < |replies| ==> |replies[i]| == MaxRetries
    ensures |out| == |acls|
    ensures forall i :: 0 <= i < |acls| && (!Polled(acls[i]) || raised[i]) ==> out[i] == acls[i]
    ensures forall i :: 0 <= i < |acls| && Polled(acls[i]) && !raised[i] ==>
      out[i] == CheckAclInOmni(acls[i], replies[i]).acl
  {
    out := [];
    var i := 0;
    while i < |acls|
      invariant 0 <= i <= |acls|
      invariant |out| == i
      invariant forall j :: 0 <= j < i ==> out[j] == Poll(acls[j], replies[j], raised[j])
    {
      out := out + [Poll(acls[i], replies[i], raised[i])];
      i := i + 1;
    }
  }

  /** The loop over the records, for which of them it checks. */
  method PolledIndices(acls: seq<Acl>) returns (visited: seq<nat>)
    ensures forall k :: 0 <= k < |visited| ==> visited[k] < |acls| && Polled(acls[visited[k]])
    ensures forall i :: 0 <= i < |acls| && Polled(acls[i]) ==> i in visited
    ensures forall k, l :: 0 <= k < l < |visited| ==> visited[k] < visited[l]
  {
    visited := [];
    var i := 0;
    while i < |acls|
      invariant 0 <= i <= |acls|
      invariant forall k :: 0 <= k < |visited| ==> visited[k] < i && Polled(acls[visited[k]])
      invariant forall j :: 0 <= j < i && Polled(acls[j]) ==> j in visited
      invariant forall k, l :: 0 <= k < l < |visited| ==> visited[k] < visited[l]
    {
      if Polled(acls[i]) {
        visited := visited + [i];
      }
      i := i + 1;
    }
  }

  /** One record of the poll as written; an exception of the check leaves
      the record. */
  function PollAsWritten(a: Acl, attempts: seq<Attempt>, raised: bool): Acl
    requires |attempts| == MaxRetries
  {
    if Polled(a) && !raised then
      match CheckAclInOmniAsWritten(a, attempts)
      case Raise(_) => a
      case Ok(c) => c.acl
    else a
  }

  /** One record of the corrected poll. */
  function Poll(a: Acl, attempts: seq<Attempt>, raised: bool): Acl
    requires |attempts| == MaxRetries
  {
    if Polled(a) && !raised then CheckAclInOmni(a, attempts).acl else a
  }

  /** As written, a polled record leaves the poll in JOB, CMP or CNL, or
      in the unlisted code "UNK". */
  lemma PolledAsWrittenStatus(a: Acl, attempts: seq<Attempt>, raised: bool)
    requires |attempts| == MaxRetries && Polled(a)
    ensures var s := PollAsWritten(a, attempts, raised).status;
      s == JOB || s == CMP || s == CNL || s == Unlisted("UNK")
  {
    var r := CheckAclInOmniAsWritten(a, attempts);
    if !raised && r.Ok? && r.value.acl.status != a.status {
      assert RemoteStatus(r.value.remote.value);
    }
  }

  /** With the corrected check, a polled record leaves the poll in JOB, or
      in CMP or CNL. */
  lemma PolledStaysListed(a: Acl, attempts: seq<Attempt>, raised: bool)
    requires |attempts| == MaxRetries && Polled(a)
    ensures var s := Poll(a, attempts, raised).status; s == JOB || s == CMP || s == CNL
  {
    var r := CheckAclInOmni(a, attempts);
    if !raised && r.acl.status != a.status {
      AdoptableListed(r.remote.value);
    }
  }

  /** Wherever the status check as written yields a pair and the service
      desk does not report "UNK", the two polls agree. */
  lemma PollsAgree(a: Acl, attempts: seq<Attempt>, raised: bool)
    requires |attempts| == MaxRetries
    requires CheckStatusAsWritten(attempts).Returned?
    requires CheckStatus(attempts).acl != Some("UNK")
    ensures PollAsWritten(a, attempts, raised) == Poll(a, attempts, raised)
  {
    if Polled(a) && !raised {
      CheckStatusRange(attempts);
      CheckAclInOmniAgrees(a, attempts);
    }
  }

  /** What `acl_sending_retry_checking` leaves and returns: the record, and
      the ticket number found for it, if any. */
  datatype Retry = Retry(acl: Acl, found: Option<string>)

  /** `acl_sending_retry_checking` as written: looks the record up at the
      service desk by its id; with no ticket number found, nothing changes
      and `None` is returned. Otherwise the status check comes first, and
      its missing pair raises `TypeError` on unpacking before anything is
      saved; then the record takes the ticket number, takes the ticket's
      status when it is CMP, JOB or CNL and differs, and the number is
      returned. */
  function AclSendingRetryCheckingAsWritten(acl: Acl, lookup: Attempt, attempts: seq<Attempt>): (r: Result<Retry>)
    requires |attempts| == MaxRetries
    ensures r.Raise? <==> TaskIdOf(lookup) != "" && CheckStatusAsWritten(attempts).NoReturn?
    ensures r.Raise? ==> r.exc == TypeError
    ensures r.Ok? ==> r.value == AclSendingRetryChecking(acl, lookup, attempts)
  {
    var number := TaskIdOf(lookup);
    if number == "" then Ok(Retry(acl, None))
    else
      match CheckStatusAsWritten(attempts)
      case NoReturn => Raise(TypeError)
      case Returned(p) =>
        var withTask := if acl.taskid != Some(number) then acl.(taskid := Some(number)) else acl;
        var next :=
          if p.acl.Some? && Code(acl.status) != p.acl.value && Adoptable(p.acl.value)
          then withTask.(status := Parse(p.acl.value)) else withTask;
        Ok(Retry(next, Some(number)))
  }

  /** `acl_sending_retry_checking` with the corrected status check, which
      always yields a pair: the same steps, and no exception. */
  function AclSendingRetryChecking(acl: Acl, lookup: Attempt, attempts: seq<Attempt>): (r: Retry)
    requires |attempts| == MaxRetries
    ensures r.found.None? <==> TaskIdOf(lookup) == ""
    ensures r.found.None? ==> r.acl == acl
    ensures r.found.Some? ==> r.acl.taskid == r.found && r.found.value == TaskIdOf(lookup)
    ensures r.acl.(status := acl.status, taskid := acl.taskid) == acl
    ensures r.found.Some? && CheckStatus(attempts).acl.Some? && Adoptable(CheckStatus(attempts).acl.value) ==>
      Code(r.acl.status) == CheckStatus(attempts).acl.value
    ensures r.acl.status != acl.status ==>
      Adoptable(Code(r.acl.status)) && CheckStatus(attempts).acl == Some(Code(r.acl.status))
  {
    var number := TaskIdOf(lookup);
    if number == "" then Retry(acl, None)
    else
      var p := CheckStatus(attempts);
      var withTask := if acl.taskid != Some(number) then acl.(taskid := Some(number)) else acl;
      match p.acl
      case None => Retry(withTask, Some(number))
      case Some(code) =>
        CodeOfParse(code);
        var next := if Code(acl.status) != code && Adoptable(code) then withTask.(status := Parse(code)) else withTask;
        Retry(next, Some(number))
  }

  /** Checking again with the same answers changes nothing more. */
  lemma RetryCheckingIdempotent(acl: Acl, lookup: Attempt, attempts: seq<Attempt>)
    requires |attempts| == MaxRetries
    ensures var once := AclSendingRetryChecking(acl, lookup, attempts);
      AclSendingRetryChecking(once.acl, lookup, attempts) == once
  {
    var once := AclSendingRetryChecking(acl, lookup, attempts);
    if once.found.Some? {
      var p := CheckStatus(attempts);
      if p.acl.Some? && Adoptable(p.acl.value) {
        CodeOfParse(p.acl.value);
      }
    }
  }
}

=== FILE: acl_views.dfy ===
/** The portal's views that change an access list: the approval step
    (`acl_stage_change`), saving the form (`save__form`), deleting
    (`AclRemove`), the requested-jobs list (`act`) and the status page that
    reconciles with the service desk (`taskstatus`). Requests arrive as
    plain values; the fresh approval token is a parameter. */
module AclViews {
  import opened Wrappers
  import opened Strings
  import opened MdTable
  import opened MdReader
  import opened Omni
  import opened Acl
  import AclTasks

  // ---------------------------------------------------------------------
  // `acl_stage_change`

  /** The parts of the request the view reads. `referer` is the
      `HTTP_REFERER` header, `None` when it is absent. */
  datatype StageRequest = StageRequest(
    post: bool, authenticated: bool, uuid: string, text: string, stage: string,
    referer: Option<string>, user: User)

  datatype Refusal = NotAllowed | Anonymous | BadRequest | BadStage | WteRefused | NotFound | NoRights

  datatype StageReply = Refused(why: Refusal) | Changed(stage: Status)

  datatype Handled = Handled(reply: StageReply, store: Store)

  const ValidStages: seq<string> := ["NOTFL", "FL", "CMP", "WTE", "APRV", "CNL", "JOB"]

  const DefaultReason: string := "Отклонено согласующим без указании причины"

  /** The longest comment stored. */
  const CommentLength: nat := 127

  /** APRV and CNL are for the record's approvers, or for whoever arrives
      from a link carrying the approval token. */
  predicate NeedsRights(acl: Acl, req: StageRequest) {
    (req.stage == "APRV" || req.stage == "CNL") && req.user !in acl.approvers
  }

  /** `acl_stage_change`. A request that passes the guards sets the new
      status, makes the current user the only approver, keeps the first 127
      characters of the text as the comment (a default reason for a
      cancellation without one) and issues a fresh token. Testing the
      referer when the header is absent raises `TypeError`. */
  function StageChange(store: Store, req: StageRequest, token: string): (r: Result<Handled>)
    ensures r.Ok? && r.value.reply.Refused? ==> r.value.store == store
    ensures r.Ok? && r.value.reply.Changed? ==>
      req.stage in ValidStages && req.stage != "WTE" && req.uuid in store &&
      r.value.reply.stage == Parse(req.stage) &&
      r.value.store.Keys == store.Keys &&
      (forall id :: id in store && id != req.uuid ==> r.value.store[id] == store[id])
    ensures r.Ok? && r.value.reply.Changed? ==>
      var before := store[req.uuid];
      var after := r.value.store[req.uuid];
      after.status == Parse(req.stage) && after.approvers == {req.user} && after.token == token &&
      |after.comment| <= CommentLength &&
      after.(status := before.status, approvers := before.approvers, token := before.token,
             comment := before.comment) == before
    ensures r.Raise? ==> r.exc == TypeError && req.referer.None?
  {
    if !req.post then Ok(Handled(Refused(NotAllowed), store))
    else if !req.authenticated then Ok(Handled(Refused(Anonymous), store))
    else if req.uuid == "" || req.stage == "" then Ok(Handled(Refused(BadRequest), store))
    else if req.stage !in ValidStages then Ok(Handled(Refused(BadStage), store))
    else if req.stage == "WTE" then Ok(Handled(Refused(WteRefused), store))
    else if req.uuid !in store then Ok(Handled(Refused(NotFound), store))
    else
      var acl := store[req.uuid];
      if NeedsRights(acl, req) && req.referer.None? then Raise(TypeError)
      else if NeedsRights(acl, req) && !Contains(req.referer.value, "token") then
        Ok(Handled(Refused(NoRights), store))
      else
        var text := if req.text == "" && req.stage == "CNL" then DefaultReason else req.text;
        var changed := acl.(status := Parse(req.stage), approvers := {req.user},
                            comment := Take(text, CommentLength), token := token);
        Ok(Handled(Changed(Parse(req.stage)), store[req.uuid := changed]))
  }

  /** The guards, both ways: a request changes the record exactly when it
      is an authenticated POST naming an existing record and a listed stage
      other than WTE, and, for APRV or CNL, comes from an approver or from a
      token link. */
  lemma StageChangeGuards(store: Store, req: StageRequest, token: string)
    ensures StageChange(store, req, token).Ok? && StageChange(store, req, token).value.reply.Changed?
      <==>
      req.post && req.authenticated && req.uuid != "" && req.stage in ValidStages &&
      req.stage != "WTE" && req.uuid in store &&
      (!NeedsRights(store[req.uuid], req) || (req.referer.Some? && Contains(req.referer.value, "token")))
    ensures StageChange(store, req, token).Raise? <==>
      req.post && req.authenticated && req.uuid != "" && req.stage in ValidStages &&
      req.stage != "WTE" && req.uuid in store && NeedsRights(store[req.uuid], req) && req.referer.None?
  {
  }

  /** A stage change never sets WTE, nor FLY, nor a code outside the list. */
  lemma StageChangeTargets(store: Store, req: StageRequest, token: string)
    ensures StageChange(store, req, token).Ok? && StageChange(store, req, token).value.reply.Changed? ==>
      var s := StageChange(store, req, token).value.reply.stage;
      !s.Unlisted? && s != WTE && s != FLY
  {
  }

  /** The comment: the text cut to 127 characters, or the default reason
      for a cancellation without text. */
  lemma StageChangeComment(store: Store, req: StageRequest, token: string)
    requires StageChange(store, req, token).Ok? && StageChange(store, req, token).value.reply.Changed?
    ensures var c := StageChange(store, req, token).value.store[req.uuid].comment;
      if req.text == "" && req.stage == "CNL" then c == DefaultReason
      else StartsWith(req.text, c) && (|req.text| <= CommentLength ==> c == req.text)
  {
    assert |DefaultReason| <= CommentLength;
  }

  // ---------------------------------------------------------------------
  // `save__form`

  /** What the form handler finds in the session: the section data
      (`LOCAL_STORAGE`, as `convert_md_to_dict` or the form pages leave it)
      and the session keys that are set. */
  datatype Session = Session(storage: map<SectionKey, seq<Stored>>, keys: set<string>)

  /** A section the record takes from the session: one the session holds
      whose value differs from the record's, an empty field counting as
      different. */
  predicate Differs(acl: Acl, storage: map<SectionKey, seq<Stored>>, k: SectionKey) {
    k in storage && (k !in acl.sections || acl.sections[k] == [] || acl.sections[k] != storage[k])
  }

  predicate AnyDiffers(acl: Acl, storage: map<SectionKey, seq<Stored>>) {
    exists k :: k in storage && Differs(acl, storage, k)
  }

  /** The status step: a session with at most one section makes the record
      NOTFL; otherwise an existing NOTFL record becomes FL. */
  function StatusStep(s: Status, created: bool, storage: map<SectionKey, seq<Stored>>): Status {
    if |storage| <= 1 then NOTFL
    else if !created && s == NOTFL then FL
    else s
  }

  /** The requested jobs set in the session, in the order the handler
      writes them. */
  function ActivityList(keys: set<string>): (r: seq<string>)
    ensures forall k :: 0 <= k < |r| ==> r[k] in keys && r[k] in TaskList
  {
    (if "ACT_OMNI" in keys then ["ACT_OMNI"] else []) +
    (if "ACT_MAKE_GIT" in keys then ["ACT_MAKE_GIT"] else []) +
    (if "ACT_MAKE_DOCX" in keys then ["ACT_MAKE_DOCX"] else [])
  }

  /** The activity a save leaves: the jobs set in the session, or the
      record's own when none is. */
  function ActivityOf(a: Acl, keys: set<string>): Option<string> {
    var jobs := ActivityList(keys);
    if |jobs| > 0 then Some(Join(jobs, ";")) else a.activity
  }

  datatype SaveReply = NoForm | Saved | Redirected | SaveFailed

  datatype Saving = Saving(reply: SaveReply, store: Store)

  /** The record the handler works on: the stored one, or a new one with
      the model's defaults (`blank`) under the given id. */
  function Target(store: Store, aclId: string, blank: Acl): Acl {
    if aclId in store then store[aclId] else blank.(id := aclId)
  }

  /** The record once the status step is saved. */
  function Stepped(store: Store, aclId: string, session: Session, blank: Acl): Acl {
    var obj := Target(store, aclId, blank);
    obj.(status := StatusStep(obj.status, aclId !in store, session.storage))
  }

  /** What the rest of the handler does to the stepped record. */
  datatype Outcome = Outcome(reply: SaveReply, acl: Acl)

  /** As written: if some section differs, a WTE record is refused
      (redirect), and a CMP record reaches `approve.add([])`, which raises
      `TypeError` (caught and reported) before the status is reset, so the
      record keeps CMP and the changes are lost. Otherwise the differing
      sections and the session's jobs are saved. */
  function FinishAsWritten(obj: Acl, session: Session): (r: Outcome)
    ensures r.acl.(sections := obj.sections, activity := obj.activity) == obj
  {
    if AnyDiffers(obj, session.storage) && obj.status == CMP then Outcome(SaveFailed, obj)
    else if AnyDiffers(obj, session.storage) && obj.status == WTE then Outcome(Redirected, obj)
    else Outcome(Saved, obj.(sections := obj.sections + session.storage, activity := ActivityOf(obj, session.keys)))
  }

  /** As evidently intended: a CMP record whose data changed is reset to FL,
      and that status is saved with the jobs; the loop stops there as in the
      source, so the sections stay as they were. */
  function Finish(obj: Acl, session: Session): (r: Outcome)
    ensures r.acl.(status := obj.status, sections := obj.sections, activity := obj.activity) == obj
    ensures r.acl.status != obj.status ==> obj.status == CMP && r.acl.status == FL
  {
    if AnyDiffers(obj, session.storage) && obj.status == CMP then
      Outcome(Saved, obj.(status := FL, activity := ActivityOf(obj, session.keys)))
    else if AnyDiffers(obj, session.storage) && obj.status == WTE then Outcome(Redirected, obj)
    else Outcome(Saved, obj.(sections := obj.sections + session.storage, activity := ActivityOf(obj, session.keys)))
  }

  /** The team bookkeeping that runs before the status step fails: the
      posted "teamid" (absent reads as 0) is not a number for `int`
      (`ValueError`), or is a positive id of no team (`Team.DoesNotExist`).
      The handler catches either, reports the error and saves nothing more
      than the record `get_or_create` made. */
  predicate TeamFails(teamId: Option<string>, teams: set<int>) {
    teamId.Some? &&
    (ParseInt(teamId.value).None? ||
     (ParseInt(teamId.value).value > 0 && ParseInt(teamId.value).value !in teams))
  }

  /** `save__form` as written, for the fields the model keeps: the record is
      created if missing; when the team bookkeeping fails the save stops
      there, otherwise the status step is saved at once and the rest
      follows `FinishAsWritten`. */
  function SaveFormAsWritten(store: Store, aclId: string, hasForm: bool, session: Session, blank: Acl,
                             teamId: Option<string>, teams: set<int>): (r: Saving)
    ensures !hasForm ==> r.store == store
    ensures hasForm ==> aclId in r.store && r.store.Keys == store.Keys + {aclId}
    ensures forall id :: id in store && id != aclId ==> r.store[id] == store[id]
    ensures hasForm && TeamFails(teamId, teams) ==>
      r.reply == SaveFailed &&
      (aclId in store ==> r.store == store) &&
      (aclId !in store ==> r.store[aclId] == blank.(id := aclId))
  {
    if !hasForm then Saving(NoForm, store)
    else if TeamFails(teamId, teams) then
      Saving(SaveFailed, store[aclId := Target(store, aclId, blank)])
    else
      var o := FinishAsWritten(Stepped(store, aclId, session, blank), session);
      Saving(o.reply, store[aclId := o.acl])
  }

  /** An existing CMP record whose data changed keeps CMP and its old
      data. */
  lemma SaveFormKeepsChangedCmp(store: Store, aclId: string, session: Session, blank: Acl,
                                teamId: Option<string>, teams: set<int>)
    requires aclId in store && store[aclId].status == CMP
    requires |session.storage| > 1 && AnyDiffers(store[aclId], session.storage)
    ensures SaveFormAsWritten(store, aclId, true, session, blank, teamId, teams).reply == SaveFailed
    ensures SaveFormAsWritten(store, aclId, true, session, blank, teamId, teams).store == store
  {
    assert Stepped(store, aclId, session, blank) == store[aclId];
    assert store[aclId := store[aclId]] == store;
  }

  /** `save__form` as evidently intended: as written, but finishing with
      `Finish`. */
  function SaveForm(store: Store, aclId: string, hasForm: bool, session: Session, blank: Acl,
                    teamId: Option<string>, teams: set<int>): (r: Saving)
    ensures !hasForm ==> r.store == store && r.reply == NoForm
    ensures hasForm ==> aclId in r.store && r.store.Keys == store.Keys + {aclId}
    ensures forall id :: id in store && id != aclId ==> r.store[id] == store[id]
    ensures hasForm && TeamFails(teamId, teams) ==>
      r.reply == SaveFailed &&
      (aclId in store ==> r.store == store) &&
      (aclId !in store ==> r.store[aclId] == blank.(id := aclId))
    ensures r.reply == SaveFailed ==> TeamFails(teamId, teams)
  {
    if !hasForm then Saving(NoForm, store)
    else if TeamFails(teamId, teams) then
      Saving(SaveFailed, store[aclId := Target(store, aclId, blank)])
    else
      var o := Finish(Stepped(store, aclId, session, blank), session);
      Saving(o.reply, store[aclId := o.acl])
  }

  /** A "teamid" that `int` refuses, such as the empty text or the "[]"
      the team lookup answers when there is no team, stops both versions
      of the save before the status step. */
  lemma SaveFormBadTeamId(store: Store, aclId: string, session: Session, blank: Acl, teams: set<int>)
    requires aclId in store
    ensures SaveFormAsWritten(store, aclId, true, session, blank, Some(""), teams) == Saving(SaveFailed, store)
    ensures SaveForm(store, aclId, true, session, blank, Some(""), teams) == Saving(SaveFailed, store)
    ensures SaveFormAsWritten(store, aclId, true, session, blank, Some("[]"), teams) == Saving(SaveFailed, store)
    ensures SaveForm(store, aclId, true, session, blank, Some("[]"), teams) == Saving(SaveFailed, store)
  {
    BadTeamIds(teams);
    assert store[aclId := store[aclId]] == store;
  }

  /** `int` refuses the empty text and "[]". */
  lemma BadTeamIds(teams: set<int>)
    ensures TeamFails(Some(""), teams) && TeamFails(Some("[]"), teams)
  {
    assert Strip("") == "";
    assert !IsSpace('[') && !IsSpace(']');
    assert LStrip("[]") == "[]";
    assert RStrip("[]") == "[]";
    assert !IsDigit('[');
  }

  /** The status rules of the handler, once the team bookkeeping has
      passed: a session with at most one section gives NOTFL; an existing
      NOTFL record becomes FL, a new one is never promoted; a changed CMP
      record goes back to FL; a changed WTE record is refused and left
      alone. */
  lemma SaveFormStatus(store: Store, aclId: string, session: Session, blank: Acl,
                       teamId: Option<string>, teams: set<int>)
    requires !TeamFails(teamId, teams)
    ensures var after := SaveForm(store, aclId, true, session, blank, teamId, teams).store[aclId];
      && (|session.storage| <= 1 ==> after.status == NOTFL)
      && (|session.storage| > 1 && aclId in store && store[aclId].status == NOTFL ==> after.status == FL)
      && (aclId !in store && blank.status == NOTFL ==> after.status == NOTFL)
      && ((|session.storage| > 1 && aclId in store && store[aclId].status == CMP &&
           AnyDiffers(store[aclId], session.storage)) ==>
            after.status == FL && after.sections == store[aclId].sections)
      && ((|session.storage| > 1 && aclId in store && store[aclId].status == WTE &&
           AnyDiffers(store[aclId], session.storage)) ==>
            SaveForm(store, aclId, true, session, blank, teamId, teams).reply == Redirected && after == store[aclId])
  {
  }

  /** Otherwise the record takes every section the session holds. */
  lemma SaveFormTakesSections(store: Store, aclId: string, session: Session, blank: Acl,
                              teamId: Option<string>, teams: set<int>)
    requires !TeamFails(teamId, teams)
    requires var s := StatusStep(Target(store, aclId, blank).status, aclId !in store, session.storage);
      s != CMP && s != WTE
    ensures SaveForm(store, aclId, true, session, blank, teamId, teams).reply == Saved
    ensures var after := SaveForm(store, aclId, true, session, blank, teamId, teams).store[aclId];
      forall k :: k in session.storage ==> k in after.sections && after.sections[k] == session.storage[k]
    ensures var after := SaveForm(store, aclId, true, session, blank, teamId, teams).store[aclId];
      forall k :: k in after.sections && k !in session.storage ==>
        k in Target(store, aclId, blank).sections && after.sections[k] == Target(store, aclId, blank).sections[k]
  {
  }

  /** The two versions differ only on a changed CMP record. */
  lemma SaveFormAgrees(store: Store, aclId: string, hasForm: bool, session: Session, blank: Acl,
                       teamId: Option<string>, teams: set<int>)
    requires !(hasForm && StatusStep(Target(store, aclId, blank).status, aclId !in store, session.storage) == CMP &&
               AnyDiffers(Target(store, aclId, blank), session.storage))
    ensures SaveFormAsWritten(store, aclId, hasForm, session, blank, teamId, teams) ==
            SaveForm(store, aclId, hasForm, session, blank, teamId, teams)
  {
    if hasForm {
      var obj := Target(store, aclId, blank);
      var obj1 := Stepped(store, aclId, session, blank);
      assert obj1.sections == obj.sections;
      assert AnyDiffers(obj1, session.storage) == AnyDiffers(obj, session.storage);
    }
  }

  // ---------------------------------------------------------------------
  // `AclRemove`

  predicate IsLowerHex(c: char) {
    '0' <= c <= '9' || 'a' <= c <= 'f'
  }

  /** `is_valid_uuid`: the text is exactly what `str(uuid.UUID(text,
      version=4))` prints, lower-case hex in 8-4-4-4-12 groups with the
      version digit 4 and a variant digit of 8, 9, a or b. */
  predicate IsValidUuid(s: string) {
    && |s| == 36
    && (forall i :: 0 <= i < 36 ==>
          if i == 8 || i == 13 || i == 18 || i == 23 then s[i] == '-' else IsLowerHex(s[i]))
    && s[14] == '4'
    && (s[19] == '8' || s[19] == '9' || s[19] == 'a' || s[19] == 'b')
  }

  datatype RemoveReply = RemoveNotAllowed | RemoveError | Protected | Removed

  datatype Removal = Removal(reply: RemoveReply, store: Store)

  /** `AclRemove`: a POST naming a well-formed id of an existing record
      deletes it, unless it is waiting for approval or done. */
  function AclRemove(store: Store, post: bool, uuid: Option<string>): (r: Removal)
    ensures r.reply.Removed? <==>
      post && uuid.Some? && IsValidUuid(uuid.value) && uuid.value in store &&
      store[uuid.value].status != WTE && store[uuid.value].status != CMP
    ensures r.reply.Removed? ==> r.store == store - {uuid.value}
    ensures !r.reply.Removed? ==> r.store == store
    ensures r.reply.Protected? <==>
      post && uuid.Some? && IsValidUuid(uuid.value) && uuid.value in store &&
      (store[uuid.value].status == WTE || store[uuid.value].status == CMP)
  {
    if !post then Removal(RemoveNotAllowed, store)
    else if uuid.None? || !IsValidUuid(uuid.value) then Removal(RemoveError, store)
    else if uuid.value !in store then Removal(RemoveError, store)
    else if store[uuid.value].status == WTE || store[uuid.value].status == CMP then Removal(Protected, store)
    else Removal(Removed, store - {uuid.value})
  }

  /** No record waiting for approval or done is ever deleted, and nothing
      but the named record is. */
  lemma RemoveKeepsProtected(store: Store, post: bool, uuid: Option<string>)
    ensures forall id :: id in store && (store[id].status == WTE || store[id].status == CMP) ==>
      id in AclRemove(store, post, uuid).store && AclRemove(store, post, uuid).store[id] == store[id]
    ensures forall id :: id in store && (uuid.None? || id != uuid.value) ==>
      id in AclRemove(store, post, uuid).store
  {
  }

  // ---------------------------------------------------------------------
  // `act`

  const Jobs: seq<string> := ["docx", "git", "omni"]

  /** The session key and activity entry of each job, in the order of
      `Jobs`. */
  const TaskList: seq<string> := ["ACT_MAKE_DOCX", "ACT_MAKE_GIT", "ACT_OMNI"]

  function TaskOf(job: string): (t: string)
    requires job in Jobs
    ensures t in TaskList && ';' !in t
  {
    if job == "docx" then TaskList[0] else if job == "git" then TaskList[1] else TaskList[2]
  }

  /** Python's `str(x)` on a text field that may be NULL. */
  function Str(o: Option<string>): string {
    match o
    case None => "None"
    case Some(s) => s
  }

  /** The position of the first occurrence of `x`. */
  function IndexOf(xs: seq<string>, x: string): (i: nat)
    requires x in xs
    ensures i < |xs| && xs[i] == x && x !in xs[..i]
  {
    if xs[0] == x then 0
    else
      var j := IndexOf(xs[1..], x);
      assert xs[..j + 1] == [xs[0]] + xs[1..][..j];
      j + 1
  }

  /** Python's `xs.remove(x)` when `x` occurs: the first occurrence goes. */
  function RemoveFirst(xs: seq<string>, x: string): seq<string>
    requires x in xs
  {
    xs[..IndexOf(xs, x)] + xs[IndexOf(xs, x) + 1..]
  }

  datatype ActReply = Forbidden | ActNotFound | Done(saved: bool)

  datatype Acted = Acted(reply: ActReply, store: Store, session: set<string>)

  /** The entries of a stored activity text. */
  function Entries(a: Acl): seq<string> {
    Split(Str(a.activity), ";")
  }

  /** The two actions the view accepts. */
  datatype Verb = Add | Remove

  /** The action named in the request, if it is one of the two. */
  function VerbOf(action: string): (v: Option<Verb>)
    ensures v.Some? && v.value == Add <==> action == "add"
    ensures v.Some? && v.value == Remove <==> action == "remove"
  {
    if action == "add" then Some(Add)
    else if action == "remove" then Some(Remove)
    else None
  }

  /** The activity entries after the request. */
  function Requested(prior: seq<string>, task: string, v: Verb): seq<string> {
    match v
    case Remove => if task in prior then RemoveFirst(prior, task) else prior
    case Add => if task in prior then prior else prior + [task]
  }

  /** The activity text the request computes. */
  function ActivityAfter(a: Acl, task: string, v: Verb): string {
    Join(Requested(Entries(a), task, v), ";")
  }

  /** `act`: an unknown job or action is refused; otherwise `ActOn`. */
  function Act(store: Store, aclId: string, job: string, action: string, session: set<string>): (r: Acted)
    ensures r.reply.Forbidden? <==> job !in Jobs || (action != "remove" && action != "add")
    ensures r.reply.ActNotFound? <==> job in Jobs && (action == "remove" || action == "add") && aclId !in store
    ensures !r.reply.Done? ==> r.store == store && r.session == session
  {
    if job !in Jobs || VerbOf(action).None? then Acted(Forbidden, store, session)
    else ActOn(store, aclId, job, VerbOf(action).value, session)
  }

  /** The accepted request: adds the job's entry to the record's
      ";"-separated activity (unless present) and sets its session key, or
      removes the first occurrence of the entry and the key; the record is
      saved only when the joined text differs from what it holds. */
  function ActOn(store: Store, aclId: string, job: string, v: Verb, session: set<string>): (r: Acted)
    requires job in Jobs
    ensures !r.reply.Forbidden?
    ensures r.reply.ActNotFound? <==> aclId !in store
    ensures !r.reply.Done? ==> r.store == store && r.session == session
    ensures r.reply.Done? ==>
      var acl := store[aclId];
      var text := ActivityAfter(acl, TaskOf(job), v);
      (r.reply.saved <==> acl.activity != Some(text)) &&
      r.store == (if r.reply.saved then store[aclId := acl.(activity := Some(text))] else store)
    ensures r.reply.Done? && v == Add ==>
      r.session == (if TaskOf(job) in Entries(store[aclId]) then session else session + {TaskOf(job)})
    ensures r.reply.Done? && v == Remove ==>
      r.session == (if TaskOf(job) in Entries(store[aclId]) then session - {TaskOf(job)} else session)
  {
    if aclId !in store then Acted(ActNotFound, store, session)
    else
      var acl := store[aclId];
      var task := TaskOf(job);
      var present := task in Entries(acl);
      var session' :=
        match v
        case Remove => if present then session - {task} else session
        case Add => if present then session else session + {task};
      var text := ActivityAfter(acl, task, v);
      if acl.activity != Some(text) then
        Acted(Done(true), store[aclId := acl.(activity := Some(text))], session')
      else Acted(Done(false), store, session')
  }

  /** The two accepted actions reach `ActOn`. */
  lemma ActAccepted(store: Store, aclId: string, job: string, session: set<string>)
    requires job in Jobs
    ensures Act(store, aclId, job, "add", session) == ActOn(store, aclId, job, Add, session)
    ensures Act(store, aclId, job, "remove", session) == ActOn(store, aclId, job, Remove, session)
  {
    assert VerbOf("add") == Some(Add);
    assert VerbOf("remove") == Some(Remove);
  }

  lemma EntriesFree(xs: seq<string>)
    requires forall k :: 0 <= k < |xs| ==> !Contains(xs[k], ";")
    ensures forall k :: 0 <= k < |xs| ==> ';' !in xs[k]
  {
    forall k | 0 <= k < |xs| ensures ';' !in xs[k] {
      ContainsChar(xs[k], ';');
    }
  }

  /** After an `add`, the job's entry is among the record's entries, and the
      entries before it are kept in order. */
  lemma ActAddRecords(store: Store, aclId: string, job: string, session: set<string>)
    requires job in Jobs && aclId in store
    ensures var r := Act(store, aclId, job, "add", session);
      aclId in r.store && TaskOf(job) in Entries(r.store[aclId]) &&
      (TaskOf(job) !in Entries(store[aclId]) ==> Entries(r.store[aclId]) == Entries(store[aclId]) + [TaskOf(job)])
    ensures var r := Act(store, aclId, job, "add", session);
      (TaskOf(job) !in Entries(store[aclId]) ==> r.session == session + {TaskOf(job)}) &&
      (TaskOf(job) in Entries(store[aclId]) ==> r.session == session)
  {
    ActAccepted(store, aclId, job, session);
    AddRecords(store, aclId, job, session);
  }

  lemma AddRecords(store: Store, aclId: string, job: string, session: set<string>)
    requires job in Jobs && aclId in store
    ensures var r := ActOn(store, aclId, job, Add, session);
      aclId in r.store && TaskOf(job) in Entries(r.store[aclId]) &&
      (TaskOf(job) !in Entries(store[aclId]) ==> Entries(r.store[aclId]) == Entries(store[aclId]) + [TaskOf(job)])
    ensures var r := ActOn(store, aclId, job, Add, session);
      (TaskOf(job) !in Entries(store[aclId]) ==> r.session == session + {TaskOf(job)}) &&
      (TaskOf(job) in Entries(store[aclId]) ==> r.session == session)
  {
    var prior := Entries(store[aclId]);
    var entries := Requested(prior, TaskOf(job), Add);
    EntriesFree(prior);
    SplitJoinChar(entries, ';');
  }

  /** Adding a job twice is adding it once: the second request saves
      nothing. */
  lemma ActAddIdempotent(store: Store, aclId: string, job: string, session: set<string>)
    requires job in Jobs && aclId in store
    ensures var once := Act(store, aclId, job, "add", session);
      var twice := Act(once.store, aclId, job, "add", once.session);
      twice.store == once.store && twice.session == once.session && twice.reply == Done(false)
  {
    var once := ActOn(store, aclId, job, Add, session);
    ActAccepted(store, aclId, job, session);
    ActAccepted(once.store, aclId, job, once.session);
    AddTwice(store, aclId, job, session);
  }

  lemma AddTwice(store: Store, aclId: string, job: string, session: set<string>)
    requires job in Jobs && aclId in store
    ensures var once := ActOn(store, aclId, job, Add, session);
      var twice := ActOn(once.store, aclId, job, Add, once.session);
      twice.store == once.store && twice.session == once.session && twice.reply == Done(false)
  {
    var acl := store[aclId];
    var task := TaskOf(job);
    var text := ActivityAfter(acl, task, Add);
    var once := ActOn(store, aclId, job, Add, session);
    ActStore(store, aclId, job, Add, session);
    AddRecords(store, aclId, job, session);
    var acl1 := once.store[aclId];
    assert acl1 == acl.(activity := Some(text));
    JoinSplit(text, ";");
    assert Requested(Entries(acl1), task, Add) == Entries(acl1);
    assert ActivityAfter(acl1, task, Add) == text;
  }

  /** Removing an entry that was just appended, and occurs nowhere else,
      leaves the entries before it. */
  lemma RemoveAppended(xs: seq<string>, x: string)
    requires x !in xs
    ensures RemoveFirst(xs + [x], x) == xs
  {
    var ys := xs + [x];
    assert forall k :: 0 <= k < |xs| ==> ys[k] == xs[k];
    assert ys[..|xs|] == xs;
  }

  /** On the activity text alone: adding an absent entry appends it, and
      removing it again gives the text back. */
  lemma ActivityAddRemove(acl: Acl, task: string)
    requires ';' !in task && task !in Entries(acl) && acl.activity.Some?
    ensures var mid := acl.(activity := Some(ActivityAfter(acl, task, Add)));
      Entries(mid) == Entries(acl) + [task] && ActivityAfter(mid, task, Remove) == acl.activity.value
  {
    var prior := Entries(acl);
    EntriesFree(prior);
    SplitJoinChar(prior + [task], ';');
    RemoveAppended(prior, task);
    JoinSplit(Str(acl.activity), ";");
  }

  lemma RemoveAfterAdd(acl: Acl, task: string)
    requires ';' !in task && task !in Entries(acl) && acl.activity.Some?
    ensures ActivityAfter(acl.(activity := Some(ActivityAfter(acl, task, Add))), task, Remove) == acl.activity.value
  {
    ActivityAddRemove(acl, task);
  }

  /** Saved or not, the record afterwards holds the computed text. */
  lemma ActStore(store: Store, aclId: string, job: string, v: Verb, session: set<string>)
    requires job in Jobs && aclId in store
    ensures ActOn(store, aclId, job, v, session).store ==
      store[aclId := store[aclId].(activity := Some(ActivityAfter(store[aclId], TaskOf(job), v)))]
  {
    var acl := store[aclId];
    var text := ActivityAfter(acl, TaskOf(job), v);
    if acl.activity == Some(text) {
      assert acl.(activity := Some(text)) == acl;
      assert store[aclId := acl] == store;
    }
  }

  /** Removing a job right after adding it, when it was not requested
      before, gives the record back. */
  lemma ActAddThenRemove(store: Store, aclId: string, job: string, session: set<string>)
    requires job in Jobs && aclId in store
    requires store[aclId].activity.Some?
    requires TaskOf(job) !in Entries(store[aclId])
    ensures var added := Act(store, aclId, job, "add", session);
      var removed := Act(added.store, aclId, job, "remove", added.session);
      removed.store == store
  {
    var added := ActOn(store, aclId, job, Add, session);
    ActAccepted(store, aclId, job, session);
    ActAccepted(added.store, aclId, job, added.session);
    AddThenRemove(store, aclId, job, session);
  }

  lemma AddThenRemove(store: Store, aclId: string, job: string, session: set<string>)
    requires job in Jobs && aclId in store
    requires store[aclId].activity.Some?
    requires TaskOf(job) !in Entries(store[aclId])
    ensures var added := ActOn(store, aclId, job, Add, session);
      ActOn(added.store, aclId, job, Remove, added.session).store == store
  {
    var acl := store[aclId];
    var text := ActivityAfter(acl, TaskOf(job), Add);
    var added := ActOn(store, aclId, job, Add, session);
    ActStore(store, aclId, job, Add, session);
    assert added.store == store[aclId := acl.(activity := Some(text))];
    RemoveAfterAdd(acl, TaskOf(job));
    RemoveFromAdded(store, aclId, job, added.session, text);
  }

  /** The removal half of `AddThenRemove`, for any text the add left whose
      removal gives the original text back. */
  lemma RemoveFromAdded(store: Store, aclId: string, job: string, session: set<string>, text: string)
    requires job in Jobs && aclId in store
    requires store[aclId].activity.Some?
    requires ActivityAfter(store[aclId].(activity := Some(text)), TaskOf(job), Remove) == store[aclId].activity.value
    ensures ActOn(store[aclId := store[aclId].(activity := Some(text))], aclId, job, Remove, session).store == store
  {
    var acl := store[aclId];
    var s1 := store[aclId := acl.(activity := Some(text))];
    RemoveRestores(s1, aclId, job, session, acl);
    UpdateBack(store, aclId, acl.(activity := Some(text)));
  }

  /** Writing a key's old value back undoes an update. */
  lemma UpdateBack<K, V>(m: map<K, V>, k: K, v: V)
    requires k in m
    ensures m[k := v][k := m[k]] == m
  {
  }

  /** The removal step of `AddThenRemove`: when the computed text is the
      one `acl` holds, the record goes back to `acl`. */
  lemma RemoveRestores(s: Store, aclId: string, job: string, session: set<string>, acl: Acl)
    requires job in Jobs && aclId in s && acl.activity.Some?
    requires ActivityAfter(s[aclId], TaskOf(job), Remove) == acl.activity.value
    requires s[aclId].(activity := acl.activity) == acl
    ensures ActOn(s, aclId, job, Remove, session).store == s[aclId := acl]
  {
    ActStore(s, aclId, job, Remove, session);
  }

  // ---------------------------------------------------------------------
  // `taskstatus`

  /** `re.match(r"^\d{3,}$", s)` on ASCII digits: at least three digits,
      with at most one newline after them (which `$` allows). */
  predicate LooksLikeTicket(s: string) {
    |Chomp(s)| >= 3 && AllDigits(Chomp(s))
  }

  /** The view looks the record up by ticket number when its argument
      looks like one, and by id otherwise. */
  function LookupByTicket(taskid: string): (r: bool)
    ensures r ==> |taskid| >= 3 && AllDigits(Chomp(taskid))
    ensures |taskid| >= 3 && AllDigits(taskid) ==> r
  {
    taskid != "" && LooksLikeTicket(taskid)
  }

  /** The reply `{taskid: {http_status: acl_status}}`. */
  datatype TaskReply = TaskReply(key: string, http: Option<string>, acl: Option<string>)

  datatype TaskState = TaskState(reply: TaskReply, acl: Option<Acl>)

  const UnknownText: string := "Статус неизвестен"

  /** The records `taskstatus` checks at the service desk: those whose
      ticket number looks like one. */
  predicate AsksDesk(obj: Acl) {
    HasTask(obj) && LooksLikeTicket(obj.taskid.value)
  }

  /** `taskstatus` as written, given the newest record the lookup finds: a
      record whose ticket number looks like one is checked at the service
      desk, and the missing pair of the status check raises `TypeError` on
      unpacking; otherwise the record takes the reported status when it
      differs and is CMP, JOB or CNL. */
  function TaskStatusAsWritten(found: Option<Acl>, taskid: string, attempts: seq<Attempt>): (r: Result<TaskState>)
    requires |attempts| == MaxRetries
    ensures r.Raise? <==> found.Some? && AsksDesk(found.value) && CheckStatusAsWritten(attempts).NoReturn?
    ensures r.Raise? ==> r.exc == TypeError
    ensures r.Ok? ==> r.value == TaskStatus(found, taskid, attempts)
  {
    match found
    case None => Ok(TaskState(TaskReply(taskid, Some(UnknownText), Some("")), None))
    case Some(obj) =>
      if AsksDesk(obj) && CheckStatusAsWritten(attempts).NoReturn? then Raise(TypeError)
      else
        var p :=
          if AsksDesk(obj) then CheckStatusAsWritten(attempts).pair
          else StatePair(Some(""), Some(UnknownText));
        var next :=
          if p.acl.Some? && p.acl.value != Code(obj.status) && Adoptable(p.acl.value)
          then obj.(status := Parse(p.acl.value)) else obj;
        Ok(TaskState(TaskReply(taskid, p.http, p.acl), Some(next)))
  }

  /** `taskstatus` with the corrected status check, which always yields a
      pair: the same steps, and no exception. */
  function TaskStatus(found: Option<Acl>, taskid: string, attempts: seq<Attempt>): (r: TaskState)
    requires |attempts| == MaxRetries
    ensures r.reply.key == taskid
    ensures found.None? ==> r.acl.None? && r.reply == TaskReply(taskid, Some(UnknownText), Some(""))
    ensures found.Some? && !AsksDesk(found.value) ==>
      r.acl == found && r.reply == TaskReply(taskid, Some(UnknownText), Some(""))
    ensures found.Some? && AsksDesk(found.value) ==>
      r.reply.acl == CheckStatus(attempts).acl && r.reply.http == CheckStatus(attempts).http
    ensures found.Some? ==> r.acl.Some? && r.acl.value.(status := found.value.status) == found.value
    ensures found.Some? && r.reply.acl.Some? && Adoptable(r.reply.acl.value) ==>
      Code(r.acl.value.status) == r.reply.acl.value
    ensures found.Some? && r.acl.value.status != found.value.status ==>
      r.reply.acl.Some? && Adoptable(r.reply.acl.value) && r.acl.value.status == Parse(r.reply.acl.value)
  {
    match found
    case None => TaskState(TaskReply(taskid, Some(UnknownText), Some("")), None)
    case Some(obj) =>
      var p :=
        if AsksDesk(obj) then CheckStatus(attempts)
        else StatePair(Some(""), Some(UnknownText));
      var next := (
        match p.acl
        case None => obj
        case Some(code) =>
          CodeOfParse(code);
          if code != Code(obj.status) && Adoptable(code) then obj.(status := Parse(code)) else obj);
      TaskState(TaskReply(taskid, p.http, p.acl), Some(next))
  }

  /** For a record with a ticket number, the status page leaves the record
      as the poller's corrected check does. */
  lemma TaskStatusMatchesPoll(obj: Acl, taskid: string, attempts: seq<Attempt>)
    requires |attempts| == MaxRetries
    requires AsksDesk(obj)
    ensures TaskStatus(Some(obj), taskid, attempts).acl == Some(AclTasks.CheckAclInOmni(obj, attempts).acl)
  {
  }

  /** Asking again with the same answers changes nothing more. */
  lemma TaskStatusIdempotent(obj: Acl, taskid: string, attempts: seq<Attempt>)
    requires |attempts| == MaxRetries
    ensures var once := TaskStatus(Some(obj), taskid, attempts).acl.value;
      TaskStatus(Some(once), taskid, attempts).acl.value == once
  {
    var p := CheckStatus(attempts);
    if p.acl.Some? {
      CodeOfParse(p.acl.value);
    }
  }
}

=== FILE: code_review.dfy ===
/** `code_review`: checking the analysis date range and choosing the
    fetched changes (pull requests and merge commits) that a given coder
    took part in within that range. Parsing ISO 8601 text is a parameter
    (`parse`), giving an instant as an integer or `None` for `ValueError`. */
module CodeReview {
  import opened Wrappers
  import opened Seqs

  /** The login the form starts with; it means "no coder chosen". */
  const Placeholder: string := "your_coder_login"

  datatype Range = Range(start: Option<int>, end: Option<int>)

  /** `isoparse(text) if text else None`. */
  function ParseDate(text: string, parse: string -> Option<int>): Option<int> {
    if text == "" then None else parse(text)
  }

  /** The analysis range: an empty text gives no bound; a text that does not
      parse voids both bounds (the `except ValueError`); a start after the
      end voids both as well. */
  function DateRange(startText: string, endText: string, parse: string -> Option<int>): (r: Range)
    ensures r.start.Some? && r.end.Some? ==> r.start.value <= r.end.value
    ensures r.start.Some? ==> r.start == parse(startText) && startText != ""
    ensures r.end.Some? ==> r.end == parse(endText) && endText != ""
    ensures r.start.Some? && r.end.Some? <==>
      startText != "" && endText != "" && parse(startText).Some? && parse(endText).Some? &&
      parse(startText).value <= parse(endText).value
  {
    var failed := (startText != "" && parse(startText).None?) || (endText != "" && parse(endText).None?);
    if failed then Range(None, None)
    else
      var s := ParseDate(startText, parse);
      var e := ParseDate(endText, parse);
      if s.Some? && e.Some? && s.value > e.value then Range(None, None)
      else Range(s, e)
  }

  /** A fetched change: the string-valued keys of its record (a missing key
      or a `None` value is absent). */
  type Change = map<string, string>

  /** `change.get(key)`. */
  function Field(c: Change, key: string): Option<string> {
    if key in c then Some(c[key]) else None
  }

  predicate Truthy(v: Option<string>) {
    v.Some? && v.value != ""
  }

  /** Python's `a or b` on two optional strings. */
  function Or(a: Option<string>, b: Option<string>): Option<string> {
    if Truthy(a) then a else b
  }

  /** The date a change is judged by: for a pull request the merge date,
      else the close date, else the update date; for a merge commit the
      committer date, else the author date; nothing for another kind. */
  function RelevantDate(c: Change): Option<string> {
    var kind := Field(c, "request_type");
    if kind == Some("pr") then Or(Or(Field(c, "merged_at"), Field(c, "closed_at")), Field(c, "updated_at"))
    else if kind == Some("merge_commit") then Or(Field(c, "committer_date"), Field(c, "author_date"))
    else None
  }

  /** The first filled-in date in the order of preference is used. */
  lemma RelevantDatePreference(c: Change)
    ensures Field(c, "request_type") == Some("pr") ==>
      && (Truthy(Field(c, "merged_at")) ==> RelevantDate(c) == Field(c, "merged_at"))
      && (!Truthy(Field(c, "merged_at")) && Truthy(Field(c, "closed_at")) ==> RelevantDate(c) == Field(c, "closed_at"))
      && (!Truthy(Field(c, "merged_at")) && !Truthy(Field(c, "closed_at")) ==> RelevantDate(c) == Field(c, "updated_at"))
    ensures Field(c, "request_type") == Some("merge_commit") ==>
      && (Truthy(Field(c, "committer_date")) ==> RelevantDate(c) == Field(c, "committer_date"))
      && (!Truthy(Field(c, "committer_date")) ==> RelevantDate(c) == Field(c, "author_date"))
    ensures Truthy(RelevantDate(c)) ==>
      RelevantDate(c) in {Field(c, "merged_at"), Field(c, "closed_at"), Field(c, "updated_at"),
        Field(c, "committer_date"), Field(c, "author_date")}
  {
  }

  /** The coder is the pull request's author or merger, or the merge
      commit's author or committer. */
  predicate ByCoder(c: Change, coder: string) {
    var kind := Field(c, "request_type");
    if kind == Some("pr") then Field(c, "author_login") == Some(coder) || Field(c, "merged_by_login") == Some(coder)
    else if kind == Some("merge_commit") then
      Field(c, "api_author_login") == Some(coder) || Field(c, "api_committer_login") == Some(coder)
    else false
  }

  /** A change is kept when its date parses and lies in the closed range
      and the coder took part in it. */
  predicate Keep(c: Change, coder: string, start: int, end: int, parse: string -> Option<int>) {
    var d := RelevantDate(c);
    && Truthy(d)
    && parse(d.value).Some?
    && start <= parse(d.value).value <= end
    && ByCoder(c, coder)
  }

  /** The guard in front of the loop: changes were fetched, the range is
      valid and a coder was chosen. */
  predicate Filtering(changes: seq<Change>, r: Range, coder: string) {
    |changes| > 0 && r.start.Some? && r.end.Some? && coder != Placeholder
  }

  /** The filtering loop of `code_review`; a date that does not parse is
      skipped. */
  method SelectChanges(changes: seq<Change>, startText: string, endText: string, coder: string,
                       parse: string -> Option<int>) returns (chosen: seq<Change>)
    ensures var r := DateRange(startText, endText, parse);
      Filtering(changes, r, coder) ==>
        chosen == Filter(changes, c => Keep(c, coder, r.start.value, r.end.value, parse))
    ensures !Filtering(changes, DateRange(startText, endText, parse), coder) ==> chosen == []
    ensures coder == Placeholder ==> chosen == []
  {
    var r := DateRange(startText, endText, parse);
    chosen := [];
    if !Filtering(changes, r, coder) {
      return;
    }
    var start, end := r.start.value, r.end.value;
    var keep := c => Keep(c, coder, start, end, parse);
    for n := 0 to |changes|
      invariant chosen == Filter(changes[..n], keep)
    {
      var c := changes[n];
      FilterSnoc(changes[..n], c, keep);
      assert changes[..n + 1] == changes[..n] + [c];
      var d := RelevantDate(c);
      if Truthy(d) {
        var parsed := parse(d.value);
        if parsed.Some? && start <= parsed.value <= end && ByCoder(c, coder) {
          chosen := chosen + [c];
        }
      }
    }
    assert changes[..|changes|] == changes;
  }

  /** A change is chosen exactly when it is among the fetched ones, its
      date parses and lies in the range, and the coder took part; so an
      unparseable date is never chosen. */
  lemma SelectedMembers(changes: seq<Change>, coder: string, start: int, end: int,
                        parse: string -> Option<int>, c: Change)
    ensures c in Filter(changes, x => Keep(x, coder, start, end, parse)) <==>
      c in changes && Truthy(RelevantDate(c)) && parse(RelevantDate(c).value).Some? &&
      start <= parse(RelevantDate(c).value).value <= end && ByCoder(c, coder)
  {
    FilterMembers(changes, x => Keep(x, coder, start, end, parse));
  }
}

=== FILE: diff_lines.dfy ===
/** `GitParser.analyze_repository`: the default clone directory of a
    repository URL, and the walk over a unified diff that gives every added
    line its line number in the new file. */
module DiffLines {
  import opened Wrappers
  import opened Strings

  // ---------------------------------------------------------------------
  // The default clone path.

  /** `url.split('/')[-1]`. */
  function LastSegment(url: string): (s: string)
    ensures !Contains(s, "/")
  {
    var parts := Split(url, "/");
    parts[|parts| - 1]
  }

  /** The segment is the text after the last "/" of the URL: it ends the
      URL, and it is the whole URL or follows a "/". */
  lemma LastSegmentAfterSlash(url: string)
    ensures var s := LastSegment(url);
      && EndsWith(url, s)
      && (s == url || url[|url| - |s| - 1] == '/')
  {
    var s := LastSegment(url);
    SplitLast(url, "/");
    assert s == LastPart(url, "/");
    if s != url {
      assert |s| + 1 <= |url|;
      assert url[|url| - |s| - 1] == url[|url| - |s| - 1..|url| - |s|][0];
    }
  }

  /** As written: `.replace('.git', '')` removes every ".git" in the last
      segment, not only the suffix. */
  function DefaultClonePathAsWritten(url: string): string {
    ReplaceAll(LastSegment(url), ".git", "")
  }

  /** As evidently intended: the last segment without a trailing ".git". */
  function DefaultClonePath(url: string): (p: string)
    ensures EndsWith(LastSegment(url), ".git") ==> p + ".git" == LastSegment(url)
    ensures !EndsWith(LastSegment(url), ".git") ==> p == LastSegment(url)
  {
    var s := LastSegment(url);
    if EndsWith(s, ".git") then
      assert s == s[..|s| - 4] + s[|s| - 4..];
      s[..|s| - 4]
    else s
  }

  /** `.replace` of an absent pattern, or of one occurring once at the
      end, leaves or strips it. */
  lemma ReplaceSuffix(name: string)
    requires !Contains(name, ".git")
    ensures ReplaceAll(name + ".git", ".git", "") == name
  {
    SplitAfter(name, ".git", "");
    SplitAbsent("", ".git");
    assert name + ".git" + "" == name + ".git";
    assert Join([name, ""], "") == name + "" + Join([""], "");
  }

  /** The two agree on a repository name in which ".git" occurs only as
      the suffix. */
  lemma ClonePathsAgree(name: string)
    requires !Contains(name, ".git") && '/' !in name
    ensures DefaultClonePathAsWritten(name + ".git") == DefaultClonePath(name + ".git") == name
  {
    var url := name + ".git";
    assert '/' !in url by {
      assert url == name + ".git";
    }
    WholeSegment(url);
    ReplaceSuffix(name);
    assert url[..|url| - 4] == name;
  }

  /** Two separator-free texts, each followed by the separator, split into
      them and a final empty part. */
  lemma TwoFieldsTrailing(x: string, y: string, d: string)
    requires LastCharUnique(d) && !Contains(x, d) && !Contains(y, d)
    ensures Split(x + d + (y + d + ""), d) == [x, y, ""]
  {
    var tail := y + d + "";
    AbsentChar("", d, 0);
    SplitAbsent("", d);
    SplitAfter(y, d, "");
    assert Split(tail, d) == [y, ""];
    SplitAfter(x, d, tail);
    assert [x] + [y, ""] == [x, y, ""];
  }

  /** A text without "/" is its own last segment. */
  lemma WholeSegment(s: string)
    requires '/' !in s
    ensures LastSegment(s) == s
  {
    AbsentChar(s, "/", 0);
    SplitAbsent(s, "/");
  }

  lemma JoinThree(x: string, y: string)
    ensures Join([x, y, ""], "") == x + y
  {
    assert Join([x, y, ""], "") == x + "" + Join([y, ""], "");
    assert Join([y, ""], "") == y + "" + Join([""], "");
  }

  /** A name holding ".git" inside as well as at the end loses both as
      written, and only the suffix when corrected. */
  lemma ClonePathDropsInnerGit(x: string, y: string)
    requires !Contains(x, ".git") && !Contains(y, ".git") && '/' !in x + y
    ensures DefaultClonePathAsWritten(x + ".git" + y + ".git") == x + y
    ensures DefaultClonePath(x + ".git" + y + ".git") == x + ".git" + y
  {
    var url := x + ".git" + y + ".git";
    assert '/' !in url by {
      assert forall i :: 0 <= i < |url| ==> url[i] in x + y || url[i] in ".git";
    }
    WholeSegment(url);
    assert url == x + ".git" + (y + ".git" + "");
    TwoFieldsTrailing(x, y, ".git");
    JoinThree(x, y);
    assert url[..|url| - 4] == x + ".git" + y;
  }

  /** "my.github.io.git" is cloned into "myhub.io". */
  lemma PagesClonePath()
    ensures DefaultClonePathAsWritten("my" + ".git" + "hub.io" + ".git") == "my" + "hub.io"
    ensures DefaultClonePath("my" + ".git" + "hub.io" + ".git") == "my" + ".git" + "hub.io"
  {
    AbsentChar("my", ".git", 1);
    AbsentChar("hub.io", ".git", 1);
    ClonePathDropsInnerGit("my", "hub.io");
  }

  // ---------------------------------------------------------------------
  // The hunk walk.

  /** How a diff line is treated. */
  datatype Kind = Header | Added | Removed | Context

  /** As written: a line starting "++" is not an added line and one
      starting "--" is not a removed line; both count as context. */
  function KindAsWritten(line: string): Kind {
    if StartsWith(line, "@@") then Header
    else if StartsWith(line, "+") && !StartsWith(line, "++") then Added
    else if StartsWith(line, "-") && !StartsWith(line, "--") then Removed
    else Context
  }

  /** As evidently intended: inside a hunk the first character alone says
      what a line is, so an added "+x" shows as "++x" and a removed "-x"
      as "--x". */
  function KindOf(line: string): Kind {
    if StartsWith(line, "@@") then Header
    else if StartsWith(line, "+") then Added
    else if StartsWith(line, "-") then Removed
    else Context
  }

  /** An added line: its new-file number and its text. */
  datatype LineChange = LineChange(line: int, content: string)

  /** `current_line` (unset before the first hunk), `line_content`, and the
      line changes saved so far. */
  datatype Walk = Walk(current: Option<int>, content: seq<string>, changes: seq<LineChange>)

  const Start: Walk := Walk(None, [], [])

  /** The new-file start line of a hunk header `@@ -a,b +c,d @@`: the third
      space-separated field, up to its first ",", without its first
      character, read with `int`. A header with fewer than three fields
      raises `IndexError`; a start that is not an integer `ValueError`. */
  function HunkStart(line: string): Result<int> {
    var parts := Split(line, " ");
    if |parts| < 3 then Raise(IndexError)
    else
      var first := Split(parts[2], ",")[0];
      var digits := Rest(first);
      match ParseInt(digits)
      case None => Raise(ValueError)
      case Some(n) => Ok(n)
  }

  /** Python's `line[1:]`. */
  function Rest(line: string): (r: string)
    ensures |line| > 0 ==> [line[0]] + r == line
    ensures |line| == 0 ==> r == ""
  {
    if |line| == 0 then "" else line[1..]
  }

  /** One diff line of a given kind. */
  function Step(w: Walk, line: string, kind: Kind): (r: Result<Walk>)
    ensures kind != Header ==> r.Ok?
  {
    match kind
    case Header =>
      (match HunkStart(line)
       case Raise(e) => Raise(e)
       case Ok(n) => Ok(Walk(Some(n), [], w.changes)))
    case Added =>
      if w.current.None? then Ok(w)
      else
        var n := w.current.value;
        Ok(Walk(Some(n + 1), w.content + [Rest(line)], w.changes + [LineChange(n, Rest(line))]))
    case Removed => Ok(w)
    case Context =>
      if w.current.None? then Ok(w) else Ok(w.(current := Some(w.current.value + 1)))
  }

  /** The loop over the lines of one file's diff; `fixed` chooses the
      corrected classification. */
  function Run(w: Walk, lines: seq<string>, fixed: bool): Result<Walk>
    decreases |lines|
  {
    if |lines| == 0 then Ok(w)
    else
      var kind := if fixed then KindOf(lines[0]) else KindAsWritten(lines[0]);
      match Step(w, lines[0], kind)
      case Raise(e) => Raise(e)
      case Ok(next) => Run(next, lines[1..], fixed)
  }

  predicate NoHeader(lines: seq<string>) {
    forall i :: 0 <= i < |lines| ==> !StartsWith(lines[i], "@@")
  }

  /** Before the first hunk header no change is saved and no line number
      is set. */
  lemma {:induction false} NothingBeforeHunk(lines: seq<string>, fixed: bool)
    requires NoHeader(lines)
    ensures Run(Start, lines, fixed).Ok?
    ensures Run(Start, lines, fixed).value.current.None?
    ensures Run(Start, lines, fixed).value.changes == []
    decreases |lines|
  {
    if |lines| > 0 {
      var kind := if fixed then KindOf(lines[0]) else KindAsWritten(lines[0]);
      assert kind != Header;
      assert Step(Start, lines[0], kind).Ok? && Step(Start, lines[0], kind).value.current.None?;
      assert Step(Start, lines[0], kind).value.changes == [] && Step(Start, lines[0], kind).value.content == [];
      assert NoHeader(lines[1..]) by {
        forall i | 0 <= i < |lines[1..]| ensures !StartsWith(lines[1..][i], "@@") {
          assert lines[1..][i] == lines[i + 1];
        }
      }
      NothingBeforeHunk(lines[1..], fixed);
    }
  }

  /** The canonical hunk header `@@ -a,b +c,d @@`. */
  function HeaderLine(a: nat, b: nat, c: nat, d: nat): string {
    "@@ -" + NatToString(a) + "," + NatToString(b) + " +" + NatToString(c) + "," + NatToString(d) + " @@"
  }

  lemma Regroup(a: string, b: string, c: string, d: string)
    ensures "@@ -" + a + "," + b + " +" + c + "," + d + " @@"
      == "@@" + " " + (("-" + a + "," + b) + " " + (("+" + c + "," + d) + " " + "@@"))
  {
  }

  /** Its fields. */
  lemma HeaderFields(a: nat, b: nat, c: nat, d: nat)
    ensures Split(HeaderLine(a, b, c, d), " ")
      == ["@@", "-" + NatToString(a) + "," + NatToString(b), "+" + NatToString(c) + "," + NatToString(d), "@@"]
  {
    var oldPart := "-" + NatToString(a) + "," + NatToString(b);
    var newPart := "+" + NatToString(c) + "," + NatToString(d);
    NumberHasNo(NatToString(a), ' ');
    NumberHasNo(NatToString(b), ' ');
    NumberHasNo(NatToString(c), ' ');
    NumberHasNo(NatToString(d), ' ');
    Regroup(NatToString(a), NatToString(b), NatToString(c), NatToString(d));
    AbsentChar("@@", " ", 0);
    AbsentChar(oldPart, " ", 0);
    AbsentChar(newPart, " ", 0);
    SplitFour("@@", oldPart, newPart, "@@", " ");
  }

  /** The start field `+c,d` reads as `c`. */
  lemma StartField(c: nat, d: nat)
    ensures var first := Split("+" + NatToString(c) + "," + NatToString(d), ",")[0];
      ParseInt(Rest(first)) == Some(c)
  {
    var head := "+" + NatToString(c);
    NumberHasNo(NatToString(c), ',');
    AbsentChar(head, ",", 0);
    SplitAfter(head, ",", NatToString(d));
    assert Rest(head) == NatToString(c);
    IntToStringRoundTrip(c);
  }

  /** The header `@@ -a,b +c,d @@` sets the line number to `c` and empties
      the buffered content, keeping the saved changes. */
  lemma HeaderSetsLine(w: Walk, a: nat, b: nat, c: nat, d: nat)
    ensures KindOf(HeaderLine(a, b, c, d)) == Header && KindAsWritten(HeaderLine(a, b, c, d)) == Header
    ensures Step(w, HeaderLine(a, b, c, d), Header).Ok?
    ensures Step(w, HeaderLine(a, b, c, d), Header).value == Walk(Some(c), [], w.changes)
  {
    var line := HeaderLine(a, b, c, d);
    assert line[..2] == "@@";
    HeaderFields(a, b, c, d);
    StartField(c, d);
  }

  lemma NumberHasNo(s: string, x: char)
    requires AllDigits(s) && !IsDigit(x)
    ensures x !in s
  {
  }

  /** Each kind of line inside a hunk, as written: an added line is saved
      under the current number, which then moves on; a removed line leaves
      the number alone; any other line moves it on. */
  lemma StepInHunk(w: Walk, line: string, n: int)
    requires w.current == Some(n)
    ensures KindAsWritten(line) == Added ==>
      Step(w, line, Added).value == Walk(Some(n + 1), w.content + [line[1..]], w.changes + [LineChange(n, line[1..])])
    ensures KindAsWritten(line) == Removed ==> Step(w, line, Removed).value == w
    ensures KindAsWritten(line) == Context ==> Step(w, line, Context).value == w.(current := Some(n + 1))
  {
  }

  /** The prefixes a line is classified by, read off its first two
      characters. */
  lemma Prefixes(line: string)
    requires |line| >= 2
    ensures StartsWith(line, "@@") <==> line[0] == '@' && line[1] == '@'
    ensures StartsWith(line, "+") <==> line[0] == '+'
    ensures StartsWith(line, "++") <==> line[0] == '+' && line[1] == '+'
    ensures StartsWith(line, "-") <==> line[0] == '-'
    ensures StartsWith(line, "--") <==> line[0] == '-' && line[1] == '-'
  {
    assert line[..1] == [line[0]];
    assert line[..2] == [line[0], line[1]];
  }

  lemma RunOne(w: Walk, line: string, fixed: bool)
    ensures Run(w, [line], fixed) == Step(w, line, if fixed then KindOf(line) else KindAsWritten(line))
  {
    assert [line][1..] == [];
  }

  /** As written, a removed line whose own text starts with "-" (shown as
      "--x") moves the new-file number on; corrected, it does not. */
  lemma DoubleDashAdvances(w: Walk, n: int)
    requires w.current == Some(n)
    ensures Run(w, ["--x"], false).Ok? && Run(w, ["--x"], false).value.current == Some(n + 1)
    ensures Run(w, ["--x"], true).Ok? && Run(w, ["--x"], true).value.current == Some(n)
  {
    Prefixes("--x");
    assert "--x"[0] == '-' && "--x"[1] == '-';
    assert KindAsWritten("--x") == Context;
    assert KindOf("--x") == Removed;
    RunOne(w, "--x", false);
    RunOne(w, "--x", true);
  }

  /** As written, an added line whose own text starts with "+" (shown as
      "++x") is not saved; corrected, it is. */
  lemma DoublePlusDropped(w: Walk, n: int)
    requires w.current == Some(n)
    ensures Run(w, ["++x"], false).Ok? && Run(w, ["++x"], false).value.changes == w.changes
    ensures Run(w, ["++x"], true).Ok? && Run(w, ["++x"], true).value.changes == w.changes + [LineChange(n, "+x")]
  {
    Prefixes("++x");
    assert "++x"[0] == '+' && "++x"[1] == '+';
    assert KindAsWritten("++x") == Context;
    assert KindOf("++x") == Added;
    assert Rest("++x") == "+x";
    RunOne(w, "++x", false);
    RunOne(w, "++x", true);
  }

  /** Both walks agree on diffs with no line starting "++" or "--". */
  lemma {:induction false} RunAgrees(w: Walk, lines: seq<string>)
    requires forall i :: 0 <= i < |lines| ==> !StartsWith(lines[i], "++") && !StartsWith(lines[i], "--")
    ensures Run(w, lines, false) == Run(w, lines, true)
    decreases |lines|
  {
    if |lines| > 0 {
      assert KindAsWritten(lines[0]) == KindOf(lines[0]);
      match Step(w, lines[0], KindOf(lines[0]))
      case Raise(_) =>
      case Ok(next) =>
        assert forall i :: 0 <= i < |lines[1..]| ==> lines[1..][i] == lines[i + 1];
        RunAgrees(next, lines[1..]);
    }
  }

  /** Lines of a hunk after its header, by kind. */
  function AddedCount(lines: seq<string>): nat {
    if |lines| == 0 then 0 else (if KindOf(lines[0]) == Added then 1 else 0) + AddedCount(lines[1..])
  }

  function Advancing(lines: seq<string>): nat {
    if |lines| == 0 then 0
    else (if KindOf(lines[0]) in {Added, Context} then 1 else 0) + Advancing(lines[1..])
  }

  /** The reference list of changes a hunk body starting at line `n`
      saves: each added line, in order, with its text after the "+" and
      the number `n` plus the count of added and context lines before it. */
  function Expected(lines: seq<string>, n: int): seq<LineChange>
    decreases |lines|
  {
    if |lines| == 0 then []
    else
      var kind := KindOf(lines[0]);
      var here := if kind == Added then [LineChange(n, Rest(lines[0]))] else [];
      here + Expected(lines[1..], if kind in {Added, Context} then n + 1 else n)
  }

  /** The reference list has one change per added line, at increasing
      numbers within the hunk's range. */
  lemma {:induction false} ExpectedShape(lines: seq<string>, n: int)
    ensures |Expected(lines, n)| == AddedCount(lines)
    ensures forall k :: 0 <= k < |Expected(lines, n)| ==>
      n <= Expected(lines, n)[k].line < n + Advancing(lines)
    ensures forall k, l :: 0 <= k < l < |Expected(lines, n)| ==>
      Expected(lines, n)[k].line < Expected(lines, n)[l].line
    decreases |lines|
  {
    if |lines| > 0 {
      var kind := KindOf(lines[0]);
      var m := if kind in {Added, Context} then n + 1 else n;
      var here := if kind == Added then [LineChange(n, Rest(lines[0]))] else [];
      ExpectedShape(lines[1..], m);
      assert Expected(lines, n) == here + Expected(lines[1..], m);
    }
  }

  /** Each added line is in the reference list, with its text, at `n`
      plus the number of added and context lines before it. */
  lemma {:induction false} ExpectedAt(lines: seq<string>, n: int, i: nat)
    requires i < |lines| && KindOf(lines[i]) == Added
    ensures LineChange(n + Advancing(lines[..i]), Rest(lines[i])) in Expected(lines, n)
    decreases i
  {
    var kind := KindOf(lines[0]);
    var m := if kind in {Added, Context} then n + 1 else n;
    var here := if kind == Added then [LineChange(n, Rest(lines[0]))] else [];
    assert Expected(lines, n) == here + Expected(lines[1..], m);
    if i == 0 {
      assert lines[..0] == [];
    } else {
      var pre := lines[..i];
      assert pre[0] == lines[0];
      assert pre[1..] == lines[1..][..i - 1];
      assert lines[1..][i - 1] == lines[i];
      assert Advancing(pre) == m - n + Advancing(lines[1..][..i - 1]);
      ExpectedAt(lines[1..], m, i - 1);
    }
  }

  /** Corrected, a hunk body moves the line number on once per added or
      context line and saves exactly the reference changes: one per added
      line, with its text, at its new-file number, in increasing order. */
  lemma {:induction false} HunkBody(w: Walk, lines: seq<string>, n: int)
    requires w.current == Some(n) && NoHeader(lines)
    ensures Run(w, lines, true).Ok?
    ensures Run(w, lines, true).value.current == Some(n + Advancing(lines))
    ensures Run(w, lines, true).value.changes == w.changes + Expected(lines, n)
    ensures |Run(w, lines, true).value.changes| == |w.changes| + AddedCount(lines)
    ensures forall i :: |w.changes| <= i < |Run(w, lines, true).value.changes| ==>
      n <= Run(w, lines, true).value.changes[i].line < n + Advancing(lines)
    decreases |lines|
  {
    HunkChanges(w, lines, n);
    ExpectedShape(lines, n);
    var r := Run(w, lines, true).value;
    forall i | |w.changes| <= i < |r.changes|
      ensures n <= r.changes[i].line < n + Advancing(lines)
    {
      assert r.changes[i] == Expected(lines, n)[i - |w.changes|];
    }
  }

  /** The walk half of `HunkBody`. */
  lemma {:induction false} HunkChanges(w: Walk, lines: seq<string>, n: int)
    requires w.current == Some(n) && NoHeader(lines)
    ensures Run(w, lines, true).Ok?
    ensures Run(w, lines, true).value.current == Some(n + Advancing(lines))
    ensures Run(w, lines, true).value.changes == w.changes + Expected(lines, n)
    decreases |lines|
  {
    if |lines| > 0 {
      var kind := KindOf(lines[0]);
      var m := if kind in {Added, Context} then n + 1 else n;
      var here := if kind == Added then [LineChange(n, Rest(lines[0]))] else [];
      var next := HunkStep(w, lines[0], n);
      NoHeaderTail(lines);
      HunkChanges(next, lines[1..], m);
      RunCons(w, lines, next);
      ExpectedCons(lines, n);
      Concat3(w.changes, here, Expected(lines[1..], m));
    }
  }

  /** One line inside a hunk, other than a header. */
  lemma HunkStep(w: Walk, line: string, n: int) returns (next: Walk)
    requires w.current == Some(n) && !StartsWith(line, "@@")
    ensures Step(w, line, KindOf(line)) == Ok(next)
    ensures next.current == Some(if KindOf(line) in {Added, Context} then n + 1 else n)
    ensures next.changes == w.changes + (if KindOf(line) == Added then [LineChange(n, Rest(line))] else [])
  {
    next := Step(w, line, KindOf(line)).value;
  }

  lemma NoHeaderTail(lines: seq<string>)
    requires |lines| > 0 && NoHeader(lines)
    ensures NoHeader(lines[1..])
  {
    forall i | 0 <= i < |lines[1..]| ensures !StartsWith(lines[1..][i], "@@") {
      assert lines[1..][i] == lines[i + 1];
    }
  }

  lemma RunCons(w: Walk, lines: seq<string>, next: Walk)
    requires |lines| > 0 && Step(w, lines[0], KindOf(lines[0])) == Ok(next)
    ensures Run(w, lines, true) == Run(next, lines[1..], true)
  {
  }

  lemma ExpectedCons(lines: seq<string>, n: int)
    requires |lines| > 0
    ensures Expected(lines, n) ==
      (if KindOf(lines[0]) == Added then [LineChange(n, Rest(lines[0]))] else []) +
      Expected(lines[1..], if KindOf(lines[0]) in {Added, Context} then n + 1 else n)
  {
  }

  lemma Concat3<T>(a: seq<T>, b: seq<T>, c: seq<T>)
    ensures a + b + c == a + (b + c)
  {
  }
}

=== FILE: github_changes.dfy ===
/** Pieces of the GitHub collector and of the change store: picking merge
    commits out of a branch history, totalling a commit's file list, and
    naming the directory each change is stored under. */
module GithubChanges {
  import opened Wrappers
  import opened Strings
  import opened Json
  import opened Seqs

  // ---------------------------------------------------------------------
  // `github_analyze_merge_commits_history`

  /** A history entry is a merge commit when it is a dict whose "commit" is
      a non-empty dict and whose "parents" (default `[]`) is a list of more
      than one parent. */
  predicate IsMerge(entry: Value) {
    && entry.Obj?
    && var commit := Get(entry.fields, "commit");
    && var parents := GetOr(entry.fields, "parents", Arr([]));
    && Truthy(commit) && commit.Obj?
    && parents.Arr? && |parents.items| > 1
  }

  /** What the model keeps of the record built for a merge commit: its
      sha (also the request id), its message and the parents' shas. */
  datatype MergeInfo = MergeInfo(sha: Value, message: Value, parentShas: seq<Value>)

  /** A parent counts when it is a dict with a truthy "sha". */
  predicate HasSha(p: Value) {
    p.Obj? && Truthy(Get(p.fields, "sha"))
  }

  function ParentShas(parents: seq<Value>): (r: seq<Value>)
    ensures |r| <= |parents|
    ensures |r| == |Filter(parents, HasSha)|
    ensures forall i :: 0 <= i < |r| ==> Truthy(r[i])
  {
    var kept := Filter(parents, HasSha);
    seq(|kept|, i requires 0 <= i < |kept| => Get(kept[i].fields, "sha"))
  }

  function Info(entry: Value): MergeInfo
    requires IsMerge(entry)
  {
    var commit := Get(entry.fields, "commit");
    var parents := GetOr(entry.fields, "parents", Arr([]));
    MergeInfo(Get(entry.fields, "sha"), Get(commit.fields, "message"), ParentShas(parents.items))
  }

  /** The loop over the history: one record per merge commit, in history
      order. */
  method MergeCommits(history: seq<Value>) returns (merges: seq<MergeInfo>)
    ensures |merges| == |Filter(history, IsMerge)|
    ensures forall i :: 0 <= i < |merges| ==>
      IsMerge(Filter(history, IsMerge)[i]) && merges[i] == Info(Filter(history, IsMerge)[i])
  {
    merges := [];
    for n := 0 to |history|
      invariant |merges| == |Filter(history[..n], IsMerge)|
      invariant forall i :: 0 <= i < |merges| ==>
        IsMerge(Filter(history[..n], IsMerge)[i]) && merges[i] == Info(Filter(history[..n], IsMerge)[i])
    {
      FilterSnoc(history[..n], history[n], IsMerge);
      assert history[..n + 1] == history[..n] + [history[n]];
      if IsMerge(history[n]) {
        merges := merges + [Info(history[n])];
      }
    }
    assert history[..|history|] == history;
  }

  /** A history entry yields a record exactly when it is a merge commit. */
  lemma MergeCommitsMembers(history: seq<Value>, e: Value)
    ensures e in Filter(history, IsMerge) <==> e in history && IsMerge(e)
  {
    FilterMembers(history, IsMerge);
  }

  // ---------------------------------------------------------------------
  // `github_process_commit_files_list`

  /** An entry is used when it is a dict holding both "filename" and
      "status". */
  predicate Usable(f: Value) {
    f.Obj? && "filename" in f.fields && "status" in f.fields
  }

  /** `f.get(key, 0)` added to an integer total: a missing count is 0, an
      integer is itself, a boolean adds as 1 or 0 (Python's `bool` is an
      `int`), anything else makes `+=` raise `TypeError`. */
  function CountOf(f: Value, key: string): (r: Result<int>)
    requires f.Obj?
    ensures key !in f.fields ==> r.Ok? && r.value == 0
    ensures r.Ok? <==> key !in f.fields || f.fields[key].Num? || f.fields[key].Bool?
    ensures r.Ok? && key in f.fields && f.fields[key].Num? ==> r.value == f.fields[key].n
    ensures r.Ok? && key in f.fields && f.fields[key].Bool? ==> r.value == (if f.fields[key].b then 1 else 0)
  {
    match GetOr(f.fields, key, Num(0))
    case Num(n) => Ok(n)
    case Bool(b) => Ok(if b then 1 else 0)
    case _ => Raise(TypeError)
  }

  /** The metadata kept per file. */
  datatype FileMeta = FileMeta(filename: Value, status: Value, additions: int, deletions: int, changes: int)

  datatype FileTotals = FileTotals(files: seq<FileMeta>, additions: int, deletions: int, changes: int)

  predicate Counted(f: Value) {
    f.Obj? && CountOf(f, "additions").Ok? && CountOf(f, "deletions").Ok? && CountOf(f, "changes").Ok?
  }

  /** The three counts a file entry carries. */
  datatype CountKey = Additions | Deletions | Changes

  function Count(f: Value, k: CountKey): int
    requires Counted(f)
  {
    match k
    case Additions => CountOf(f, "additions").value
    case Deletions => CountOf(f, "deletions").value
    case Changes => CountOf(f, "changes").value
  }

  /** The reference sum of one count over the entries, first to last. */
  function SumOf(files: seq<Value>, k: CountKey): int
    requires forall i :: 0 <= i < |files| ==> Counted(files[i])
    decreases |files|
  {
    if |files| == 0 then 0
    else Count(files[0], k) + SumOf(files[1..], k)
  }

  function Meta(f: Value): FileMeta
    requires Usable(f) && Counted(f)
  {
    FileMeta(f.fields["filename"], f.fields["status"],
      CountOf(f, "additions").value, CountOf(f, "deletions").value, CountOf(f, "changes").value)
  }

  /** What the loop has built after the given used entries: the totals so
      far, or the exception raised by the first bad count. */
  function Totals(used: seq<Value>): Result<FileTotals>
    requires forall i :: 0 <= i < |used| ==> Usable(used[i])
    decreases |used|
  {
    if |used| == 0 then Ok(FileTotals([], 0, 0, 0))
    else
      match Totals(used[..|used| - 1])
      case Raise(e) => Raise(e)
      case Ok(t) =>
        var f := used[|used| - 1];
        if !Counted(f) then Raise(TypeError) else Ok(AddFile(t, f))
  }

  /** One pass of the loop body over a used entry with integer counts. */
  function AddFile(t: FileTotals, f: Value): FileTotals
    requires Usable(f) && Counted(f)
  {
    FileTotals(t.files + [Meta(f)], t.additions + CountOf(f, "additions").value,
      t.deletions + CountOf(f, "deletions").value, t.changes + CountOf(f, "changes").value)
  }

  lemma {:induction false} SumOfSnoc(files: seq<Value>, f: Value, k: CountKey)
    requires forall i :: 0 <= i < |files| ==> Counted(files[i])
    requires Counted(f)
    ensures forall i :: 0 <= i < |files + [f]| ==> Counted((files + [f])[i])
    ensures SumOf(files + [f], k) == SumOf(files, k) + Count(f, k)
    decreases |files|
  {
    if |files| > 0 {
      SumOfSnoc(files[1..], f, k);
      assert (files + [f])[1..] == files[1..] + [f];
    }
  }

  /** The loop raises exactly when some used entry has a count that is not
      an integer or a boolean; otherwise it lists every used entry, in order, and its
      totals are the sums of the counts. */
  lemma {:induction false} TotalsSums(used: seq<Value>)
    requires forall i :: 0 <= i < |used| ==> Usable(used[i])
    ensures Totals(used).Ok? <==> forall i :: 0 <= i < |used| ==> Counted(used[i])
    ensures Totals(used).Ok? ==>
      && |Totals(used).value.files| == |used|
      && (forall i :: 0 <= i < |used| ==> Totals(used).value.files[i] == Meta(used[i]))
      && Totals(used).value.additions == SumOf(used, Additions)
      && Totals(used).value.deletions == SumOf(used, Deletions)
      && Totals(used).value.changes == SumOf(used, Changes)
    decreases |used|
  {
    if |used| > 0 {
      var init := used[..|used| - 1];
      var f := used[|used| - 1];
      TotalsSums(init);
      assert used == init + [f];
      if Totals(init).Ok? && Counted(f) {
        SumOfSnoc(init, f, Additions);
        SumOfSnoc(init, f, Deletions);
        SumOfSnoc(init, f, Changes);
      }
    }
  }

  /** The loop over the file list: entries that are not usable are skipped,
      and the used ones go through `Totals`. The loop runs inside a `try`
      whose `except Exception` answers `([], 0, 0, 0)`, so a bad count
      empties the whole answer instead of escaping. */
  method ProcessFiles(files: seq<Value>) returns (r: FileTotals)
    ensures Totals(Filter(files, Usable)).Ok? ==> r == Totals(Filter(files, Usable)).value
    ensures Totals(Filter(files, Usable)).Raise? ==> r == FileTotals([], 0, 0, 0)
  {
    var t := FileTotals([], 0, 0, 0);
    for n := 0 to |files|
      invariant Totals(Filter(files[..n], Usable)).Ok?
      invariant Totals(Filter(files[..n], Usable)).value == t
    {
      UsedStep(files, n);
      var f := files[n];
      if Usable(f) {
        if !Counted(f) {
          RaiseStays(files, n);
          return FileTotals([], 0, 0, 0);
        }
        TotalsSnoc(Filter(files[..n], Usable), f);
        t := AddFile(t, f);
      }
    }
    assert files[..|files|] == files;
    r := t;
  }

  /** The used entries among the first `n + 1`. */
  lemma UsedStep(files: seq<Value>, n: nat)
    requires n < |files|
    ensures Filter(files[..n + 1], Usable) ==
      if Usable(files[n]) then Filter(files[..n], Usable) + [files[n]] else Filter(files[..n], Usable)
  {
    FilterSnoc(files[..n], files[n], Usable);
    assert files[..n + 1] == files[..n] + [files[n]];
    assert Filter(files[..n], Usable) + [] == Filter(files[..n], Usable);
  }

  lemma TotalsSnoc(used: seq<Value>, f: Value)
    requires forall i :: 0 <= i < |used| ==> Usable(used[i])
    requires Usable(f) && Counted(f) && Totals(used).Ok?
    ensures forall i :: 0 <= i < |used + [f]| ==> Usable((used + [f])[i])
    ensures Totals(used + [f]).Ok?
    ensures Totals(used + [f]).value == AddFile(Totals(used).value, f)
  {
    assert (used + [f])[..|used + [f]| - 1] == used;
  }

  lemma {:induction false} TotalsRaise(used: seq<Value>, more: seq<Value>)
    requires forall i :: 0 <= i < |used| ==> Usable(used[i])
    requires forall i :: 0 <= i < |more| ==> Usable(more[i])
    requires Totals(used).Raise?
    ensures Totals(used + more).Raise?
    decreases |more|
  {
    if |more| > 0 {
      var init := more[..|more| - 1];
      assert (used + more)[..|used + more| - 1] == used + init;
      TotalsRaise(used, init);
      assert forall i :: 0 <= i < |used + more| ==> Usable((used + more)[i]);
      assert Totals((used + more)[..|used + more| - 1]).Raise?;
    } else {
      assert used + more == used;
    }
  }

  /** The loop has raised by the time it passes a used entry with a bad
      count. */
  lemma RaiseAt(files: seq<Value>, n: nat)
    requires n < |files| && Usable(files[n]) && !Counted(files[n])
    ensures Totals(Filter(files[..n + 1], Usable)).Raise?
  {
    FilterSnoc(files[..n], files[n], Usable);
    assert files[..n + 1] == files[..n] + [files[n]];
    var used := Filter(files[..n + 1], Usable);
    assert used[..|used| - 1] == Filter(files[..n], Usable);
  }

  /** Once a used entry has raised, the rest of the list does not matter. */
  lemma RaiseStays(files: seq<Value>, n: nat)
    requires n < |files| && Usable(files[n]) && !Counted(files[n])
    ensures Totals(Filter(files, Usable)).Raise?
  {
    RaiseAt(files, n);
    assert files == files[..n + 1] + files[n + 1..];
    FilterAppend(files[..n + 1], files[n + 1..], Usable);
    TotalsRaise(Filter(files[..n + 1], Usable), Filter(files[n + 1..], Usable));
  }

  // ---------------------------------------------------------------------
  // `load_change` and `_process_single_change`

  datatype ChangeType = PullRequest | MergeCommit

  /** The `change_type` argument: "pr" or "merge_commit"; anything else is
      rejected. */
  function ChangeTypeOf(t: string): Option<ChangeType> {
    if t == "pr" then Some(PullRequest)
    else if t == "merge_commit" then Some(MergeCommit)
    else None
  }

  /** The directory a change is stored under and its internal id: "pr_<id>"
      for a pull request, "commit_<first 7 characters>" for a merge commit;
      `None` for any other change type. */
  function LoadChangeDir(id: string, changeType: string): (r: Option<(string, string)>)
    ensures r.Some? <==> ChangeTypeOf(changeType).Some?
    ensures r.Some? ==> r.value.1 == id
  {
    match ChangeTypeOf(changeType)
    case None => None
    case Some(PullRequest) => Some(("pr_" + id, id))
    case Some(MergeCommit) => Some(("commit_" + Take(id, 7), id))
  }

  /** `_process_single_change` reading a directory name back: the prefix
      before the first "_" and the rest, re-joined with "_"; `None` when
      there is no "_". */
  function ParseChangeDir(name: string): (r: Option<(string, string)>)
    ensures r.None? <==> !Contains(name, "_")
  {
    var parts := Split(name, "_");
    if |parts| < 2 then
      SplitAbsent(name, "_");
      None
    else
      assert Contains(name, "_") by {
        if !Contains(name, "_") { SplitAbsent(name, "_"); }
      }
      Some((parts[0], Join(parts[1..], "_")))
  }

  /** Reading back a directory name written by `load_change` gives the
      change's prefix and id: the whole id of a pull request, even one that
      holds "_", and the short sha of a merge commit. */
  lemma LoadChangeRoundTrip(id: string, changeType: string)
    requires ChangeTypeOf(changeType).Some?
    ensures var dir := LoadChangeDir(id, changeType).value.0;
      && ParseChangeDir(dir).Some?
      && ParseChangeDir(dir).value.0 == (if changeType == "pr" then "pr" else "commit")
      && ParseChangeDir(dir).value.1 == (if changeType == "pr" then id else Take(id, 7))
  {
    var head := if changeType == "pr" then "pr" else "commit";
    var rest := if changeType == "pr" then id else Take(id, 7);
    assert LoadChangeDir(id, changeType).value.0 == head + "_" + rest;
    ContainsChar(head, '_');
    SplitAfter(head, "_", rest);
    JoinSplit(rest, "_");
    var parts := Split(head + "_" + rest, "_");
    assert parts[1..] == Split(rest, "_");
    assert OccursAt(head + "_" + rest, "_", |head|);
  }
}

=== FILE: ipv4.dfy ===
/** IPv4 text helpers of the owner-list utilities: the loose address check,
    the dotted-quad to integer conversion (section 3.1 of RFC 791: an address
    is 32 bits, most significant octet first), the netmask to prefix-length
    lookup (section 3.1 of RFC 4632), and the address read off a sheet name. */
module Ipv4 {
  import opened Wrappers
  import opened Strings

  // ---------------------------------------------------------------------
  // isvalidip

  function CountChar(s: string, c: char): nat {
    if |s| == 0 then 0
    else (if s[0] == c then 1 else 0) + CountChar(s[1..], c)
  }

  /** Splitting on a character yields one more part than there are
      occurrences of it. */
  lemma {:induction false} SplitCount(s: string, c: char)
    ensures |Split(s, [c])| == CountChar(s, c) + 1
    decreases |s|
  {
    match Find(s, [c])
    case None =>
      ContainsChar(s, c);
      NoCharCount(s, c);
    case Some(i) =>
      assert s[i..i + 1] == [c];
      var tail := s[i + 1..];
      SplitCount(tail, c);
      assert c !in s[..i] by {
        forall j | 0 <= j < i ensures s[j] != c {
          assert !OccursAt(s, [c], j);
          assert s[j..j + 1] == [s[j]];
        }
      }
      NoCharCount(s[..i], c);
      CountAppend(s[..i], [c] + tail, c);
      assert s == s[..i] + ([c] + tail);
      assert ([c] + tail)[1..] == tail;
  }

  lemma {:induction false} NoCharCount(s: string, c: char)
    requires c !in s
    ensures CountChar(s, c) == 0
    decreases |s|
  {
    if |s| > 0 {
      NoCharCount(s[1..], c);
    }
  }

  lemma {:induction false} CountAppend(a: string, b: string, c: char)
    ensures CountChar(a + b, c) == CountChar(a, c) + CountChar(b, c)
    decreases |a|
  {
    if |a| > 0 {
      assert (a + b)[1..] == a[1..] + b;
      CountAppend(a[1..], b, c);
    } else {
      assert a + b == b;
    }
  }

  /** The portal's address check: 1 to 15 characters with at least three
      dot-separated parts. */
  function IsValidIp(ip: string): (ok: bool)
    ensures ok ==> 0 < |ip| <= 15
  {
    if |ip| == 0 || |ip| > 15 then false
    else |Split(ip, ".")| >= 3
  }

  /** The same check read as a count: a non-empty text of at most 15
      characters containing at least two dots. */
  lemma IsValidIpDots(ip: string)
    ensures IsValidIp(ip) <==> 0 < |ip| <= 15 && CountChar(ip, '.') >= 2
  {
    SplitCount(ip, '.');
  }

  // ---------------------------------------------------------------------
  // IP2Int

  /** Python's `list(map(int, parts))`: every part must parse. */
  function ParseAll(parts: seq<string>): (r: Option<seq<int>>)
    ensures r.Some? <==> forall k :: 0 <= k < |parts| ==> ParseInt(parts[k]).Some?
    ensures r.Some? ==> |r.value| == |parts|
    ensures r.Some? ==> forall k :: 0 <= k < |parts| ==> ParseInt(parts[k]).value == r.value[k]
  {
    if forall k :: 0 <= k < |parts| ==> ParseInt(parts[k]).Some? then
      Some(seq(|parts|, k requires 0 <= k < |parts| => ParseInt(parts[k]).value))
    else None
  }

  const Octet1: int := 16777216
  const Octet2: int := 65536
  const Octet3: int := 256

  /** IP2Int: every dot-separated part is converted with `int` (a bad part
      raises `ValueError`), then the first four are combined big-endian
      (fewer than four raise `IndexError`). */
  function Ip2Int(ip: string): (r: Result<int>)
    ensures r.Ok? <==> AllParse(Split(ip, ".")) && |Split(ip, ".")| >= 4
    ensures r.Ok? ==> r.value == BigEndian(Split(ip, "."))
    ensures r.Raise? ==> r.exc == (if AllParse(Split(ip, ".")) then IndexError else ValueError)
  {
    PartsToInt(Split(ip, "."))
  }

  /** Every part reads as an integer. */
  predicate AllParse(parts: seq<string>) {
    forall k :: 0 <= k < |parts| ==> ParseInt(parts[k]).Some?
  }

  /** The first four parts, read as integers, combined most significant
      first. */
  function BigEndian(parts: seq<string>): int
    requires AllParse(parts) && |parts| >= 4
  {
    Octet1 * ParseInt(parts[0]).value + Octet2 * ParseInt(parts[1]).value +
    Octet3 * ParseInt(parts[2]).value + ParseInt(parts[3]).value
  }

  /** The combining step of IP2Int, on the already split parts. */
  function PartsToInt(parts: seq<string>): (r: Result<int>)
    ensures r.Ok? <==> AllParse(parts) && |parts| >= 4
    ensures r.Ok? ==> r.value == BigEndian(parts)
    ensures r.Raise? ==> r.exc == (if AllParse(parts) then IndexError else ValueError)
  {
    match ParseAll(parts)
    case None => Raise(ValueError)
    case Some(o) =>
      if |o| < 4 then Raise(IndexError)
      else Ok(Octet1 * o[0] + Octet2 * o[1] + Octet3 * o[2] + o[3])
  }

  predicate IsOctet(n: int) {
    0 <= n <= 255
  }

  function Dotted(a: nat, b: nat, c: nat, d: nat): string {
    NatToString(a) + "." + NatToString(b) + "." + NatToString(c) + "." + NatToString(d)
  }

  /** The 32-bit value of four octets, and each octet recovered from it. */
  lemma OctetsValue(a: int, b: int, c: int, d: int)
    requires IsOctet(a) && IsOctet(b) && IsOctet(c) && IsOctet(d)
    ensures var v := Octet1 * a + Octet2 * b + Octet3 * c + d;
      && 0 <= v <= 0xFFFF_FFFF
      && v / Octet1 == a
      && (v / Octet2) % 256 == b
      && (v / Octet3) % 256 == c
      && v % 256 == d
  {
    var v := Octet1 * a + Octet2 * b + Octet3 * c + d;
    var low := Octet2 * b + Octet3 * c + d;
    assert 0 <= low < Octet1;
    assert v == Octet1 * a + low;
    var low2 := Octet3 * c + d;
    assert 0 <= low2 < Octet2;
    assert v == Octet2 * (256 * a + b) + low2;
    assert v == Octet3 * (65536 * a + 256 * b + c) + d;
  }

  lemma DigitsHaveNoDot(s: string)
    requires AllDigits(s)
    ensures '.' !in s
  {
    forall i | 0 <= i < |s|
      ensures s[i] != '.'
    {
      assert IsDigit(s[i]);
    }
  }

  /** The dotted text of four numbers splits back into their decimal texts. */
  lemma SplitDotted(a: nat, b: nat, c: nat, d: nat)
    ensures Split(Dotted(a, b, c, d), ".") == [NatToString(a), NatToString(b), NatToString(c), NatToString(d)]
  {
    var p0, p1, p2, p3 := NatToString(a), NatToString(b), NatToString(c), NatToString(d);
    NoDotInside(p0);
    NoDotInside(p1);
    NoDotInside(p2);
    NoDotInside(p3);
    DottedGroups(p0, p1, p2, p3);
    SplitFour(p0, p1, p2, p3, ".");
  }

  lemma NoDotInside(s: string)
    requires AllDigits(s)
    ensures !Contains(s, ".")
  {
    DigitsHaveNoDot(s);
    AbsentChar(s, ".", 0);
  }

  lemma DottedGroups(p0: string, p1: string, p2: string, p3: string)
    ensures p0 + "." + p1 + "." + p2 + "." + p3 == p0 + "." + (p1 + "." + (p2 + "." + p3))
  {
  }

  lemma ParseNat(n: nat)
    ensures ParseInt(NatToString(n)).Some? && ParseInt(NatToString(n)).value == n
  {
    IntToStringRoundTrip(n);
  }

  lemma ParseFour(x: seq<string>, v: seq<int>)
    requires |x| == 4 && |v| == 4
    requires forall k :: 0 <= k < 4 ==> ParseInt(x[k]).Some? && ParseInt(x[k]).value == v[k]
    ensures ParseAll(x).Some? && ParseAll(x).value == v
  {
    var r := ParseAll(x);
    assert r.Some?;
    assert forall k :: 0 <= k < 4 ==> r.value[k] == v[k];
    assert r.value == v;
  }

  lemma DottedParses(a: nat, b: nat, c: nat, d: nat)
    ensures ParseAll(Split(Dotted(a, b, c, d), ".")).Some?
    ensures ParseAll(Split(Dotted(a, b, c, d), ".")).value == [a as int, b as int, c as int, d as int]
  {
    var ps := Split(Dotted(a, b, c, d), ".");
    var ns: seq<nat> := [a, b, c, d];
    var o := [a as int, b as int, c as int, d as int];
    assert |ps| == 4 && forall k :: 0 <= k < 4 ==> ps[k] == NatToString(ns[k]) by {
      SplitDotted(a, b, c, d);
    }
    forall k | 0 <= k < 4
      ensures ParseInt(ps[k]).Some? && ParseInt(ps[k]).value == o[k]
    {
      ParseNat(ns[k]);
    }
    ParseFour(ps, o);
  }

  lemma Ip2IntOfParts(t: string, o: seq<int>)
    requires |o| == 4 && ParseAll(Split(t, ".")).Some? && ParseAll(Split(t, ".")).value == o
    ensures Ip2Int(t).Ok? && Ip2Int(t).value == Octet1 * o[0] + Octet2 * o[1] + Octet3 * o[2] + o[3]
  {
    var parts := Split(t, ".");
    assert forall k :: 0 <= k < 4 ==> ParseInt(parts[k]).value == o[k];
  }

  /** A dotted quad of octets converts to its 32-bit big-endian value, from
      which the four octets can be read back. */
  lemma Ip2IntDotted(a: nat, b: nat, c: nat, d: nat)
    requires IsOctet(a) && IsOctet(b) && IsOctet(c) && IsOctet(d)
    ensures Ip2Int(Dotted(a, b, c, d)).Ok?
    ensures Ip2Int(Dotted(a, b, c, d)).value == Octet1 * a + Octet2 * b + Octet3 * c + d
    ensures 0 <= Octet1 * a + Octet2 * b + Octet3 * c + d <= 0xFFFF_FFFF
  {
    var t := Dotted(a, b, c, d);
    var o := [a as int, b as int, c as int, d as int];
    DottedParses(a, b, c, d);
    Ip2IntOfParts(t, o);
    OctetsValue(a, b, c, d);
  }

  // ---------------------------------------------------------------------
  // GetNumberFromMask

  /** The mask byte with `bits` leading one bits. */
  function MaskByte(bits: nat): (o: nat)
    requires bits <= 8
    ensures o <= 255
  {
    [0, 128, 192, 224, 240, 248, 252, 254, 255][bits]
  }

  /** Octet `k` of the mask with `p` leading one bits. */
  function MaskOctet(p: nat, k: nat): (o: nat)
    requires p <= 32 && k < 4
    ensures o <= 255
  {
    MaskByte(if p <= 8 * k then 0 else if p >= 8 * k + 8 then 8 else p - 8 * k)
  }

  /** Three-digit zero-padded decimal of an octet. */
  function Pad3(n: nat): (s: string)
    requires n < 1000
    ensures |s| == 3 && AllDigits(s)
  {
    [DigitChar(n / 100), DigitChar((n / 10) % 10), DigitChar(n % 10)]
  }

  /** The zero-padded dotted mask with `p` leading one bits. */
  function CanonicalMask(p: nat): string
    requires p <= 32
  {
    Pad3(MaskOctet(p, 0)) + "." + Pad3(MaskOctet(p, 1)) + "." +
    Pad3(MaskOctet(p, 2)) + "." + Pad3(MaskOctet(p, 3))
  }

  /** The 33 zero-padded netmasks the portal recognises, indexed by prefix
      length, from "000.000.000.000" up to "255.255.255.255". */
  const MaskTable: seq<string> := MaskRange(33)

  /** The entries for prefix lengths `0 .. n - 1`. */
  function MaskRange(n: nat): (ms: seq<string>)
    requires n <= 33
    ensures |ms| == n && forall p :: 0 <= p < n ==> ms[p] == CanonicalMask(p)
  {
    seq(n, MaskAt)
  }

  /** Entry `p` of the table; positions past 32 never occur. */
  function MaskAt(p: int): string
  {
    if 0 <= p <= 32 then CanonicalMask(p) else ""
  }

  lemma Pad3Literals()
    ensures Pad3(0) == "000" && Pad3(128) == "128" && Pad3(255) == "255"
  {
  }

  /** A spot check of the table against the written-out list. */
  lemma MaskTableEntry24()
    ensures MaskTable[24] == "255.255.255.000"
  {
    Pad3Literals();
    assert MaskTable[24] == CanonicalMask(24);
    assert MaskOctet(24, 0) == 255 && MaskOctet(24, 1) == 255;
    assert MaskOctet(24, 2) == 255 && MaskOctet(24, 3) == 0;
  }

  /** Python's `list.index`: the first position holding `x`. */
  function IndexOf(xs: seq<string>, x: string): (r: Option<nat>)
    ensures r.Some? ==> r.value < |xs| && xs[r.value] == x
    ensures r.Some? ==> forall j :: 0 <= j < r.value ==> xs[j] != x
    ensures r.None? <==> x !in xs
  {
    if |xs| == 0 then None
    else if xs[0] == x then Some(0)
    else
      match IndexOf(xs[1..], x)
      case None => None
      case Some(i) => Some(i + 1)
  }

  /** GetNumberFromMask: the prefix length, as text, of a recognised mask;
      any other text comes back unchanged. */
  function NumberFromMask(mask: string): (r: string)
    ensures mask in MaskTable ==> exists p :: 0 <= p < |MaskTable| && MaskTable[p] == mask && r == NatToString(p)
    ensures mask !in MaskTable ==> r == mask
  {
    match IndexOf(MaskTable, mask)
    case None => mask
    case Some(p) => NatToString(p)
  }

  lemma Pad3Injective(m: nat, n: nat)
    requires m < 1000 && n < 1000 && m != n
    ensures Pad3(m) != Pad3(n)
  {
    Pad3Value(m);
    Pad3Value(n);
  }

  /** The three digits of `Pad3(m)` read back as `m`. */
  lemma Pad3Value(m: nat)
    requires m < 1000
    ensures 100 * DigitValue(Pad3(m)[0]) + 10 * DigitValue(Pad3(m)[1]) + DigitValue(Pad3(m)[2]) == m
  {
    var h, r := m / 100, m % 100;
    assert m == 100 * h + r;
    assert (m / 10) % 10 == r / 10;
    assert m % 10 == r % 10;
    assert r == 10 * (r / 10) + r % 10;
  }

  lemma QuadSlices(a: string, b: string, c: string, d: string)
    requires |a| == 3 && |b| == 3 && |c| == 3 && |d| == 3
    ensures (a + "." + b + "." + c + "." + d)[0..3] == a
    ensures (a + "." + b + "." + c + "." + d)[4..7] == b
    ensures (a + "." + b + "." + c + "." + d)[8..11] == c
    ensures (a + "." + b + "." + c + "." + d)[12..15] == d
  {
  }

  lemma MaskByteIncreasing(x: nat, y: nat)
    requires x < y <= 8
    ensures MaskByte(x) < MaskByte(y)
  {
  }

  /** Dotted quads of three-character parts that differ in one part differ. */
  lemma QuadDiffers(a: seq<string>, b: seq<string>, k: nat)
    requires |a| == 4 && |b| == 4 && k < 4
    requires forall m :: 0 <= m < 4 ==> |a[m]| == 3 && |b[m]| == 3
    requires a[k] != b[k]
    ensures a[0] + "." + a[1] + "." + a[2] + "." + a[3] != b[0] + "." + b[1] + "." + b[2] + "." + b[3]
  {
    QuadSlices(a[0], a[1], a[2], a[3]);
    QuadSlices(b[0], b[1], b[2], b[3]);
  }

  function MaskParts(p: nat): (parts: seq<string>)
    requires p <= 32
    ensures |parts| == 4 && forall m :: 0 <= m < 4 ==> |parts[m]| == 3
  {
    [Pad3(MaskOctet(p, 0)), Pad3(MaskOctet(p, 1)), Pad3(MaskOctet(p, 2)), Pad3(MaskOctet(p, 3))]
  }

  /** Masks that differ in one octet differ as text. */
  lemma MaskDiffersAt(i: nat, j: nat, k: nat)
    requires i <= 32 && j <= 32 && k < 4
    requires MaskOctet(i, k) != MaskOctet(j, k)
    ensures CanonicalMask(i) != CanonicalMask(j)
  {
    var a, b := MaskParts(i), MaskParts(j);
    assert a[k] != b[k] by {
      Pad3Injective(MaskOctet(i, k), MaskOctet(j, k));
      assert a[k] == Pad3(MaskOctet(i, k)) && b[k] == Pad3(MaskOctet(j, k));
    }
    QuadDiffers(a, b, k);
    assert CanonicalMask(i) == a[0] + "." + a[1] + "." + a[2] + "." + a[3];
    assert CanonicalMask(j) == b[0] + "." + b[1] + "." + b[2] + "." + b[3];
  }

  /** Different prefix lengths give different masks. */
  lemma CanonicalMaskInjective(i: nat, j: nat)
    requires i < j <= 32
    ensures CanonicalMask(i) != CanonicalMask(j)
  {
    var k := i / 8;
    assert k < 4;
    var bi := i - 8 * k;
    var bj := if j >= 8 * k + 8 then 8 else j - 8 * k;
    assert MaskOctet(i, k) == MaskByte(bi);
    assert MaskOctet(j, k) == MaskByte(bj);
    MaskByteIncreasing(bi, bj);
    MaskDiffersAt(i, j, k);
  }

  lemma MaskTableDistinct()
    ensures forall i, j :: 0 <= i < j < |MaskTable| ==> MaskTable[i] != MaskTable[j]
  {
    forall i, j | 0 <= i < j < |MaskTable|
      ensures MaskTable[i] != MaskTable[j]
    {
      CanonicalMaskInjective(i, j);
    }
  }

  /** The canonical mask of a prefix length maps back to that length. */
  lemma NumberFromCanonicalMask(p: nat)
    requires p <= 32
    ensures NumberFromMask(CanonicalMask(p)) == NatToString(p)
    ensures ParseInt(NumberFromMask(CanonicalMask(p))) == Some(p)
  {
    MaskTableDistinct();
    assert MaskTable[p] == CanonicalMask(p);
    IndexOfDistinct(MaskTable, p);
    IntToStringRoundTrip(p);
    assert IntToString(p) == NatToString(p);
  }

  /** In a list without repeats, `index` finds each element at its own
      position. */
  lemma IndexOfDistinct(xs: seq<string>, p: nat)
    requires p < |xs| && forall i, j :: 0 <= i < j < |xs| ==> xs[i] != xs[j]
    ensures IndexOf(xs, xs[p]) == Some(p)
  {
  }

  /** A mask written without zero padding is not recognised. */
  lemma UnpaddedMaskUnchanged()
    ensures NumberFromMask("255.255.255.0") == "255.255.255.0"
  {
    forall k | 0 <= k < |MaskTable|
      ensures MaskTable[k] != "255.255.255.0"
    {
      assert |MaskTable[k]| == 15;
    }
  }

  // ---------------------------------------------------------------------
  // get_ip_from_page

  /** The number of leading digits of `s`, at most `limit`. */
  function LeadingDigits(s: string, limit: nat): (k: nat)
    ensures k <= limit && k <= |s|
    ensures forall i :: 0 <= i < k ==> IsDigit(s[i])
    ensures k < limit && k < |s| ==> !IsDigit(s[k])
  {
    if limit == 0 || |s| == 0 || !IsDigit(s[0]) then 0
    else 1 + LeadingDigits(s[1..], limit - 1)
  }

  /** Python's `re.findall(r"(\d{1,3})", s)`: maximal runs of up to three
      digits, left to right. */
  function DigitGroups(s: string): (gs: seq<string>)
    ensures forall g :: g in gs ==> 1 <= |g| <= 3 && AllDigits(g)
    decreases |s|
  {
    if |s| == 0 then []
    else if IsDigit(s[0]) then
      var k := LeadingDigits(s, 3);
      [s[..k]] + DigitGroups(s[k..])
    else DigitGroups(s[1..])
  }

  function DigitsOf(s: string): (d: string)
    ensures AllDigits(d)
  {
    if |s| == 0 then ""
    else (if IsDigit(s[0]) then [s[0]] else "") + DigitsOf(s[1..])
  }

  function Concat(gs: seq<string>): string {
    if |gs| == 0 then "" else gs[0] + Concat(gs[1..])
  }

  lemma {:induction false} DigitsOfAppend(a: string, b: string)
    ensures DigitsOf(a + b) == DigitsOf(a) + DigitsOf(b)
    decreases |a|
  {
    if |a| > 0 {
      assert (a + b)[1..] == a[1..] + b;
      DigitsOfAppend(a[1..], b);
    } else {
      assert a + b == b;
    }
  }

  lemma {:induction false} DigitsOfDigits(s: string)
    requires AllDigits(s)
    ensures DigitsOf(s) == s
    decreases |s|
  {
    if |s| > 0 {
      DigitsOfDigits(s[1..]);
    }
  }

  /** The groups hold every digit of the text, in order, and nothing else. */
  lemma {:induction false} DigitGroupsCover(s: string)
    ensures Concat(DigitGroups(s)) == DigitsOf(s)
    decreases |s|
  {
    if |s| == 0 {
    } else if IsDigit(s[0]) {
      var k := LeadingDigits(s, 3);
      DigitGroupsCover(s[k..]);
      assert s == s[..k] + s[k..];
      DigitsOfAppend(s[..k], s[k..]);
      DigitsOfDigits(s[..k]);
    } else {
      DigitGroupsCover(s[1..]);
    }
  }

  /** get_ip_from_page: the digit groups of the sheet name joined by dots. */
  function IpFromPage(page: string): (ip: string)
    ensures forall i :: 0 <= i < |ip| ==> IsDigit(ip[i]) || ip[i] == '.'
  {
    var gs := DigitGroups(page);
    JoinDigitsAndDots(gs);
    Join(gs, ".")
  }

  lemma {:induction false} JoinDigitsAndDots(gs: seq<string>)
    requires forall g :: g in gs ==> AllDigits(g)
    ensures forall i :: 0 <= i < |Join(gs, ".")| ==> IsDigit(Join(gs, ".")[i]) || Join(gs, ".")[i] == '.'
    decreases |gs|
  {
    if |gs| > 1 {
      JoinDigitsAndDots(gs[1..]);
      assert gs[0] in gs;
      var j := Join(gs, ".");
      var rest := Join(gs[1..], ".");
      assert j == gs[0] + "." + rest;
      forall i | 0 <= i < |j|
        ensures IsDigit(j[i]) || j[i] == '.'
      {
        if i < |gs[0]| {
          assert j[i] == gs[0][i];
        } else if i > |gs[0]| {
          assert j[i] == rest[i - |gs[0]| - 1];
        }
      }
    } else if |gs| == 1 {
      assert gs[0] in gs;
    }
  }

  /** Read back without its dots, the address holds exactly the digits of the
      sheet name. */
  lemma IpFromPageDigits(page: string)
    ensures DigitsOf(IpFromPage(page)) == DigitsOf(page)
  {
    var gs := DigitGroups(page);
    DigitGroupsCover(page);
    JoinDropsDots(gs);
  }

  lemma {:induction false} JoinDropsDots(gs: seq<string>)
    requires forall g :: g in gs ==> AllDigits(g)
    ensures DigitsOf(Join(gs, ".")) == Concat(gs)
    decreases |gs|
  {
    if |gs| == 0 {
    } else if |gs| == 1 {
      assert gs[0] in gs;
      DigitsOfDigits(gs[0]);
      assert Concat(gs) == gs[0] + Concat(gs[1..]);
      assert gs[0] + "" == gs[0];
    } else {
      assert gs[0] in gs;
      JoinDropsDots(gs[1..]);
      var rest := Join(gs[1..], ".");
      assert Join(gs, ".") == (gs[0] + ".") + rest;
      DigitsOfAppend(gs[0] + ".", rest);
      DigitsOfAppend(gs[0], ".");
      DigitsOfDigits(gs[0]);
      assert DigitsOf(".") == "";
    }
  }
}

=== FILE: issues.dfy ===
/** `parse_linked_issues`: the issue references of a pull-request or commit
    text, as a sorted list without repeats. The three regular-expression
    scans are inputs; the model covers what the function does with their
    matches. */
module LinkedIssues {
  import opened Wrappers

  // ---------------------------------------------------------------------
  // Python's ordering of `str`: code point by code point, a proper prefix
  // first.

  predicate Below(a: string, b: string)
    decreases |a|
  {
    if |b| == 0 then false
    else if |a| == 0 then true
    else if a[0] != b[0] then a[0] < b[0]
    else Below(a[1..], b[1..])
  }

  lemma {:induction false} BelowIrreflexive(a: string)
    ensures !Below(a, a)
    decreases |a|
  {
    if |a| > 0 {
      BelowIrreflexive(a[1..]);
    }
  }

  lemma {:induction false} BelowTransitive(a: string, b: string, c: string)
    requires Below(a, b) && Below(b, c)
    ensures Below(a, c)
    decreases |a|
  {
    if |a| > 0 && a[0] == b[0] && b[0] == c[0] {
      BelowTransitive(a[1..], b[1..], c[1..]);
    }
  }

  lemma {:induction false} BelowTotal(a: string, b: string)
    ensures a == b || Below(a, b) || Below(b, a)
    decreases |a|
  {
    if |a| > 0 && |b| > 0 && a[0] == b[0] {
      BelowTotal(a[1..], b[1..]);
      assert a == [a[0]] + a[1..];
      assert b == [b[0]] + b[1..];
    }
  }

  lemma {:induction false} BelowAsymmetric(a: string, b: string)
    ensures !(Below(a, b) && Below(b, a))
    decreases |a|
  {
    if |a| > 0 && |b| > 0 && a[0] == b[0] {
      BelowAsymmetric(a[1..], b[1..]);
    }
  }

  /** Each element comes strictly before the later ones, so there are no
      repeats. */
  predicate StrictlySorted(xs: seq<string>) {
    forall i, j :: 0 <= i < j < |xs| ==> Below(xs[i], xs[j])
  }

  /** Putting `x` into a strictly sorted list, unless it is already there. */
  function Insert(x: string, xs: seq<string>): (r: seq<string>)
    requires StrictlySorted(xs)
    ensures StrictlySorted(r)
    ensures forall y :: y in r <==> y == x || y in xs
    decreases |xs|
  {
    if |xs| == 0 then [x]
    else if x == xs[0] then xs
    else if Below(x, xs[0]) then
      forall j | 0 <= j < |xs| ensures Below(x, xs[j]) {
        if j > 0 { BelowTransitive(x, xs[0], xs[j]); }
      }
      [x] + xs
    else
      var rest := Insert(x, xs[1..]);
      BelowTotal(x, xs[0]);
      forall y | y in rest ensures Below(xs[0], y) {
        if y != x {
          var j :| 0 <= j < |xs[1..]| && xs[1..][j] == y;
          assert xs[j + 1] == y;
        }
      }
      [xs[0]] + rest
  }

  /** `sorted(set(xs))`: the distinct elements of `xs` in order. */
  function SortUnique(xs: seq<string>): (r: seq<string>)
    ensures StrictlySorted(r)
    ensures forall y :: y in r <==> y in xs
    decreases |xs|
  {
    if |xs| == 0 then []
    else
      var init := xs[..|xs| - 1];
      assert xs == init + [xs[|xs| - 1]];
      Insert(xs[|xs| - 1], SortUnique(init))
  }

  /** A strictly sorted list is determined by its elements: whatever order
      the references were collected in, the answer is the same. */
  lemma {:induction false} SortedUnique(a: seq<string>, b: seq<string>)
    requires StrictlySorted(a) && StrictlySorted(b)
    requires forall y :: y in a <==> y in b
    ensures a == b
    decreases |a|
  {
    if |a| > 0 {
      assert a[0] in b && b[0] in a;
      var k :| 0 <= k < |b| && b[k] == a[0];
      var m :| 0 <= m < |a| && a[m] == b[0];
      BelowAsymmetric(a[0], b[0]);
      BelowIrreflexive(a[0]);
      assert k == 0 || m == 0;
      assert a[0] == b[0];
      forall y ensures y in a[1..] <==> y in b[1..] {
        BelowIrreflexive(y);
        if y in a[1..] {
          var i :| 0 <= i < |a[1..]| && a[1..][i] == y;
          assert Below(a[0], a[i + 1]);
          assert y in a && y in b;
          var j :| 0 <= j < |b| && b[j] == y;
          assert j > 0;
          assert b[1..][j - 1] == y;
        }
        if y in b[1..] {
          var i :| 0 <= i < |b[1..]| && b[1..][i] == y;
          assert Below(b[0], b[i + 1]);
          assert y in b && y in a;
          var j :| 0 <= j < |a| && a[j] == y;
          assert j > 0;
          assert a[1..][j - 1] == y;
        }
      }
      SortedUnique(a[1..], b[1..]);
      assert a == [a[0]] + a[1..];
      assert b == [b[0]] + b[1..];
    } else {
      NoMembers(b);
    }
  }

  lemma NoMembers(b: seq<string>)
    ensures (forall y :: y !in b) ==> b == []
  {
    if |b| > 0 {
      assert b[0] in b;
    }
  }

  /** `f"GH-{ref}"` for each GitHub issue number found. */
  function Prefixed(refs: seq<string>): (r: seq<string>)
    ensures |r| == |refs| && forall i :: 0 <= i < |refs| ==> r[i] == "GH-" + refs[i]
  {
    seq(|refs|, i requires 0 <= i < |refs| => "GH-" + refs[i])
  }

  /** `parse_linked_issues(text)`, given the matches of the keyword pattern
      (`fixes #12`), of the bare pattern (`#12`) and of the Jira pattern
      (`ABC-7`); `None` or empty text gives no references. */
  function ParseLinkedIssues(text: Option<string>, keyword: seq<string>, simple: seq<string>, jira: seq<string>): (r: seq<string>)
    ensures StrictlySorted(r)
    ensures text.None? || text.value == "" ==> r == []
  {
    if text.None? || text.value == "" then []
    else SortUnique(Prefixed(keyword) + Prefixed(simple) + jira)
  }

  /** The answer holds exactly the GitHub numbers, prefixed with "GH-", and
      the Jira keys, verbatim. */
  lemma ParseLinkedIssuesContents(text: string, keyword: seq<string>, simple: seq<string>, jira: seq<string>, y: string)
    requires text != ""
    ensures y in ParseLinkedIssues(Some(text), keyword, simple, jira) <==>
      (exists n :: n in keyword && y == "GH-" + n) || (exists n :: n in simple && y == "GH-" + n) || y in jira
  {
    PrefixedMembers(keyword, y);
    PrefixedMembers(simple, y);
    ConcatMembers(Prefixed(keyword), Prefixed(simple), jira, y);
  }

  /** `y` is a prefixed number exactly when its number is among the refs. */
  lemma PrefixedMembers(refs: seq<string>, y: string)
    ensures y in Prefixed(refs) <==> exists n :: n in refs && y == "GH-" + n
  {
    if exists n :: n in refs && y == "GH-" + n {
      var n :| n in refs && y == "GH-" + n;
      var i :| 0 <= i < |refs| && refs[i] == n;
      assert Prefixed(refs)[i] == y;
    }
    if y in Prefixed(refs) {
      var i :| 0 <= i < |refs| && Prefixed(refs)[i] == y;
      assert refs[i] in refs;
    }
  }

  lemma ConcatMembers(a: seq<string>, b: seq<string>, c: seq<string>, y: string)
    ensures y in a + b + c <==> y in a || y in b || y in c
  {
  }

  /** A reference occurs at most once in the answer. */
  lemma ParseLinkedIssuesNoRepeats(text: Option<string>, keyword: seq<string>, simple: seq<string>, jira: seq<string>)
    ensures var r := ParseLinkedIssues(text, keyword, simple, jira);
      forall i, j :: 0 <= i < j < |r| ==> r[i] != r[j]
  {
    var r := ParseLinkedIssues(text, keyword, simple, jira);
    forall i, j | 0 <= i < j < |r| ensures r[i] != r[j] {
      BelowIrreflexive(r[i]);
    }
  }

  /** A number found with a closing keyword and one found bare give the same
      single "GH-" entry: the two scans can trade places. */
  lemma ParseLinkedIssuesKeywordFree(text: Option<string>, keyword: seq<string>, simple: seq<string>, jira: seq<string>)
    ensures ParseLinkedIssues(text, keyword, simple, jira) == ParseLinkedIssues(text, simple, keyword, jira)
  {
    if text.Some? && text.value != "" {
      forall y ensures y in ParseLinkedIssues(text, keyword, simple, jira) <==> y in ParseLinkedIssues(text, simple, keyword, jira) {
        ParseLinkedIssuesContents(text.value, keyword, simple, jira, y);
        ParseLinkedIssuesContents(text.value, simple, keyword, jira, y);
      }
      SortedUnique(ParseLinkedIssues(text, keyword, simple, jira), ParseLinkedIssues(text, simple, keyword, jira));
    }
  }
}

=== FILE: json.dfy ===
/** Decoded JSON as the GitHub API returns it, with Python's `dict.get`
    and truthiness. */
module Json {

  datatype Value =
    | Null
    | Bool(b: bool)
    | Num(n: int)
    | Str(s: string)
    | Arr(items: seq<Value>)
    | Obj(fields: map<string, Value>)

  /** `d.get(key, default)` on a dict. */
  function GetOr(fields: map<string, Value>, key: string, default: Value): (v: Value)
    ensures key in fields ==> v == fields[key]
    ensures key !in fields ==> v == default
  {
    if key in fields then fields[key] else default
  }

  /** `d.get(key)`: `None` for a missing key. */
  function Get(fields: map<string, Value>, key: string): Value {
    GetOr(fields, key, Null)
  }

  /** Python's `bool(v)`: null, false, zero and empty values are false. */
  predicate Truthy(v: Value) {
    match v
    case Null => false
    case Bool(b) => b
    case Num(n) => n != 0
    case Str(s) => s != ""
    case Arr(items) => items != []
    case Obj(fields) => fields != map[]
  }
}

=== FILE: log_panel.dfy ===
/** The administration panel's log view (`panel/views.py`): reading the
    `|`-separated debug log, folding repeated messages of the same day into
    one entry with a repeat counter (`__check_in_buf__`), and showing the
    last entries newest first. */
module LogPanel {
  import opened Wrappers
  import opened Strings

  // ---------------------------------------------------------------------
  // The duplicate counter.

  /** A buffered entry is the list of a log line's fields, to which the
      counter, a Python `int`, may have been appended. */
  datatype Cell = Text(text: string) | Count(n: int)

  type Entry = seq<Cell>

  predicate Counted(v: Entry) {
    |v| > 0 && v[|v| - 1].Count?
  }

  /** A scanned entry that does not match gets a counter of 1 unless it
      already ends with one. */
  function Tag(v: Entry): (r: Entry)
    ensures Counted(r) && |r| >= |v| && r[..|v|] == v
    ensures Counted(v) ==> r == v
    ensures !Counted(v) ==> r == v + [Count(1)]
  {
    if Counted(v) then v else v + [Count(1)]
  }

  /** The matching entry's counter goes up by one; an entry without one
      gets 2. */
  function Bump(v: Entry): (r: Entry)
    ensures Counted(r) && |r| >= |v|
    ensures Counted(v) ==> |r| == |v| && r[..|v| - 1] == v[..|v| - 1] && r[|v| - 1].n == v[|v| - 1].n + 1
    ensures !Counted(v) ==> r == v + [Count(2)]
  {
    if Counted(v) then v[..|v| - 1] + [Count(v[|v| - 1].n + 1)] else v + [Count(2)]
  }

  /** `data in v[1] and value == v[idx]`: `in` on an `int` raises
      `TypeError`; the index is read only when the first test holds, and
      raises `IndexError` past the end. */
  function Test(v: Entry, data: string, value: string, idx: nat): Result<bool>
    requires |v| >= 2
  {
    match v[1]
    case Count(_) => Raise(TypeError)
    case Text(t) =>
      if !Contains(t, data) then Ok(false)
      else if idx >= |v| then Raise(IndexError)
      else Ok(v[idx] == Text(value))
  }

  /** The outcome of the scan: whether a duplicate was found, and the
      buffer as the scan left it. */
  datatype Scan = Scan(found: bool, buff: seq<Entry>)

  /** The `for` loop from position `i`: entries of length at most one are
      skipped; the first match is counted and ends the scan; a non-match
      is tagged, and ends the scan when its position has reached `deep`. */
  function ScanFrom(buff: seq<Entry>, i: nat, data: string, value: string, deep: int, idx: nat): (r: Result<Scan>)
    requires i <= |buff|
    ensures r.Ok? ==> |r.value.buff| == |buff|
    decreases |buff| - i
  {
    if i == |buff| then Ok(Scan(false, buff))
    else
      var v := buff[i];
      if |v| <= 1 then ScanFrom(buff, i + 1, data, value, deep, idx)
      else
        match Test(v, data, value, idx)
        case Raise(e) => Raise(e)
        case Ok(true) => Ok(Scan(true, buff[i := Bump(v)]))
        case Ok(false) =>
          var tagged := buff[i := Tag(v)];
          if i >= deep then Ok(Scan(false, tagged))
          else ScanFrom(tagged, i + 1, data, value, deep, idx)
  }

  /** `__check_in_buf__`: an empty buffer is answered `False` at once. */
  function CheckInBuf(data: string, value: string, buff: seq<Entry>, deep: int, idx: nat): (r: Result<Scan>)
    ensures |buff| == 0 ==> r.Ok? && !r.value.found && r.value.buff == buff
    ensures r.Ok? ==> |r.value.buff| == |buff|
  {
    if |buff| <= 0 then Ok(Scan(false, buff))
    else ScanFrom(buff, 0, data, value, deep, idx)
  }

  // ---------------------------------------------------------------------
  // What the scan does, stated entry by entry.

  predicate Skipped(v: Entry) {
    |v| <= 1
  }

  /** The scan goes past position `j` without stopping. */
  predicate PassesAt(buff: seq<Entry>, j: nat, data: string, value: string, deep: int, idx: nat)
    requires j < |buff|
  {
    Skipped(buff[j]) || (Test(buff[j], data, value, idx) == Ok(false) && j < deep)
  }

  /** Position `k` is reached: the scan passed every earlier position. */
  predicate Reached(buff: seq<Entry>, k: nat, data: string, value: string, deep: int, idx: nat)
    requires k <= |buff|
  {
    forall j: nat :: j < k ==> PassesAt(buff, j, data, value, deep, idx)
  }

  /** What the scan leaves at position `k`. */
  function After(buff: seq<Entry>, k: nat, data: string, value: string, deep: int, idx: nat): Entry
    requires k < |buff|
  {
    var v := buff[k];
    if !Reached(buff, k, data, value, deep, idx) || Skipped(v) then v
    else if Test(v, data, value, idx) == Ok(true) then Bump(v)
    else Tag(v)
  }

  predicate HitAt(buff: seq<Entry>, k: nat, data: string, value: string, deep: int, idx: nat)
    requires k < |buff|
  {
    Reached(buff, k, data, value, deep, idx) && !Skipped(buff[k]) && Test(buff[k], data, value, idx) == Ok(true)
  }

  predicate FailsAt(buff: seq<Entry>, k: nat, data: string, value: string, deep: int, idx: nat)
    requires k < |buff|
  {
    Reached(buff, k, data, value, deep, idx) && !Skipped(buff[k]) && Test(buff[k], data, value, idx).Raise?
  }

  /** The scan from `i`, on a buffer that agrees with `orig` from `i` on,
      raises exactly when a reached entry raises; otherwise it keeps the
      length and the entries before `i`, answers whether a reached entry
      matches, and leaves every later entry as `After` says. */
  lemma {:induction false} ScanFromSpec(orig: seq<Entry>, b: seq<Entry>, i: nat, data: string, value: string, deep: int, idx: nat)
    requires |b| == |orig| && i <= |b| && b[i..] == orig[i..]
    requires Reached(orig, i, data, value, deep, idx)
    ensures var r := ScanFrom(b, i, data, value, deep, idx);
      && (r.Raise? <==> exists k: nat :: i <= k < |b| && FailsAt(orig, k, data, value, deep, idx))
      && (r.Ok? ==>
        && |r.value.buff| == |b|
        && r.value.buff[..i] == b[..i]
        && (forall k: nat :: i <= k < |b| ==> r.value.buff[k] == After(orig, k, data, value, deep, idx))
        && (r.value.found <==> exists k: nat :: i <= k < |b| && HitAt(orig, k, data, value, deep, idx)))
    decreases |b| - i
  {
    if i == |b| {
    } else {
      var v := b[i];
      assert v == orig[i] by {
        assert b[i..][0] == orig[i..][0];
      }
      if Skipped(v) {
        ReachedNext(orig, i, data, value, deep, idx);
        TailAgrees(b, b, orig, i);
        ScanFromSpec(orig, b, i + 1, data, value, deep, idx);
        SkippedStep(orig, b, i, data, value, deep, idx);
      } else {
        match Test(v, data, value, idx)
        case Raise(e) =>
          assert FailsAt(orig, i, data, value, deep, idx);
        case Ok(true) =>
          HitStep(orig, b, i, data, value, deep, idx);
        case Ok(false) =>
          var tagged := b[i := Tag(v)];
          if i >= deep {
            StopStep(orig, b, i, data, value, deep, idx);
          } else {
            ReachedNext(orig, i, data, value, deep, idx);
            TailAgrees(b, tagged, orig, i);
            ScanFromSpec(orig, tagged, i + 1, data, value, deep, idx);
            PassStep(orig, b, i, data, value, deep, idx);
          }
      }
    }
  }

  /** Passing position `i` reaches `i + 1`. */
  lemma ReachedNext(orig: seq<Entry>, i: nat, data: string, value: string, deep: int, idx: nat)
    requires i < |orig| && Reached(orig, i, data, value, deep, idx) && PassesAt(orig, i, data, value, deep, idx)
    ensures Reached(orig, i + 1, data, value, deep, idx)
  {
  }

  lemma TailAgrees(b: seq<Entry>, c: seq<Entry>, orig: seq<Entry>, i: nat)
    requires |b| == |c| == |orig| && i < |b| && b[i..] == orig[i..] && c[i + 1..] == b[i + 1..]
    ensures c[i + 1..] == orig[i + 1..]
  {
    assert b[i + 1..] == b[i..][1..];
    assert orig[i + 1..] == orig[i..][1..];
  }

  /** Nothing after a position the scan stops at is reached. */
  lemma NotReachedPast(orig: seq<Entry>, i: nat, data: string, value: string, deep: int, idx: nat)
    requires i < |orig| && !PassesAt(orig, i, data, value, deep, idx)
    ensures forall k: nat :: i < k < |orig| ==> !Reached(orig, k, data, value, deep, idx)
  {
  }

  lemma SkippedStep(orig: seq<Entry>, b: seq<Entry>, i: nat, data: string, value: string, deep: int, idx: nat)
    requires |b| == |orig| && i < |b| && b[i..] == orig[i..] && b[i] == orig[i] && Skipped(b[i])
    requires Reached(orig, i, data, value, deep, idx)
    requires var r := ScanFrom(b, i + 1, data, value, deep, idx);
      && (r.Raise? <==> exists k: nat :: i + 1 <= k < |b| && FailsAt(orig, k, data, value, deep, idx))
      && (r.Ok? ==>
        && |r.value.buff| == |b|
        && r.value.buff[..i + 1] == b[..i + 1]
        && (forall k: nat :: i + 1 <= k < |b| ==> r.value.buff[k] == After(orig, k, data, value, deep, idx))
        && (r.value.found <==> exists k: nat :: i + 1 <= k < |b| && HitAt(orig, k, data, value, deep, idx)))
    ensures var r := ScanFrom(b, i, data, value, deep, idx);
      && (r.Raise? <==> exists k: nat :: i <= k < |b| && FailsAt(orig, k, data, value, deep, idx))
      && (r.Ok? ==>
        && |r.value.buff| == |b|
        && r.value.buff[..i] == b[..i]
        && (forall k: nat :: i <= k < |b| ==> r.value.buff[k] == After(orig, k, data, value, deep, idx))
        && (r.value.found <==> exists k: nat :: i <= k < |b| && HitAt(orig, k, data, value, deep, idx)))
  {
    var r := ScanFrom(b, i, data, value, deep, idx);
    assert r == ScanFrom(b, i + 1, data, value, deep, idx);
    assert !FailsAt(orig, i, data, value, deep, idx) && !HitAt(orig, i, data, value, deep, idx);
    if r.Ok? {
      assert r.value.buff[..i] == r.value.buff[..i + 1][..i];
      assert r.value.buff[i] == r.value.buff[..i + 1][i] == b[i];
    }
  }

  lemma HitStep(orig: seq<Entry>, b: seq<Entry>, i: nat, data: string, value: string, deep: int, idx: nat)
    requires |b| == |orig| && i < |b| && b[i..] == orig[i..] && b[i] == orig[i] && !Skipped(b[i])
    requires Reached(orig, i, data, value, deep, idx) && Test(b[i], data, value, idx) == Ok(true)
    ensures var r := ScanFrom(b, i, data, value, deep, idx);
      && (r.Raise? <==> exists k: nat :: i <= k < |b| && FailsAt(orig, k, data, value, deep, idx))
      && (r.Ok? ==>
        && |r.value.buff| == |b|
        && r.value.buff[..i] == b[..i]
        && (forall k: nat :: i <= k < |b| ==> r.value.buff[k] == After(orig, k, data, value, deep, idx))
        && (r.value.found <==> exists k: nat :: i <= k < |b| && HitAt(orig, k, data, value, deep, idx)))
  {
    NotReachedPast(orig, i, data, value, deep, idx);
    assert HitAt(orig, i, data, value, deep, idx);
    assert forall k: nat :: i < k < |b| ==> b[k] == orig[k] by {
      forall k: nat | i < k < |b| ensures b[k] == orig[k] {
        assert b[i..][k - i] == orig[i..][k - i];
      }
    }
  }

  lemma StopStep(orig: seq<Entry>, b: seq<Entry>, i: nat, data: string, value: string, deep: int, idx: nat)
    requires |b| == |orig| && i < |b| && b[i..] == orig[i..] && b[i] == orig[i] && !Skipped(b[i])
    requires Reached(orig, i, data, value, deep, idx) && Test(b[i], data, value, idx) == Ok(false) && i >= deep
    ensures var r := ScanFrom(b, i, data, value, deep, idx);
      && (r.Raise? <==> exists k: nat :: i <= k < |b| && FailsAt(orig, k, data, value, deep, idx))
      && (r.Ok? ==>
        && |r.value.buff| == |b|
        && r.value.buff[..i] == b[..i]
        && (forall k: nat :: i <= k < |b| ==> r.value.buff[k] == After(orig, k, data, value, deep, idx))
        && (r.value.found <==> exists k: nat :: i <= k < |b| && HitAt(orig, k, data, value, deep, idx)))
  {
    NotReachedPast(orig, i, data, value, deep, idx);
    assert forall k: nat :: i < k < |b| ==> b[k] == orig[k] by {
      forall k: nat | i < k < |b| ensures b[k] == orig[k] {
        assert b[i..][k - i] == orig[i..][k - i];
      }
    }
  }

  lemma PassStep(orig: seq<Entry>, b: seq<Entry>, i: nat, data: string, value: string, deep: int, idx: nat)
    requires |b| == |orig| && i < |b| && b[i..] == orig[i..] && b[i] == orig[i] && !Skipped(b[i])
    requires Reached(orig, i, data, value, deep, idx) && Test(b[i], data, value, idx) == Ok(false) && i < deep
    requires var r := ScanFrom(b[i := Tag(b[i])], i + 1, data, value, deep, idx);
      && (r.Raise? <==> exists k: nat :: i + 1 <= k < |b| && FailsAt(orig, k, data, value, deep, idx))
      && (r.Ok? ==>
        && |r.value.buff| == |b|
        && r.value.buff[..i + 1] == b[i := Tag(b[i])][..i + 1]
        && (forall k: nat :: i + 1 <= k < |b| ==> r.value.buff[k] == After(orig, k, data, value, deep, idx))
        && (r.value.found <==> exists k: nat :: i + 1 <= k < |b| && HitAt(orig, k, data, value, deep, idx)))
    ensures var r := ScanFrom(b, i, data, value, deep, idx);
      && (r.Raise? <==> exists k: nat :: i <= k < |b| && FailsAt(orig, k, data, value, deep, idx))
      && (r.Ok? ==>
        && |r.value.buff| == |b|
        && r.value.buff[..i] == b[..i]
        && (forall k: nat :: i <= k < |b| ==> r.value.buff[k] == After(orig, k, data, value, deep, idx))
        && (r.value.found <==> exists k: nat :: i <= k < |b| && HitAt(orig, k, data, value, deep, idx)))
  {
    var tagged := b[i := Tag(b[i])];
    var r := ScanFrom(b, i, data, value, deep, idx);
    assert r == ScanFrom(tagged, i + 1, data, value, deep, idx);
    assert !FailsAt(orig, i, data, value, deep, idx) && !HitAt(orig, i, data, value, deep, idx);
    if r.Ok? {
      assert r.value.buff[..i] == r.value.buff[..i + 1][..i] == tagged[..i + 1][..i] == b[..i];
      assert r.value.buff[i] == r.value.buff[..i + 1][i] == tagged[i] == Tag(orig[i]);
      assert After(orig, i, data, value, deep, idx) == Tag(orig[i]);
    }
  }

  /** `__check_in_buf__`, entry by entry: it raises exactly when a reached
      entry raises; otherwise it answers whether a reached entry matches,
      counts that match, tags every reached non-matching entry, and leaves
      everything else alone. */
  lemma CheckInBufSpec(data: string, value: string, buff: seq<Entry>, deep: int, idx: nat)
    ensures var r := CheckInBuf(data, value, buff, deep, idx);
      && (r.Raise? <==> exists k: nat :: k < |buff| && FailsAt(buff, k, data, value, deep, idx))
      && (r.Ok? ==>
        && |r.value.buff| == |buff|
        && (forall k: nat :: k < |buff| ==> r.value.buff[k] == After(buff, k, data, value, deep, idx))
        && (r.value.found <==> exists k: nat :: k < |buff| && HitAt(buff, k, data, value, deep, idx)))
  {
    if |buff| > 0 {
      ScanFromSpec(buff, buff, 0, data, value, deep, idx);
    }
  }

  /** Entries that are too short are never touched. */
  lemma ShortEntriesKept(data: string, value: string, buff: seq<Entry>, deep: int, idx: nat, k: nat)
    requires k < |buff| && Skipped(buff[k]) && CheckInBuf(data, value, buff, deep, idx).Ok?
    ensures CheckInBuf(data, value, buff, deep, idx).value.buff[k] == buff[k]
  {
    CheckInBufSpec(data, value, buff, deep, idx);
  }

  /** A scan that reaches a position at or past `deep` with a non-match
      stops there: no later entry changes, and nothing is found later. */
  lemma ScanStopsAtDepth(data: string, value: string, buff: seq<Entry>, deep: int, idx: nat, j: nat)
    requires j < |buff| && Reached(buff, j, data, value, deep, idx) && !Skipped(buff[j])
    requires Test(buff[j], data, value, idx) == Ok(false) && j >= deep
    ensures CheckInBuf(data, value, buff, deep, idx).Ok?
    ensures forall k: nat :: j < k < |buff| ==> CheckInBuf(data, value, buff, deep, idx).value.buff[k] == buff[k]
    ensures !CheckInBuf(data, value, buff, deep, idx).value.found
  {
    CheckInBufSpec(data, value, buff, deep, idx);
    NotReachedPast(buff, j, data, value, deep, idx);
    forall k: nat | k < |buff|
      ensures !FailsAt(buff, k, data, value, deep, idx) && !HitAt(buff, k, data, value, deep, idx)
    {
      if k < j {
        assert PassesAt(buff, k, data, value, deep, idx);
      }
    }
  }

  // ---------------------------------------------------------------------
  // Reading the log.

  /** The column compared for duplicates, by level; `None` drops the line.
      Informational and debug lines are dropped at severity 1. */
  function Column(level: string, severity: int): (c: Option<nat>)
    ensures c.Some? <==>
      level in {"WARNING", "ERROR"} || (level in {"INFO", "DEBUG"} && severity != 1)
    ensures c.Some? ==> (c.value == 6 <==> level == "WARNING") && (c.value == 5 <==> level != "WARNING")
  {
    if level == "WARNING" then Some(6)
    else if level == "ERROR" then Some(5)
    else if level == "INFO" then (if severity == 1 then None else Some(5))
    else if level == "DEBUG" then (if severity == 1 then None else Some(5))
    else None
  }

  function Cells(parts: seq<string>): (v: Entry)
    ensures |v| == |parts| && forall k :: 0 <= k < |parts| ==> v[k] == Text(parts[k])
  {
    seq(|parts|, k requires 0 <= k < |parts| => Text(parts[k]))
  }

  /** The depth the view passes to the duplicate counter. */
  const ViewDepth := 999

  /** One line of the file: lines with fewer than five fields and lines of
      a dropped level are ignored; a line whose compared column is missing
      raises `IndexError`; a duplicate is counted; any other line is added,
      with a counter of 1 when the buffer was empty. */
  function ReadLine(buf: seq<Entry>, line: string, severity: int): Result<seq<Entry>> {
    var parts := Split(line, "|");
    if |parts| < 5 then Ok(buf)
    else
      var date := Split(parts[1], " ")[0];
      match Column(parts[0], severity)
      case None => Ok(buf)
      case Some(c) =>
        if c >= |parts| then Raise(IndexError)
        else
          match CheckInBuf(date, parts[c], buf, ViewDepth, c)
          case Raise(e) => Raise(e)
          case Ok(sc) =>
            if sc.found then Ok(sc.buff)
            else Ok(sc.buff + [if |sc.buff| == 0 then Cells(parts) + [Count(1)] else Cells(parts)])
  }

  function ReadLog(buf: seq<Entry>, lines: seq<string>, severity: int): Result<seq<Entry>>
    decreases |lines|
  {
    if |lines| == 0 then Ok(buf)
    else
      match ReadLine(buf, lines[0], severity)
      case Raise(e) => Raise(e)
      case Ok(next) => ReadLog(next, lines[1..], severity)
  }

  /** A buffered entry: a line of a shown level, of at least five fields. */
  predicate Shown(v: Entry, severity: int) {
    |v| >= 5 && v[0].Text? && Column(v[0].text, severity).Some?
  }

  predicate AllShown(buf: seq<Entry>, severity: int) {
    forall k :: 0 <= k < |buf| ==> Shown(buf[k], severity)
  }

  lemma TagBumpShown(v: Entry, severity: int)
    requires Shown(v, severity)
    ensures Shown(Tag(v), severity) && Shown(Bump(v), severity)
    ensures Tag(v)[0] == v[0] && Bump(v)[0] == v[0]
  {
    if Counted(v) {
      assert Bump(v)[0] == Bump(v)[..|v| - 1][0];
    }
  }

  /** The counter keeps every entry a line of a shown level. */
  lemma ScanKeepsShown(buf: seq<Entry>, data: string, value: string, idx: nat, severity: int)
    requires AllShown(buf, severity) && CheckInBuf(data, value, buf, ViewDepth, idx).Ok?
    ensures AllShown(CheckInBuf(data, value, buf, ViewDepth, idx).value.buff, severity)
  {
    CheckInBufSpec(data, value, buf, ViewDepth, idx);
    var after := CheckInBuf(data, value, buf, ViewDepth, idx).value.buff;
    forall k | 0 <= k < |after| ensures Shown(after[k], severity) {
      TagBumpShown(buf[k], severity);
    }
  }

  /** Reading the log buffers only lines of the levels the severity
      shows. */
  lemma {:induction false} ReadLogShown(buf: seq<Entry>, lines: seq<string>, severity: int)
    requires AllShown(buf, severity)
    ensures ReadLog(buf, lines, severity).Ok? ==> AllShown(ReadLog(buf, lines, severity).value, severity)
    decreases |lines|
  {
    if |lines| > 0 {
      var r := ReadLine(buf, lines[0], severity);
      if r.Ok? {
        ReadLineShown(buf, lines[0], severity);
        ReadLogShown(r.value, lines[1..], severity);
      }
    }
  }

  lemma ReadLineShown(buf: seq<Entry>, line: string, severity: int)
    requires AllShown(buf, severity)
    ensures ReadLine(buf, line, severity).Ok? ==> AllShown(ReadLine(buf, line, severity).value, severity)
  {
    var parts := Split(line, "|");
    if |parts| >= 5 {
      var date := Split(parts[1], " ")[0];
      match Column(parts[0], severity)
      case None =>
      case Some(c) =>
        if c < |parts| && CheckInBuf(date, parts[c], buf, ViewDepth, c).Ok? {
          var sc := CheckInBuf(date, parts[c], buf, ViewDepth, c).value;
          assert AllShown(sc.buff, severity) by {
            ScanKeepsShown(buf, date, parts[c], c, severity);
          }
          AddedShown(sc.buff, parts, severity);
        }
    }
  }

  /** Adding a new line of a shown level keeps the buffer shown. */
  lemma AddedShown(buff: seq<Entry>, parts: seq<string>, severity: int)
    requires AllShown(buff, severity) && |parts| >= 5 && Column(parts[0], severity).Some?
    ensures AllShown(buff + [if |buff| == 0 then Cells(parts) + [Count(1)] else Cells(parts)], severity)
  {
    var added := if |buff| == 0 then Cells(parts) + [Count(1)] else Cells(parts);
    assert added[0] == Text(parts[0]);
    assert Shown(added, severity);
    var b := buff + [added];
    assert forall k :: 0 <= k < |buff| ==> b[k] == buff[k];
  }

  // ---------------------------------------------------------------------
  // The view.

  function Reverse(xs: seq<Entry>): (r: seq<Entry>)
    ensures |r| == |xs| && forall k :: 0 <= k < |xs| ==> r[k] == xs[|xs| - 1 - k]
  {
    seq(|xs|, k requires 0 <= k < |xs| => xs[|xs| - 1 - k])
  }

  /** Python's `buf[-m:]`: for a positive `m` the last `m` entries (all of
      them when there are fewer), and for `m <= 0` the entries from
      position `-m` on, since `-0` is `0`. */
  function PyTail(buf: seq<Entry>, m: int): (r: seq<Entry>)
    ensures m > 0 ==> r == buf[if |buf| > m then |buf| - m else 0..]
    ensures m <= 0 ==> r == buf[if -m < |buf| then -m else |buf|..]
  {
    if m > 0 then buf[if |buf| > m then |buf| - m else 0..]
    else buf[if -m < |buf| then -m else |buf|..]
  }

  /** As written: when the buffer is longer than the view size it keeps
      `buf[-MAX_VIEW:]`, then shows it reversed; an empty buffer shows no
      log at all. */
  function ShownLogAsWritten(buf: seq<Entry>, view: int): Option<seq<Entry>> {
    if |buf| == 0 then None
    else Some(Reverse(if |buf| > view then PyTail(buf, view) else buf))
  }

  /** The log part of the page as written, from the `view` argument on.
      The history query `[:MAX_VIEW]` runs first and rejects a negative
      size, so Django raises before the log is read. Otherwise the page
      shows every entry for a view size of 0 or of at least the buffer's
      length, and the last `view` entries otherwise, newest first. */
  function PanelLogAsWritten(buf: seq<Entry>, view: int): (r: Result<Option<seq<Entry>>>)
    ensures r.Raise? <==> view < 0
    ensures r.Ok? ==> (r.value.None? <==> |buf| == 0)
    ensures r.Ok? && r.value.Some? ==>
      |r.value.value| == (if view == 0 || view >= |buf| then |buf| else view) &&
      forall k :: 0 <= k < |r.value.value| ==> r.value.value[k] == buf[|buf| - 1 - k]
  {
    if view < 0 then Raise(ValueError) else Ok(ShownLogAsWritten(buf, view))
  }

  /** As evidently intended: at most `view` entries, the newest ones,
      newest first. */
  function ShownLog(buf: seq<Entry>, view: int): Option<seq<Entry>> {
    if |buf| == 0 then None
    else
      var keep := if view <= 0 then 0 else if view < |buf| then view else |buf|;
      Some(Reverse(buf[|buf| - keep..]))
  }

  /** The corrected view shows exactly the last `min(view, |buf|)` entries,
      newest first. */
  lemma ShownLogLast(buf: seq<Entry>, view: int)
    requires |buf| > 0
    ensures ShownLog(buf, view).Some?
    ensures var r := ShownLog(buf, view).value;
      && |r| == (if view <= 0 then 0 else if view < |buf| then view else |buf|)
      && forall k :: 0 <= k < |r| ==> r[k] == buf[|buf| - 1 - k]
  {
  }

  /** For a positive view size the two agree. */
  lemma ShownLogAgrees(buf: seq<Entry>, view: int)
    requires view > 0
    ensures ShownLogAsWritten(buf, view) == ShownLog(buf, view)
  {
  }

  /** With `?view=0` the as-written view shows the whole buffer rather than
      nothing, because `buf[-0:]` is the whole list. */
  lemma ZeroViewShowsAll(buf: seq<Entry>)
    requires |buf| > 0
    ensures ShownLogAsWritten(buf, 0).Some? && |ShownLogAsWritten(buf, 0).value| == |buf|
    ensures ShownLog(buf, 0) == Some([])
  {
  }
}

=== FILE: md_reader.dfy ===
/** `convert_md_to_dict`: reading an access list's Markdown file back into
    the per-section form data (`LOCAL_STORAGE`), and the round trip from the
    writer in `MdTable`. */
module MdReader {
  import opened Wrappers
  import opened Strings
  import opened MdTable

  /** The sections the reader recognises, keyed in the source by the names
      of their form templates. */
  datatype SectionKey = InfoSection | ResourceSection(kind: Resource)

  function KeyName(k: SectionKey): string {
    match k
    case InfoSection => "acl_create_info.html"
    case ResourceSection(Internal) => "acl_internal_resources.html"
    case ResourceSection(Dmz) => "acl_dmz_resources.html"
    case ResourceSection(External) => "acl_external_resources.html"
    case ResourceSection(Traffic) => "acl_traffic.html"
  }

  /** What a section collects: the value column of the contact block, or
      the cells of a resource row. */
  datatype Stored = Text(text: string) | Cells(cells: seq<string>)

  datatype Reader = Reader(current: Option<SectionKey>, storage: map<SectionKey, seq<Stored>>)

  /** The section being read always has an entry. */
  predicate Valid(st: Reader) {
    st.current.Some? ==> st.current.value in st.storage
  }

  const Start: Reader := Reader(None, map[])

  /** The section a (stripped) line opens, by the prefixes the source tests,
      in its order. */
  function SectionOf(line: string): (k: Option<SectionKey>)
  {
    if StartsWith(line, CreateInfoTitle) then Some(InfoSection)
    else if StartsWith(line, InternalHead) then Some(ResourceSection(Internal))
    else if StartsWith(line, DmzHead) then Some(ResourceSection(Dmz))
    else if StartsWith(line, ExternalHead) then Some(ResourceSection(External))
    else if StartsWith(line, TrafficTitle) then Some(ResourceSection(Traffic))
    else None
  }

  /** Python's `xs[1:-1]`. */
  function Inner(xs: seq<string>): (r: seq<string>)
    ensures |xs| >= 2 ==> r == xs[1..|xs| - 1]
    ensures |xs| < 2 ==> r == []
  {
    if |xs| < 2 then [] else xs[1..|xs| - 1]
  }

  function StripAll(xs: seq<string>): (r: seq<string>)
    ensures |r| == |xs| && forall i :: 0 <= i < |xs| ==> r[i] == Strip(xs[i])
  {
    seq(|xs|, i requires 0 <= i < |xs| => Strip(xs[i]))
  }

  /** The stripped cells between the outer bars of a table line. */
  function RowParts(line: string): seq<string> {
    StripAll(Inner(Split(line, "|")))
  }

  /** Empty cells of a resource row are read as a single space. */
  function Normalize(parts: seq<string>): (r: seq<string>)
    ensures |r| == |parts|
    ensures forall i :: 0 <= i < |parts| ==> r[i] == if parts[i] == "" then " " else parts[i]
  {
    seq(|parts|, i requires 0 <= i < |parts| => if parts[i] == "" then " " else parts[i])
  }

  /** Resource-table lines that are not data: the ruling, and any line that
      reads as one of the heading rows. */
  predicate SkipRow(parts: seq<string>) {
    || (|parts| > 0 && StartsWith(parts[0], ":--"))
    || parts == StandardColumn
    || parts == ExternalColumn
    || (forall i :: 0 <= i < |parts| ==> parts[i] in TrafficColumn)
  }

  function Append(st: Reader, x: Stored): (r: Reader)
    requires Valid(st) && st.current.Some?
    ensures Valid(r) && r.current == st.current
    ensures r.storage == st.storage[st.current.value := st.storage[st.current.value] + [x]]
  {
    var k := st.current.value;
    Reader(st.current, st.storage[k := st.storage[k] + [x]])
  }

  /** A line that opens no section: the contact block takes the second cell
      of each row (a row without one raises `IndexError`); a resource
      section takes every row that is not skipped; lines outside a section,
      and lines that are not table rows, change nothing. */
  function RowStep(st: Reader, line: string): (r: Result<Reader>)
    requires Valid(st)
    ensures r.Ok? ==> Valid(r.value) && r.value.storage.Keys == st.storage.Keys
  {
    if !StartsWith(line, "|") then Ok(st)
    else
      match st.current
      case None => Ok(st)
      case Some(InfoSection) =>
        var parts := RowParts(line);
        if |parts| == 0 then Raise(IndexError)
        else if StartsWith(parts[0], ":--") || parts == ContactColumn then Ok(st)
        else if |parts| < 2 then Raise(IndexError)
        else Ok(Append(st, Text(parts[1])))
      case Some(ResourceSection(_)) =>
        var parts := Normalize(RowParts(line));
        if SkipRow(parts) then Ok(st)
        else Ok(Append(st, Cells(parts)))
  }

  /** One line of the loop body: a title line opens its section afresh;
      any other line goes to `RowStep`. */
  function Step(st: Reader, raw: string): (r: Result<Reader>)
    requires Valid(st)
    ensures r.Ok? ==> Valid(r.value)
    ensures r.Ok? ==> st.storage.Keys <= r.value.storage.Keys
    ensures r.Ok? && SectionOf(Strip(raw)).None? ==> r.value.storage.Keys == st.storage.Keys
    ensures SectionOf(Strip(raw)).Some? ==>
      r.Ok? && r.value.storage.Keys == st.storage.Keys + {SectionOf(Strip(raw)).value}
  {
    var line := Strip(raw);
    match SectionOf(line)
    case Some(k) => Ok(Reader(Some(k), st.storage[k := []]))
    case None => RowStep(st, line)
  }

  /** The `for` loop over the lines; the first exception ends it. */
  function ReadLines(st: Reader, lines: seq<string>): (r: Result<Reader>)
    requires Valid(st)
    ensures r.Ok? ==> Valid(r.value)
    decreases |lines|
  {
    if |lines| == 0 then Ok(st)
    else
      match Step(st, lines[0])
      case Raise(e) => Raise(e)
      case Ok(next) => ReadLines(next, lines[1..])
  }

  /** The sections whose title appears among the lines. */
  function Opened(lines: seq<string>): set<SectionKey> {
    set i | 0 <= i < |lines| && SectionOf(Strip(lines[i])).Some? :: SectionOf(Strip(lines[i])).value
  }

  /** `convert_md_to_dict`: the collected sections, or `None` when any line
      raised. */
  function ConvertMdToDict(content: string): (r: Option<map<SectionKey, seq<Stored>>>)
  {
    match ReadLines(Start, Split(content, "\n"))
    case Raise(_) => None
    case Ok(st) => Some(st.storage)
  }

  /** The reader collects exactly the sections whose title lines occur. */
  lemma {:induction false} ReadLinesKeys(st: Reader, lines: seq<string>)
    requires Valid(st)
    ensures ReadLines(st, lines).Ok? ==>
      ReadLines(st, lines).value.storage.Keys == st.storage.Keys + Opened(lines)
    decreases |lines|
  {
    if |lines| == 0 {
      assert Opened(lines) == {};
    } else if Step(st, lines[0]).Ok? {
      ReadLinesKeys(Step(st, lines[0]).value, lines[1..]);
      ReadLinesKeysCons(st, lines);
    }
  }

  /** The inductive step of `ReadLinesKeys`, given the claim for the tail. */
  lemma ReadLinesKeysCons(st: Reader, lines: seq<string>)
    requires Valid(st) && |lines| > 0 && Step(st, lines[0]).Ok?
    requires var next := Step(st, lines[0]).value;
      ReadLines(next, lines[1..]).Ok? ==>
        ReadLines(next, lines[1..]).value.storage.Keys == next.storage.Keys + Opened(lines[1..])
    ensures ReadLines(st, lines).Ok? ==>
      ReadLines(st, lines).value.storage.Keys == st.storage.Keys + Opened(lines)
  {
    ReadCons(st, lines);
    OpenedCons(lines);
  }

  /** One step of the loop, when it does not raise. */
  lemma ReadCons(st: Reader, lines: seq<string>)
    requires Valid(st) && |lines| > 0 && Step(st, lines[0]).Ok?
    ensures ReadLines(st, lines) == ReadLines(Step(st, lines[0]).value, lines[1..])
  {
  }

  lemma OpenedCons(lines: seq<string>)
    requires |lines| > 0
    ensures Opened(lines) == Opened(lines[1..]) +
      (if SectionOf(Strip(lines[0])).Some? then {SectionOf(Strip(lines[0])).value} else {})
  {
    var o := Opened(lines);
    var t := Opened(lines[1..]);
    forall k | k in t ensures k in o {
      var i :| 0 <= i < |lines[1..]| && SectionOf(Strip(lines[1..][i])).Some? && SectionOf(Strip(lines[1..][i])).value == k;
      assert lines[i + 1] == lines[1..][i];
    }
    forall k | k in o ensures k in t || SectionOf(Strip(lines[0])) == Some(k) {
      var i :| 0 <= i < |lines| && SectionOf(Strip(lines[i])).Some? && SectionOf(Strip(lines[i])).value == k;
      if i > 0 {
        assert lines[1..][i - 1] == lines[i];
      }
    }
  }

  /** The sections in the result are exactly those whose title line occurs
      in the text. */
  lemma ConvertKeys(content: string)
    ensures ConvertMdToDict(content).Some? ==>
      ConvertMdToDict(content).value.Keys == Opened(Split(content, "\n"))
  {
    ReadLinesKeys(Start, Split(content, "\n"));
  }

  /** A title line starts with "#####". */
  lemma SectionNeedsHashes(line: string)
    ensures SectionOf(line).Some? ==> |line| >= 5 && line[..5] == "#####"
  {
    if SectionOf(line).Some? {
      var p :=
        if StartsWith(line, CreateInfoTitle) then CreateInfoTitle
        else if StartsWith(line, InternalHead) then InternalHead
        else if StartsWith(line, DmzHead) then DmzHead
        else if StartsWith(line, ExternalHead) then ExternalHead
        else TrafficTitle;
      assert StartsWith(line, p);
      assert p[..5] == "#####";
      assert line[..5] == line[..|p|][..5];
    }
  }
}

=== FILE: md_roundtrip.dfy ===
/** Reading back what the Markdown writer wrote: for form data whose cells
    are single-line, free of '|' and of surrounding whitespace, and whose
    rows do not look like a heading or ruling row, `convert_md_to_dict` on
    the file `create_markdown_file` produces recovers every section. */
module MdRoundTrip {
  import opened Wrappers
  import opened Strings
  import opened MdTable
  import opened MdReader

  // ---------------------------------------------------------------------
  // Table lines as bar-separated fields

  /** Each cell with the single spaces the line template puts around it. */
  function Wrap(xs: seq<string>): (r: seq<string>)
    ensures |r| == |xs| && forall i :: 0 <= i < |xs| ==> r[i] == " " + xs[i] + " "
  {
    seq(|xs|, i requires 0 <= i < |xs| => " " + xs[i] + " ")
  }

  lemma {:induction false} JoinWrapTail(xs: seq<string>)
    requires |xs| >= 1
    ensures Join(Wrap(xs) + [""], "|") == " " + Join(xs, " | ") + " |"
    decreases |xs|
  {
    var ys := Wrap(xs) + [""];
    assert ys[0] == " " + xs[0] + " ";
    if |xs| == 1 {
      assert ys[1..] == [""];
      assert Join(ys[1..], "|") == "";
      assert Join(xs, " | ") == xs[0];
    } else {
      var rest := xs[1..];
      assert ys[1..] == Wrap(rest) + [""];
      JoinWrapTail(rest);
      assert Join(xs, " | ") == xs[0] + " | " + Join(rest, " | ");
    }
  }

  /** A table line is the wrapped cells between bars. */
  lemma JoinWrapBars(xs: seq<string>)
    requires |xs| >= 1
    ensures "| " + Join(xs, " | ") + " |" == Join([""] + Wrap(xs) + [""], "|")
  {
    JoinWrapTail(xs);
    JoinOpened(Wrap(xs), "|");
    BarsAround(Join(xs, " | "));
  }

  /** Joining after an empty first part puts one separator in front. */
  lemma JoinOpened(zs: seq<string>, d: string)
    ensures Join([""] + zs + [""], d) == d + Join(zs + [""], d)
  {
    DropOpening(zs);
  }

  lemma DropOpening(zs: seq<string>)
    ensures ([""] + zs + [""])[1..] == zs + [""]
  {
  }

  lemma BarsAround(j: string)
    ensures "|" + (" " + j + " |") == "| " + j + " |"
  {
  }

  lemma {:induction false} JoinAvoids(parts: seq<string>, d: string, c: char)
    requires c !in d
    requires forall i :: 0 <= i < |parts| ==> c !in parts[i]
    ensures c !in Join(parts, d)
    decreases |parts|
  {
    if |parts| > 1 {
      JoinAvoids(parts[1..], d, c);
    }
  }

  lemma PadCellAvoids(a: Align, w: nat, s: string, c: char)
    requires c !in s && c != ' '
    ensures c !in PadCell(a, w, s)
  {
    BlanksAround(PadCell(a, w, s), PadLead(a, w, s), s, c);
  }

  /** A text that is blanks, then `s`, then blanks holds only the characters
      of `s` besides spaces. */
  lemma BlanksAround(r: string, lead: nat, s: string, c: char)
    requires lead + |s| <= |r| && r[lead..lead + |s|] == s
    requires Blank(r[..lead]) && Blank(r[lead + |s|..])
    requires c !in s && c != ' '
    ensures c !in r
  {
    forall i | 0 <= i < |r|
      ensures r[i] != c
    {
      if i < lead {
        assert r[..lead][i] == r[i];
      } else if i < lead + |s| {
        assert r[lead..lead + |s|][i - lead] == r[i];
      } else {
        assert r[lead + |s|..][i - lead - |s|] == r[i];
      }
    }
  }

  lemma StripSpaced(pre: string, s: string, post: string)
    requires AllSpaces(pre) && AllSpaces(post) && Trimmed(s)
    ensures Strip(" " + pre + s + post + " ") == s
  {
    var t := " " + pre + s + post + " ";
    if s == "" {
      assert t == " " + pre + post + " ";
      assert AllSpaces(t);
      StripSpacesOnly(t);
    } else {
      assert t == (" " + pre) + s + (post + " ");
      StripPadded(" " + pre, s, post + " ");
    }
  }

  /** Padding a trimmed text and wrapping it in spaces does not survive the
      reader's strip. */
  lemma StripWrappedPad(a: Align, w: nat, s: string)
    requires Trimmed(s)
    ensures Strip(" " + PadCell(a, w, s) + " ") == s
  {
    var r := PadCell(a, w, s);
    var lead := PadLead(a, w, s);
    var pre := r[..lead];
    var post := r[lead + |s|..];
    assert r == pre + s + post by {
      assert r == pre + r[lead..lead + |s|] + post;
    }
    BlankIsSpace(pre);
    BlankIsSpace(post);
    StripSpaced(pre, s, post);
    Surround(r, pre, s, post);
  }

  lemma Surround(r: string, pre: string, s: string, post: string)
    requires r == pre + s + post
    ensures " " + r + " " == " " + pre + s + post + " "
  {
  }

  lemma BlankIsSpace(s: string)
    requires Blank(s)
    ensures AllSpaces(s)
  {
    forall i | 0 <= i < |s| ensures IsSpace(s[i]) {
      assert s[i] == ' ';
    }
  }

  /** A line between two bars is its own strip and opens no section. */
  lemma BarLine(line: string)
    requires |line| >= 1 && line[0] == '|' && line[|line| - 1] == '|'
    ensures Strip(line) == line && SectionOf(line).None?
  {
    assert LStrip(line) == line;
    RStripNoTrailing(line);
    SectionNeedsHashes(line);
  }

  lemma WrappedBarFree(pcs: seq<string>)
    requires forall i :: 0 <= i < |pcs| ==> '|' !in pcs[i]
    ensures forall i :: 0 <= i < |pcs| + 2 ==> '|' !in ([""] + Wrap(pcs) + [""])[i]
  {
    var ys := [""] + Wrap(pcs) + [""];
    forall i | 0 <= i < |ys|
      ensures '|' !in ys[i]
    {
      if 0 < i < |ys| - 1 {
        assert ys[i] == " " + pcs[i - 1] + " ";
      }
    }
  }

  /** Facts about a line of cells none of which holds a bar. */
  lemma TableLineSplit(pcs: seq<string>)
    requires |pcs| >= 1 && forall i :: 0 <= i < |pcs| ==> '|' !in pcs[i]
    ensures RowParts(Strip(TableLine(pcs))) == StripAll(Wrap(pcs))
    ensures StartsWith(Strip(TableLine(pcs)), "|") && SectionOf(Strip(TableLine(pcs))).None?
  {
    var raw := "| " + Join(pcs, " | ") + " |";
    assert raw[|raw| - 1] == '|';
    RStripNoTrailing(raw);
    assert TableLine(pcs) == raw;
    JoinWrapBars(pcs);
    var ys := [""] + Wrap(pcs) + [""];
    WrappedBarFree(pcs);
    SplitJoinChar(ys, '|');
    assert Split(raw, "|") == ys;
    assert Inner(ys) == Wrap(pcs);
    BarLine(raw);
    assert raw[..1] == "|";
  }

  lemma PaddedCellsClean(aligns: seq<Align>, widths: seq<nat>, cells: seq<string>)
    requires |aligns| == |widths| == |cells|
    requires forall i :: 0 <= i < |cells| ==> '|' !in cells[i] && Trimmed(cells[i])
    ensures forall i :: 0 <= i < |cells| ==> '|' !in PadRow(aligns, widths, cells)[i]
    ensures StripAll(Wrap(PadRow(aligns, widths, cells))) == cells
  {
    var pcs := PadRow(aligns, widths, cells);
    forall i | 0 <= i < |cells|
      ensures '|' !in pcs[i]
    {
      PadCellAvoids(aligns[i], widths[i], cells[i], '|');
    }
    forall i | 0 <= i < |cells|
      ensures StripAll(Wrap(pcs))[i] == cells[i]
    {
      StripWrappedPad(aligns[i], widths[i], cells[i]);
    }
  }

  /** The cells a padded row reads back as. */
  lemma ReadPaddedRow(aligns: seq<Align>, widths: seq<nat>, cells: seq<string>)
    requires |aligns| == |widths| == |cells| >= 1
    requires forall i :: 0 <= i < |cells| ==> '|' !in cells[i] && Trimmed(cells[i])
    ensures RowParts(Strip(TableLine(PadRow(aligns, widths, cells)))) == cells
    ensures StartsWith(Strip(TableLine(PadRow(aligns, widths, cells))), "|")
    ensures SectionOf(Strip(TableLine(PadRow(aligns, widths, cells)))).None?
  {
    PaddedCellsClean(aligns, widths, cells);
    TableLineSplit(PadRow(aligns, widths, cells));
  }

  /** The ruling cells read back as themselves. */
  lemma RuleCellsClean(aligns: seq<Align>, widths: seq<nat>)
    requires |aligns| == |widths|
    ensures forall i :: 0 <= i < |widths| ==> '|' !in RuleRow(aligns, widths)[i]
    ensures forall i :: 0 <= i < |widths| ==> '\n' !in RuleRow(aligns, widths)[i]
    ensures StripAll(Wrap(RuleRow(aligns, widths))) == RuleRow(aligns, widths)
  {
    var rcs := RuleRow(aligns, widths);
    forall i | 0 <= i < |widths|
      ensures '|' !in rcs[i] && '\n' !in rcs[i] && StripAll(Wrap(rcs))[i] == rcs[i]
    {
      RuleCellClean(aligns[i], widths[i]);
    }
  }

  /** One ruling cell holds only colons and dashes, so it survives the
      reader's strip. */
  lemma RuleCellClean(a: Align, w: nat)
    ensures '|' !in RuleCell(a, w) && '\n' !in RuleCell(a, w)
    ensures Strip(" " + RuleCell(a, w) + " ") == RuleCell(a, w)
  {
    var rc := RuleCell(a, w);
    RuleChars(a, w);
    RuleChar(rc[0]);
    RuleChar(rc[|rc| - 1]);
    forall j | 0 <= j < |rc| ensures rc[j] != '|' && rc[j] != '\n' {
      RuleChar(rc[j]);
    }
    assert AllSpaces(" ");
    StripPadded(" ", rc, " ");
  }

  lemma RuleChars(a: Align, w: nat)
    ensures forall j :: 0 <= j < |RuleCell(a, w)| ==> RuleCell(a, w)[j] == ':' || RuleCell(a, w)[j] == '-'
  {
  }

  lemma RuleChar(c: char)
    requires c == ':' || c == '-'
    ensures !IsSpace(c) && c != '|' && c != '\n'
  {
  }

  // ---------------------------------------------------------------------
  // Reading lines

  lemma StepEmpty(st: Reader)
    requires Valid(st)
    ensures Step(st, "") == Ok(st)
  {
    assert Strip("") == "";
  }

  /** A table line inside a resource section. */
  lemma StepResourceRow(st: Reader, line: string, parts: seq<string>)
    requires Valid(st) && st.current.Some? && st.current.value.ResourceSection?
    requires SectionOf(Strip(line)).None? && StartsWith(Strip(line), "|")
    requires parts == Normalize(RowParts(Strip(line)))
    ensures Step(st, line).Ok?
    ensures SkipRow(parts) ==> Step(st, line).value == st
    ensures !SkipRow(parts) ==> Step(st, line).value == Append(st, Cells(parts))
  {
    assert Step(st, line) == RowStep(st, Strip(line));
    RowStepResource(st, Strip(line), parts);
  }

  lemma RowStepResource(st: Reader, l: string, parts: seq<string>)
    requires Valid(st) && st.current.Some? && st.current.value.ResourceSection?
    requires StartsWith(l, "|") && parts == Normalize(RowParts(l))
    ensures RowStep(st, l).Ok?
    ensures SkipRow(parts) ==> RowStep(st, l).value == st
    ensures !SkipRow(parts) ==> RowStep(st, l).value == Append(st, Cells(parts))
  {
  }

  /** A table line inside the contact block. */
  lemma StepInfoRow(st: Reader, line: string, parts: seq<string>)
    requires Valid(st) && st.current == Some(InfoSection)
    requires SectionOf(Strip(line)).None? && StartsWith(Strip(line), "|")
    requires parts == RowParts(Strip(line)) && |parts| >= 2
    ensures Step(st, line).Ok?
    ensures Step(st, line).value ==
      if StartsWith(parts[0], ":--") || parts == ContactColumn then st else Append(st, Text(parts[1]))
  {
    assert Step(st, line) == RowStep(st, Strip(line));
    RowStepInfo(st, Strip(line), parts);
  }

  lemma RowStepInfo(st: Reader, l: string, parts: seq<string>)
    requires Valid(st) && st.current == Some(InfoSection)
    requires StartsWith(l, "|") && parts == RowParts(l) && |parts| >= 2
    ensures RowStep(st, l).Ok?
    ensures RowStep(st, l).value ==
      if StartsWith(parts[0], ":--") || parts == ContactColumn then st else Append(st, Text(parts[1]))
  {
  }

  /** Reading two blocks of lines is reading the first, then the second. */
  lemma {:induction false} ReadConcat(st: Reader, a: seq<string>, b: seq<string>)
    requires Valid(st) && ReadLines(st, a).Ok?
    ensures ReadLines(st, a + b) == ReadLines(ReadLines(st, a).value, b)
    decreases |a|
  {
    if |a| == 0 {
      ReadConcatNil(st, a, b);
    } else {
      var next := Step(st, a[0]).value;
      ReadConcat(next, a[1..], b);
      ReadConcatCons(st, a, b);
    }
  }

  lemma ReadConcatNil(st: Reader, a: seq<string>, b: seq<string>)
    requires Valid(st) && a == []
    ensures ReadLines(st, a).Ok? && ReadLines(st, a).value == st
    ensures ReadLines(st, a + b) == ReadLines(st, b)
  {
    assert a + b == b;
  }

  /** The inductive step of `ReadConcat`, given the claim for the tail. */
  lemma ReadConcatCons(st: Reader, a: seq<string>, b: seq<string>)
    requires Valid(st) && |a| > 0 && ReadLines(st, a).Ok?
    requires Step(st, a[0]).Ok?
    requires ReadLines(Step(st, a[0]).value, a[1..]).Ok?
    requires ReadLines(Step(st, a[0]).value, a[1..] + b)
          == ReadLines(ReadLines(Step(st, a[0]).value, a[1..]).value, b)
    ensures ReadLines(st, a + b) == ReadLines(ReadLines(st, a).value, b)
  {
    ConsConcat(a, b);
    ReadCons(st, a);
    ReadCons(st, a + b);
  }

  lemma ConsConcat<T>(a: seq<T>, b: seq<T>)
    requires |a| > 0
    ensures (a + b)[0] == a[0] && (a + b)[1..] == a[1..] + b
  {
  }

  lemma ReadTwoEmpty(st: Reader)
    requires Valid(st)
    ensures ReadLines(st, ["", ""]) == Ok(st)
  {
    StepEmpty(st);
    assert ["", ""][1..] == [""];
    assert [""][1..] == [];
  }

  // ---------------------------------------------------------------------
  // Reading a resource table

  /** Cells the reader gives back unchanged: one line, no bar, no
      surrounding whitespace. */
  predicate CleanCell(s: string) {
    '|' !in s && '\n' !in s && Trimmed(s)
  }

  predicate CleanCells(cells: seq<string>) {
    forall i :: 0 <= i < |cells| ==> CleanCell(cells[i])
  }

  /** A resource row the reader keeps. */
  predicate DataRow(cells: seq<string>) {
    CleanCells(cells) && !SkipRow(Normalize(cells))
  }

  function Stores(rows: seq<seq<string>>): (r: seq<Stored>)
    ensures |r| == |rows| && forall i :: 0 <= i < |rows| ==> r[i] == Cells(Normalize(rows[i]))
  {
    seq(|rows|, i requires 0 <= i < |rows| => Cells(Normalize(rows[i])))
  }

  lemma ReadOneRow(st: Reader, aligns: seq<Align>, widths: seq<nat>, row: seq<string>)
    requires Valid(st) && st.current.Some? && st.current.value.ResourceSection?
    requires |aligns| == |widths| == |row| >= 1 && DataRow(row)
    ensures Step(st, TableLine(PadRow(aligns, widths, row))).Ok?
    ensures Step(st, TableLine(PadRow(aligns, widths, row))).value == Append(st, Cells(Normalize(row)))
  {
    ReadPaddedRow(aligns, widths, row);
    StepResourceRow(st, TableLine(PadRow(aligns, widths, row)), Normalize(row));
  }

  /** The reader state after adding `xs` to the section being read. */
  function AppendAll(st: Reader, xs: seq<Stored>): (r: Reader)
    requires Valid(st) && st.current.Some?
    ensures Valid(r) && r.current == st.current
  {
    var k := st.current.value;
    Reader(st.current, st.storage[k := st.storage[k] + xs])
  }

  lemma AppendAllNil(st: Reader)
    requires Valid(st) && st.current.Some?
    ensures AppendAll(st, []) == st
  {
    var k := st.current.value;
    assert st.storage[k] + [] == st.storage[k];
    assert st.storage[k := st.storage[k]] == st.storage;
  }

  lemma AppendAllCons(st: Reader, x: Stored, xs: seq<Stored>)
    requires Valid(st) && st.current.Some?
    ensures AppendAll(Append(st, x), xs) == AppendAll(st, [x] + xs)
  {
    var k := st.current.value;
    assert st.storage[k] + [x] + xs == st.storage[k] + ([x] + xs);
  }

  lemma RowLinesTail(aligns: seq<Align>, widths: seq<nat>, rows: seq<seq<string>>)
    requires |aligns| == |widths| && Rectangular(rows, |widths|) && |rows| > 0
    ensures RowLines(aligns, widths, rows)[0] == TableLine(PadRow(aligns, widths, rows[0]))
    ensures RowLines(aligns, widths, rows)[1..] == RowLines(aligns, widths, rows[1..])
  {
  }

  lemma StoresCons(rows: seq<seq<string>>)
    requires |rows| > 0
    ensures Stores(rows) == [Cells(Normalize(rows[0]))] + Stores(rows[1..])
  {
  }

  /** The data rows of a resource table are read back, in order, as their
      normalised cells. */
  lemma {:induction false} ReadResourceRows(st: Reader, aligns: seq<Align>, widths: seq<nat>, rows: seq<seq<string>>)
    requires Valid(st) && st.current.Some? && st.current.value.ResourceSection?
    requires |aligns| == |widths| >= 1 && Rectangular(rows, |widths|)
    requires forall r :: 0 <= r < |rows| ==> DataRow(rows[r])
    ensures ReadLines(st, RowLines(aligns, widths, rows)).Ok?
    ensures ReadLines(st, RowLines(aligns, widths, rows)).value == AppendAll(st, Stores(rows))
    decreases |rows|
  {
    var lines := RowLines(aligns, widths, rows);
    if |rows| == 0 {
      AppendAllNil(st);
      assert Stores(rows) == [];
    } else {
      RowLinesTail(aligns, widths, rows);
      ReadOneRow(st, aligns, widths, rows[0]);
      var next := Append(st, Cells(Normalize(rows[0])));
      ReadCons(st, lines);
      ReadResourceRows(next, aligns, widths, rows[1..]);
      AppendAllCons(st, Cells(Normalize(rows[0])), Stores(rows[1..]));
      StoresCons(rows);
    }
  }

  // ---------------------------------------------------------------------
  // A whole resource section

  lemma ConsFirst<T>(x: T, rest: seq<T>)
    ensures ([x] + rest)[0] == x && ([x] + rest)[1..] == rest
  {
  }

  lemma Assoc4<T>(a: seq<T>, b: seq<T>, c: seq<T>, d: seq<T>)
    ensures a + b + c + d == a + (b + (c + d))
  {
  }

  /** Reading a first line that does not raise, then the rest. */
  lemma ReadFirst(st: Reader, x: string, rest: seq<string>)
    requires Valid(st) && Step(st, x).Ok?
    ensures ReadLines(st, [x] + rest) == ReadLines(Step(st, x).value, rest)
  {
    ConsFirst(x, rest);
    ReadCons(st, [x] + rest);
  }

  /** A line with no whitespace at either end is its own strip. */
  lemma TrimmedLine(line: string)
    requires |line| >= 1 && !IsSpace(line[0]) && !IsSpace(line[|line| - 1])
    ensures Strip(line) == line
  {
    assert LStrip(line) == line;
    RStripNoTrailing(line);
  }

  /** A text differing from `p` inside `p`'s length does not start with it. */
  lemma Mismatch(s: string, p: string, i: nat)
    requires i < |p| && i < |s| && s[i] != p[i]
    ensures !StartsWith(s, p)
  {
    if |p| <= |s| {
      assert s[..|p|][i] == s[i];
    }
  }

  lemma PrefixOf(p: string, rest: string)
    ensures StartsWith(p + rest, p)
  {
    assert (p + rest)[..|p|] == p;
  }

  lemma InternalOpens()
    ensures SectionOf(InternalTitle).Some? && SectionOf(InternalTitle).value == ResourceSection(Internal)
  {
    Mismatch(InternalTitle, CreateInfoTitle, 6);
    PrefixOf(InternalHead, " (СГ АльфаСтрахование)");
  }

  lemma DmzOpens()
    ensures SectionOf(DmzTitle).Some? && SectionOf(DmzTitle).value == ResourceSection(Dmz)
  {
    Mismatch(DmzTitle, CreateInfoTitle, 6);
    Mismatch(DmzTitle, InternalHead, 13);
    PrefixOf(DmzHead, " (СГ АльфаСтрахование)");
  }

  lemma ExternalOpens()
    ensures SectionOf(ExternalTitle).Some? && SectionOf(ExternalTitle).value == ResourceSection(External)
  {
    Mismatch(ExternalTitle, CreateInfoTitle, 6);
    Mismatch(ExternalTitle, InternalHead, 15);
    Mismatch(ExternalTitle, DmzHead, 13);
    PrefixOf(ExternalHead, " (Internet)");
  }

  lemma TrafficOpens()
    ensures SectionOf(TrafficTitle).Some? && SectionOf(TrafficTitle).value == ResourceSection(Traffic)
  {
    Mismatch(TrafficTitle, CreateInfoTitle, 6);
    Mismatch(TrafficTitle, InternalHead, 6);
    Mismatch(TrafficTitle, DmzHead, 6);
    Mismatch(TrafficTitle, ExternalHead, 6);
    PrefixOf(TrafficTitle, "");
    assert TrafficTitle + "" == TrafficTitle;
  }

  /** Each section title the writer emits opens that section in the reader. */
  lemma TitleOpens(k: Resource)
    ensures SectionOf(Title(k)).Some? && SectionOf(Title(k)).value == ResourceSection(k)
  {
    match k
    case Internal => InternalOpens();
    case Dmz => DmzOpens();
    case External => ExternalOpens();
    case Traffic => TrafficOpens();
  }

  lemma TitleTrimmed(k: Resource)
    ensures Strip(Title(k)) == Title(k)
  {
    var t := Title(k);
    assert t[0] == '#';
    assert t[|t| - 1] == ')' || t[|t| - 1] == 'а';
    TrimmedLine(t);
  }

  lemma StepTitle(st: Reader, k: Resource)
    requires Valid(st)
    ensures Step(st, Title(k)).Ok?
    ensures Step(st, Title(k)).value == Reader(Some(ResourceSection(k)), st.storage[ResourceSection(k) := []])
  {
    TitleOpens(k);
    TitleTrimmed(k);
    StepOpens(st, Title(k));
  }

  /** A title line starts its section afresh, whatever was read before. */
  lemma StepOpens(st: Reader, raw: string)
    requires Valid(st) && SectionOf(Strip(raw)).Some?
    ensures Step(st, raw).Ok?
    ensures Step(st, raw).value == Reader(SectionOf(Strip(raw)), st.storage[SectionOf(Strip(raw)).value := []])
  {
  }

  /** Rows without empty cells are not changed by the reader's
      normalisation. */
  lemma NormalizeFull(parts: seq<string>)
    requires forall i :: 0 <= i < |parts| ==> parts[i] != ""
    ensures Normalize(parts) == parts
  {
  }

  // Each label is checked on its own: the checks are cheap one by one.

  lemma StandardLabel0()
    ensures CleanCell(StandardColumn[0])
  {
  }

  lemma StandardLabel1()
    ensures CleanCell(StandardColumn[1])
  {
  }

  lemma StandardLabel2()
    ensures CleanCell(StandardColumn[2])
  {
  }

  lemma StandardClean()
    ensures CleanCells(StandardColumn)
  {
    StandardLabel0(); StandardLabel1(); StandardLabel2();
  }

  lemma ExternalLabel0()
    ensures CleanCell(ExternalColumn[0])
  {
  }

  lemma ExternalLabel1()
    ensures CleanCell(ExternalColumn[1])
  {
  }

  lemma ExternalLabel2()
    ensures CleanCell(ExternalColumn[2])
  {
  }

  lemma ExternalLabel3()
    ensures CleanCell(ExternalColumn[3])
  {
  }

  lemma ExternalClean()
    ensures CleanCells(ExternalColumn)
  {
    ExternalLabel0(); ExternalLabel1(); ExternalLabel2(); ExternalLabel3();
  }

  lemma TrafficLabel0()
    ensures CleanCell(TrafficColumn[0])
  {
  }

  lemma TrafficLabel1()
    ensures CleanCell(TrafficColumn[1])
  {
  }

  lemma TrafficLabel2()
    ensures CleanCell(TrafficColumn[2])
  {
  }

  lemma TrafficLabel3()
    ensures CleanCell(TrafficColumn[3])
  {
  }

  lemma TrafficLabel4()
    ensures CleanCell(TrafficColumn[4])
  {
  }

  lemma TrafficLabel5()
    ensures CleanCell(TrafficColumn[5])
  {
    var c := TrafficColumn[5];
    assert c == "ПО использующее нестандартный порт";
    LiteralClean(c);
  }

  /** A cell whose ends are not blanks and that holds no bar or newline. */
  lemma LiteralClean(c: string)
    requires c != "" && !IsSpace(c[0]) && !IsSpace(c[|c| - 1])
    requires forall j :: 0 <= j < |c| ==> c[j] != '|' && c[j] != '\n'
    ensures CleanCell(c)
  {
  }

  lemma TrafficLabel6()
    ensures CleanCell(TrafficColumn[6])
  {
  }

  lemma TrafficLabel7()
    ensures CleanCell(TrafficColumn[7])
  {
  }

  lemma TrafficClean()
    ensures CleanCells(TrafficColumn)
  {
    TrafficLabel0(); TrafficLabel1(); TrafficLabel2(); TrafficLabel3(); TrafficLabel4(); TrafficLabel5(); TrafficLabel6(); TrafficLabel7();
  }

  /** The heading labels are clean cells, and their row is one the reader
      skips. */
  lemma HeadingsClean(k: Resource)
    ensures |Headings(k)| >= 1 && |Headings(k)[0]| >= 3
    ensures CleanCells(Headings(k))
    ensures SkipRow(Normalize(Headings(k)))
  {
    var h := Headings(k);
    match k
    case Internal => StandardClean();
    case Dmz => StandardClean();
    case External => ExternalClean();
    case Traffic => TrafficClean();
    NormalizeFull(h);
  }

  /** A ruling cell of a left-aligned column at least three wide. */
  lemma RuleCellLeft(w: nat)
    requires w >= 3
    ensures StartsWith(RuleCell(Left, w), ":--")
  {
    var r := RuleCell(Left, w);
    assert r[0] == ':' && r[1] == '-' && r[2] == '-';
    assert r[..3] == ":--";
  }

  lemma RuleLineParts(aligns: seq<Align>, widths: seq<nat>)
    requires |aligns| == |widths| >= 1
    ensures RowParts(Strip(TableLine(RuleRow(aligns, widths)))) == RuleRow(aligns, widths)
    ensures StartsWith(Strip(TableLine(RuleRow(aligns, widths))), "|")
    ensures SectionOf(Strip(TableLine(RuleRow(aligns, widths)))).None?
  {
    RuleCellsClean(aligns, widths);
    TableLineSplit(RuleRow(aligns, widths));
  }

  /** The ruling line of a table whose first column is left-aligned and at
      least three wide starts with ":--", so the reader skips it. */
  lemma StepRuleLine(st: Reader, aligns: seq<Align>, widths: seq<nat>)
    requires Valid(st) && st.current.Some? && st.current.value.ResourceSection?
    requires |aligns| == |widths| >= 1 && aligns[0] == Left && widths[0] >= 3
    ensures Step(st, TableLine(RuleRow(aligns, widths))).Ok?
    ensures Step(st, TableLine(RuleRow(aligns, widths))).value == st
  {
    var rcs := RuleRow(aligns, widths);
    RuleLineParts(aligns, widths);
    RuleCellLeft(widths[0]);
    var parts := Normalize(rcs);
    assert parts[0] == rcs[0];
    StepResourceRow(st, TableLine(rcs), parts);
  }

  /** The heading line of a resource table is read and skipped. */
  lemma StepHeadingLine(st: Reader, k: Resource, aligns: seq<Align>, widths: seq<nat>)
    requires Valid(st) && st.current.Some? && st.current.value.ResourceSection?
    requires |aligns| == |widths| == |Headings(k)|
    ensures Step(st, TableLine(PadRow(aligns, widths, Headings(k)))).Ok?
    ensures Step(st, TableLine(PadRow(aligns, widths, Headings(k)))).value == st
  {
    HeadingsClean(k);
    ReadPaddedRow(aligns, widths, Headings(k));
    StepResourceRow(st, TableLine(PadRow(aligns, widths, Headings(k))), Normalize(Headings(k)));
  }

  /** The alignment every resource writer passes: left, left. */
  function LeftAligned(n: nat): seq<(Align, Align)> {
    FillAlignment(Some(LeftPairs(n)), n)
  }

  /** The lines of a resource table (heading, ruling, data rows and two
      empty lines) add its data rows to the section being read. */
  lemma ReadResourceTable(st: Reader, k: Resource, rows: seq<seq<string>>)
    requires Valid(st) && st.current == Some(ResourceSection(k))
    requires Rectangular(rows, |Headings(k)|)
    requires forall r :: 0 <= r < |rows| ==> DataRow(rows[r])
    ensures ReadLines(st, Render(rows, Headings(k), LeftAligned(|Headings(k)|))).Ok?
    ensures ReadLines(st, Render(rows, Headings(k), LeftAligned(|Headings(k)|))).value == AppendAll(st, Stores(rows))
  {
    var h := Headings(k);
    var n := |h|;
    HeadingsClean(k);
    var al := LeftAligned(n);
    var w := ColumnWidths(rows, h, n);
    var ha := HeadingAligns(al);
    var ca := CellAligns(al);
    assert ca[0] == Left;
    assert w[0] >= |h[0]|;
    var hl := TableLine(PadRow(ha, w, h));
    var rl := TableLine(RuleRow(ca, w));
    var body := RowLines(ca, w, rows);
    var tail := ["", ""];
    assert Render(rows, h, al) == [hl] + [rl] + body + tail;
    Assoc4([hl], [rl], body, tail);
    StepHeadingLine(st, k, ha, w);
    ReadFirst(st, hl, [rl] + (body + tail));
    StepRuleLine(st, ca, w);
    ReadFirst(st, rl, body + tail);
    ReadResourceRows(st, ca, w, rows);
    ReadConcat(st, body, tail);
    ReadTwoEmpty(AppendAll(st, Stores(rows)));
  }

  /** The rows a resource table shows: every row cut or padded to the
      section's heading count. */
  function Shown(k: Resource, data: seq<seq<string>>): (rows: seq<seq<string>>)
    ensures |rows| == |data| && Rectangular(rows, |Headings(k)|)
  {
    PrepareRows(data, |Headings(k)|)
  }

  /** Taking the first `n` fields of rows that all have them is cutting the
      rows to `n` cells. */
  lemma CellsPrefix(records: seq<seq<string>>, n: nat)
    requires FieldsInRange(records, Range(n))
    ensures MdTable.Cells(records, Range(n)) == PrepareRows(records, n)
  {
    var a := MdTable.Cells(records, Range(n));
    var b := PrepareRows(records, n);
    forall r | 0 <= r < |records|
      ensures a[r] == b[r]
    {
      forall i | 0 <= i < n
        ensures a[r][i] == b[r][i]
      {
        assert Range(n)[i] == i;
      }
    }
  }

  /** The table lines of a resource section: none without rows. */
  function TableLines(k: Resource, data: seq<seq<string>>): seq<string> {
    if |data| == 0 then [] else Render(Shown(k, data), Headings(k), LeftAligned(|Headings(k)|))
  }

  /** A resource section is an empty line, its title and the table of its
      shown rows under the section's headings. */
  lemma WriteResourceLines(k: Resource, data: seq<seq<string>>)
    requires WriteResource(k, data).Ok?
    ensures WriteResource(k, data).value == ["", Title(k)] + TableLines(k, data)
  {
    var h := Headings(k);
    var n := |h|;
    var records := if k == Traffic then PrepareRows(data, n) else data;
    var t := Table(records, Range(n), h, Some(LeftPairs(n)));
    if |data| == 0 {
      assert ["", Title(k)] + [] == ["", Title(k)];
    } else if k == Traffic {
      assert FieldsInRange(records, Range(n));
      CellsPrefix(records, n);
      PrepareTwice(data, n);
    } else {
      assert |data[0]| == n;
      assert t.Ok?;
      CellsPrefix(records, n);
    }
  }

  /** Cutting or padding rows that already have `n` cells changes nothing. */
  lemma PrepareTwice(data: seq<seq<string>>, n: nat)
    ensures PrepareRows(PrepareRows(data, n), n) == PrepareRows(data, n)
  {
    var a := PrepareRows(data, n);
    var b := PrepareRows(a, n);
    forall r | 0 <= r < |data|
      ensures b[r] == a[r]
    {
      assert |a[r]| == n;
    }
  }

  lemma TwoThen<T>(x: T, y: T, rest: seq<T>)
    ensures [x, y] + rest == [x] + ([y] + rest)
  {
  }

  /** The empty line and the title open the section afresh. */
  lemma ReadTitleLines(st: Reader, k: Resource, rest: seq<string>)
    requires Valid(st)
    ensures ReadLines(st, ["", Title(k)] + rest)
         == ReadLines(Reader(Some(ResourceSection(k)), st.storage[ResourceSection(k) := []]), rest)
  {
    TwoThen("", Title(k), rest);
    StepEmpty(st);
    ReadFirst(st, "", [Title(k)] + rest);
    StepTitle(st, k);
    ReadFirst(st, Title(k), rest);
  }

  /** The lines of a resource section, read from any reader state: the
      section is opened afresh and holds exactly the shown rows. */
  lemma ReadSectionLines(st: Reader, k: Resource, data: seq<seq<string>>)
    requires Valid(st)
    requires forall r :: 0 <= r < |data| ==> DataRow(Shown(k, data)[r])
    ensures ReadLines(st, ["", Title(k)] + TableLines(k, data)).Ok?
    ensures ReadLines(st, ["", Title(k)] + TableLines(k, data)).value
         == Reader(Some(ResourceSection(k)), st.storage[ResourceSection(k) := Stores(Shown(k, data))])
  {
    var key := ResourceSection(k);
    ReadTitleLines(st, k, TableLines(k, data));
    var st1 := Reader(Some(key), st.storage[key := []]);
    if |data| == 0 {
      assert Stores(Shown(k, data)) == [];
    } else {
      ReadResourceTable(st1, k, Shown(k, data));
      AppendFresh(st.storage, key, Stores(Shown(k, data)));
    }
  }

  /** Adding to a section just opened leaves exactly what was added. */
  lemma AppendFresh(m: map<SectionKey, seq<Stored>>, key: SectionKey, xs: seq<Stored>)
    ensures AppendAll(Reader(Some(key), m[key := []]), xs) == Reader(Some(key), m[key := xs])
  {
    assert [] + xs == xs;
    assert m[key := []][key := xs] == m[key := xs];
  }

  /** Reading what the resource writer wrote, from any reader state. */
  lemma ReadResourceSection(st: Reader, k: Resource, data: seq<seq<string>>)
    requires Valid(st) && WriteResource(k, data).Ok?
    requires forall r :: 0 <= r < |data| ==> DataRow(Shown(k, data)[r])
    ensures ReadLines(st, WriteResource(k, data).value).Ok?
    ensures ReadLines(st, WriteResource(k, data).value).value
         == Reader(Some(ResourceSection(k)), st.storage[ResourceSection(k) := Stores(Shown(k, data))])
  {
    WriteResourceLines(k, data);
    ReadSectionLines(st, k, data);
  }

  // ---------------------------------------------------------------------
  // The file text

  /** The file text is the lines joined by newlines, ending in one. */
  lemma {:induction false} UnlinesJoin(lines: seq<string>)
    ensures Unlines(lines) == Join(lines + [""], "\n")
    decreases |lines|
  {
    if |lines| > 0 {
      UnlinesJoin(lines[1..]);
      ConsFirst(lines[0], lines[1..] + [""]);
      assert lines + [""] == [lines[0]] + (lines[1..] + [""]);
    }
  }

  /** Splitting the file text at newlines gives the lines back, and one
      empty line after the final newline. */
  lemma UnlinesSplit(lines: seq<string>)
    requires SingleLines(lines)
    ensures Split(Unlines(lines), "\n") == lines + [""]
  {
    UnlinesJoin(lines);
    SplitJoinChar(lines + [""], '\n');
  }

  lemma TableLineAvoids(cells: seq<string>, c: char)
    requires c != ' ' && c != '|'
    requires forall i :: 0 <= i < |cells| ==> c !in cells[i]
    ensures c !in TableLine(cells)
  {
    JoinAvoids(cells, " | ", c);
    var raw := "| " + Join(cells, " | ") + " |";
    assert TableLine(cells) == raw[..|TableLine(cells)|];
  }

  lemma PaddedLineAvoids(aligns: seq<Align>, widths: seq<nat>, cells: seq<string>, c: char)
    requires |aligns| == |widths| == |cells|
    requires c != ' ' && c != '|'
    requires forall i :: 0 <= i < |cells| ==> c !in cells[i]
    ensures c !in TableLine(PadRow(aligns, widths, cells))
  {
    var pcs := PadRow(aligns, widths, cells);
    forall i | 0 <= i < |cells|
      ensures c !in pcs[i]
    {
      PadCellAvoids(aligns[i], widths[i], cells[i], c);
    }
    TableLineAvoids(pcs, c);
  }

  lemma TitleSingleLine(k: Resource)
    ensures '\n' !in Title(k)
  {
    match k
    case Internal => assert '\n' !in InternalHead;
    case Dmz => assert '\n' !in DmzHead;
    case External => assert '\n' !in ExternalHead;
    case Traffic =>
  }

  /** The heading line, the ruling and the row lines of a table, and the
      two empty lines after them. */
  lemma RenderParts(rows: seq<seq<string>>, h: seq<string>, al: seq<(Align, Align)>)
    requires Rectangular(rows, |al|) && |h| == |al| >= 1
    ensures var w := ColumnWidths(rows, h, |al|);
      Render(rows, h, al)
        == [TableLine(PadRow(HeadingAligns(al), w, h))] + [TableLine(RuleRow(CellAligns(al), w))]
           + RowLines(CellAligns(al), w, rows) + ["", ""]
  {
  }

  /** A line sequence none of whose lines holds a newline. */
  predicate SingleLines(lines: seq<string>) {
    forall i :: 0 <= i < |lines| ==> '\n' !in lines[i]
  }

  lemma SingleLinesJoin(a: seq<string>, b: seq<string>)
    requires SingleLines(a) && SingleLines(b)
    ensures SingleLines(a + b)
  {
    forall i | 0 <= i < |a + b|
      ensures '\n' !in (a + b)[i]
    {
      if i >= |a| {
        assert (a + b)[i] == b[i - |a|];
      }
    }
  }

  lemma RowLinesSingle(aligns: seq<Align>, widths: seq<nat>, rows: seq<seq<string>>)
    requires |aligns| == |widths| && Rectangular(rows, |widths|)
    requires forall r :: 0 <= r < |rows| ==> CleanCells(rows[r])
    ensures SingleLines(RowLines(aligns, widths, rows))
  {
    forall r | 0 <= r < |rows|
      ensures '\n' !in RowLines(aligns, widths, rows)[r]
    {
      PaddedLineAvoids(aligns, widths, rows[r], '\n');
    }
  }

  lemma RuleLineSingle(aligns: seq<Align>, w: seq<nat>)
    requires |aligns| == |w|
    ensures '\n' !in TableLine(RuleRow(aligns, w))
  {
    RuleCellsClean(aligns, w);
    TableLineAvoids(RuleRow(aligns, w), '\n');
  }

  lemma HeadRuleSingle(h: seq<string>, al: seq<(Align, Align)>, w: seq<nat>)
    requires |h| == |al| == |w| && CleanCells(h)
    ensures SingleLines([TableLine(PadRow(HeadingAligns(al), w, h))] + [TableLine(RuleRow(CellAligns(al), w))])
  {
    PaddedLineAvoids(HeadingAligns(al), w, h, '\n');
    RuleLineSingle(CellAligns(al), w);
  }

  /** No line of a rendered table of clean cells holds a newline. */
  lemma RenderSingleLine(rows: seq<seq<string>>, h: seq<string>, al: seq<(Align, Align)>)
    requires Rectangular(rows, |al|) && |h| == |al| >= 1
    requires CleanCells(h) && forall r :: 0 <= r < |rows| ==> CleanCells(rows[r])
    ensures SingleLines(Render(rows, h, al))
  {
    var w := ColumnWidths(rows, h, |al|);
    var head := [TableLine(PadRow(HeadingAligns(al), w, h))] + [TableLine(RuleRow(CellAligns(al), w))];
    var body := RowLines(CellAligns(al), w, rows);
    RenderParts(rows, h, al);
    HeadRuleSingle(h, al, w);
    RowLinesSingle(CellAligns(al), w, rows);
    SingleLinesJoin(head, body);
    SingleLinesJoin(head + body, ["", ""]);
  }

  /** No line of a written resource section holds a newline. */
  lemma SectionSingleLine(k: Resource, data: seq<seq<string>>)
    requires forall r :: 0 <= r < |data| ==> CleanCells(Shown(k, data)[r])
    ensures SingleLines(["", Title(k)] + TableLines(k, data))
  {
    TitleSingleLine(k);
    if |data| > 0 {
      HeadingsClean(k);
      RenderSingleLine(Shown(k, data), Headings(k), LeftAligned(|Headings(k)|));
    }
    SingleLinesJoin(["", Title(k)], TableLines(k, data));
  }

  /** `convert_md_to_dict` on the text of lines that hold no newline is what
      reading those lines gives. */
  lemma ConvertLines(lines: seq<string>)
    requires SingleLines(lines)
    requires ReadLines(Start, lines).Ok?
    ensures ConvertMdToDict(Unlines(lines)).Some?
    ensures ConvertMdToDict(Unlines(lines)).value == ReadLines(Start, lines).value.storage
  {
    UnlinesSplit(lines);
    var parts := Split(Unlines(lines), "\n");
    assert parts == lines + [""];
    ReadConcat(Start, lines, [""]);
    var st := ReadLines(Start, lines).value;
    ReadOneEmpty(st);
    assert ReadLines(Start, parts).Ok? && ReadLines(Start, parts).value == st;
  }

  lemma ReadOneEmpty(st: Reader)
    requires Valid(st)
    ensures ReadLines(st, [""]).Ok? && ReadLines(st, [""]).value == st
  {
    StepEmpty(st);
    ReadFirst(st, "", []);
    assert [""] + [] == [""];
  }

  /** `convert_md_to_dict` on the file of one written resource section
      gives back that section, holding exactly its shown rows. */
  lemma ConvertResourceFile(k: Resource, data: seq<seq<string>>)
    requires WriteResource(k, data).Ok?
    requires forall r :: 0 <= r < |data| ==> DataRow(Shown(k, data)[r])
    ensures ConvertMdToDict(Unlines(WriteResource(k, data).value)).Some?
    ensures ConvertMdToDict(Unlines(WriteResource(k, data).value)).value
         == map[ResourceSection(k) := Stores(Shown(k, data))]
  {
    var lines := WriteResource(k, data).value;
    WriteResourceLines(k, data);
    SectionSingleLine(k, data);
    ReadResourceSection(Start, k, data);
    ConvertLines(lines);
    assert Start.storage[ResourceSection(k) := Stores(Shown(k, data))] == map[ResourceSection(k) := Stores(Shown(k, data))];
  }
}

=== FILE: md_table.dfy ===
/** The Markdown writer of the owner-list utilities: the generic `table`
    renderer and the five section writers that turn an access list's form
    data into the `.md` file kept in the repository.

    A written document is modelled as its sequence of lines; every `write`
    of the source ends its text with a newline, so the file is each line
    followed by "\n" (see `Unlines`). */
module MdTable {
  import opened Wrappers
  import opened Strings

  // ---------------------------------------------------------------------
  // Cells

  /** The alignment characters '<', '^' and '>'. */
  datatype Align = Left | Center | Right

  /** Python's `c * n`: no characters at all when `n` is not positive. */
  function Repeat(c: char, n: int): (r: string)
    ensures |r| == if n > 0 then n else 0
    ensures forall i :: 0 <= i < |r| ==> r[i] == c
    decreases if n > 0 then n else 0
  {
    if n <= 0 then "" else [c] + Repeat(c, n - 1)
  }

  function Max(a: int, b: int): int {
    if a < b then b else a
  }

  /** Nothing but the space character. */
  predicate Blank(s: string) {
    forall i :: 0 <= i < |s| ==> s[i] == ' '
  }

  /** Python's `"{:<w}"`, `"{:^w}"` and `"{:>w}"` applied to text: pad with
      spaces up to width `w`; centring puts the smaller half on the left. */
  function PadCell(a: Align, w: nat, s: string): (r: string)
    ensures |r| == Max(w, |s|)
    ensures var lead := PadLead(a, w, s);
      && lead + |s| <= |r|
      && r[lead..lead + |s|] == s
      && Blank(r[..lead]) && Blank(r[lead + |s|..])
  {
    var gap := if w > |s| then w - |s| else 0;
    var lead := PadLead(a, w, s);
    var r := Repeat(' ', lead) + s + Repeat(' ', gap - lead);
    assert r[..lead] == Repeat(' ', lead);
    assert r[lead..lead + |s|] == s;
    assert r[lead + |s|..] == Repeat(' ', gap - lead);
    r
  }

  /** How many padding spaces go before the text. */
  function PadLead(a: Align, w: nat, s: string): (lead: nat)
    ensures lead <= (if w > |s| then w - |s| else 0)
  {
    var gap := if w > |s| then w - |s| else 0;
    match a
    case Left => 0
    case Center => gap / 2
    case Right => gap
  }

  /** `left_rule` and `right_rule`: the colons that mark a column's alignment
      in the ruling line. */
  function LeftRule(a: Align): char {
    if a == Right then '-' else ':'
  }

  function RightRule(a: Align): char {
    if a == Left then '-' else ':'
  }

  /** One cell of the ruling line for a column of width `w`. */
  function RuleCell(a: Align, w: nat): (r: string)
    ensures |r| == Max(w, 2)
    ensures r[0] == ':' <==> a != Right
    ensures r[|r| - 1] == ':' <==> a != Left
    ensures forall i :: 0 < i < |r| - 1 ==> r[i] == '-'
  {
    [LeftRule(a)] + Repeat('-', w - 2) + [RightRule(a)]
  }

  /** A table line: the cells between "| ", " | " and " |", right-stripped. */
  function TableLine(cells: seq<string>): string {
    RStrip("| " + Join(cells, " | ") + " |")
  }

  // ---------------------------------------------------------------------
  // Columns

  /** The width of the longest text, 0 for none. */
  function MaxLen(cells: seq<string>): (m: nat)
    ensures forall i :: 0 <= i < |cells| ==> |cells[i]| <= m
    ensures |cells| == 0 ==> m == 0
    ensures |cells| > 0 ==> exists i :: 0 <= i < |cells| && |cells[i]| == m
  {
    if |cells| == 0 then 0
    else
      var rest := MaxLen(cells[1..]);
      assert forall i :: 1 <= i < |cells| ==> cells[i] == cells[1..][i - 1];
      if |cells[0]| >= rest then |cells[0]| else rest
  }

  predicate Rectangular(rows: seq<seq<string>>, n: nat) {
    forall r :: 0 <= r < |rows| ==> |rows[r]| == n
  }

  function Column(rows: seq<seq<string>>, n: nat, i: nat): (col: seq<string>)
    requires Rectangular(rows, n) && i < n
    ensures |col| == |rows| && forall r :: 0 <= r < |rows| ==> col[r] == rows[r][i]
  {
    seq(|rows|, r requires 0 <= r < |rows| => rows[r][i])
  }

  /** `field_widths`: the longest cell of every column. */
  function FieldWidths(rows: seq<seq<string>>, n: nat): (ws: seq<nat>)
    requires Rectangular(rows, n)
    ensures |ws| == n
    ensures forall i, r :: 0 <= i < n && 0 <= r < |rows| ==> |rows[r][i]| <= ws[i]
  {
    seq(n, i requires 0 <= i < n => MaxLen(Column(rows, n, i)))
  }

  /** `column_widths`: each column is as wide as its widest cell and, when
      there are headings, its heading, but never narrower than 2 then. */
  function ColumnWidths(rows: seq<seq<string>>, headings: seq<string>, n: nat): (ws: seq<nat>)
    requires Rectangular(rows, n)
    requires |headings| == 0 || |headings| == n
    ensures |ws| == n
    ensures forall i, r :: 0 <= i < n && 0 <= r < |rows| ==> |rows[r][i]| <= ws[i]
    ensures |headings| > 0 ==> forall i :: 0 <= i < n ==> |headings[i]| <= ws[i] && 2 <= ws[i]
  {
    var fw := FieldWidths(rows, n);
    seq(n, i requires 0 <= i < n =>
      if |headings| > 0 then Max(fw[i], Max(|headings[i]|, 2)) else fw[i])
  }

  function PadRow(aligns: seq<Align>, widths: seq<nat>, cells: seq<string>): (padded: seq<string>)
    requires |aligns| == |widths| == |cells|
    ensures |padded| == |cells|
    ensures forall i :: 0 <= i < |cells| ==> padded[i] == PadCell(aligns[i], widths[i], cells[i])
  {
    seq(|cells|, i requires 0 <= i < |cells| => PadCell(aligns[i], widths[i], cells[i]))
  }

  function RuleRow(aligns: seq<Align>, widths: seq<nat>): (cells: seq<string>)
    requires |aligns| == |widths|
    ensures |cells| == |widths|
    ensures forall i :: 0 <= i < |widths| ==> cells[i] == RuleCell(aligns[i], widths[i])
  {
    seq(|widths|, i requires 0 <= i < |widths| => RuleCell(aligns[i], widths[i]))
  }

  // ---------------------------------------------------------------------
  // table()

  /** Every record reaches every field index (`str(record[i])` does not raise). */
  predicate FieldsInRange(records: seq<seq<string>>, fields: seq<nat>) {
    forall r, i :: 0 <= r < |records| && 0 <= i < |fields| ==> fields[i] < |records[r]|
  }

  /** The cell texts, one row per record and one column per field. */
  function Cells(records: seq<seq<string>>, fields: seq<nat>): (rows: seq<seq<string>>)
    requires FieldsInRange(records, fields)
    ensures |rows| == |records| && Rectangular(rows, |fields|)
    ensures forall r, i :: 0 <= r < |records| && 0 <= i < |fields| ==> rows[r][i] == records[r][fields[i]]
  {
    seq(|records|, r requires 0 <= r < |records| =>
      seq(|fields|, i requires 0 <= i < |fields| => records[r][fields[i]]))
  }

  /** The lines `table` writes once its inputs have passed every check:
      the heading line when there are headings, the ruling, one line per
      record, and two empty lines. */
  function Render(rows: seq<seq<string>>, headings: seq<string>, aligns: seq<(Align, Align)>): (lines: seq<string>)
    requires Rectangular(rows, |aligns|)
    requires |headings| == 0 || |headings| == |aligns|
    ensures |lines| == (if |headings| > 0 then 1 else 0) + 1 + |rows| + 2
  {
    var n := |aligns|;
    var w := ColumnWidths(rows, headings, n);
    (if |headings| > 0 then [TableLine(PadRow(HeadingAligns(aligns), w, headings))] else [])
    + [TableLine(RuleRow(CellAligns(aligns), w))]
    + RowLines(CellAligns(aligns), w, rows)
    + ["", ""]
  }

  function HeadingAligns(aligns: seq<(Align, Align)>): (r: seq<Align>)
    ensures |r| == |aligns| && forall i :: 0 <= i < |aligns| ==> r[i] == aligns[i].0
  {
    seq(|aligns|, i requires 0 <= i < |aligns| => aligns[i].0)
  }

  function CellAligns(aligns: seq<(Align, Align)>): (r: seq<Align>)
    ensures |r| == |aligns| && forall i :: 0 <= i < |aligns| ==> r[i] == aligns[i].1
  {
    seq(|aligns|, i requires 0 <= i < |aligns| => aligns[i].1)
  }

  /** One table line per row of cells. */
  function RowLines(aligns: seq<Align>, widths: seq<nat>, rows: seq<seq<string>>): (lines: seq<string>)
    requires |aligns| == |widths| && Rectangular(rows, |widths|)
    ensures |lines| == |rows|
    ensures forall r :: 0 <= r < |rows| ==> lines[r] == TableLine(PadRow(aligns, widths, rows[r]))
  {
    seq(|rows|, r requires 0 <= r < |rows| => TableLine(PadRow(aligns, widths, rows[r])))
  }

  /** Alignment pairs filled out to exactly `n` columns: extra pairs are
      dropped and missing ones default to a centred heading over
      left-aligned cells. */
  function FillAlignment(alignment: Option<seq<(Align, Align)>>, n: nat): (ext: seq<(Align, Align)>)
    ensures |ext| == n
    ensures forall i :: 0 <= i < n ==>
      ext[i] == if i < |alignment.GetOr([])| then alignment.GetOr([])[i] else (Center, Left)
  {
    var given := alignment.GetOr([]);
    if |given| >= n then given[..n]
    else given + seq(n - |given|, _ => (Center, Left))
  }

  /** The checks `table` makes before it writes anything, in source order:
      the heading count, the fields of every record, and a non-empty column
      list (`zip(*[])` cannot be unpacked into two). */
  function Checked(records: seq<seq<string>>, fields: seq<nat>, headings: seq<string>): (r: Result<()>)
  {
    if |headings| > 0 && |headings| != |fields| then Raise(AssertionError)
    else if !FieldsInRange(records, fields) then Raise(IndexError)
    else if |fields| == 0 then Raise(ValueError)
    else Ok(())
  }

  /** `table` with missing alignment pairs filled in, as its own comment
      describes. */
  function Table(records: seq<seq<string>>, fields: seq<nat>, headings: seq<string>,
                 alignment: Option<seq<(Align, Align)>>): (r: Result<seq<string>>)
    ensures r == Raise(AssertionError) <==> |headings| > 0 && |headings| != |fields|
    ensures r == Raise(IndexError) <==> (|headings| == 0 || |headings| == |fields|) && !FieldsInRange(records, fields)
    ensures r.Ok? <==> (|headings| == 0 || |headings| == |fields|) && FieldsInRange(records, fields) && |fields| > 0
    ensures r.Ok? ==> |r.value| == (if |headings| > 0 then 1 else 0) + 1 + |records| + 2
    ensures r.Ok? ==> r.value[|r.value| - 2] == "" && r.value[|r.value| - 1] == ""
  {
    var c := Checked(records, fields, headings);
    if c.Raise? then Raise(c.exc)
    else
      var rows := Cells(records, fields);
      Ok(Render(rows, headings, FillAlignment(alignment, |fields|)))
  }

  /** `table` as written: the missing pairs are built with `range[...]`,
      which raises `TypeError`, so any alignment list shorter than the field
      list (including none at all) fails once the other checks pass. */
  function TableAsWritten(records: seq<seq<string>>, fields: seq<nat>, headings: seq<string>,
                          alignment: Option<seq<(Align, Align)>>): (r: Result<seq<string>>)
    ensures r == Raise(TypeError) <==>
      Checked(records, fields, headings).Ok? && |alignment.GetOr([])| < |fields|
  {
    var c := Checked(records, fields, headings);
    if c.Raise? then Raise(c.exc)
    else if |alignment.GetOr([])| < |fields| then Raise(TypeError)
    else
      var rows := Cells(records, fields);
      Ok(Render(rows, headings, FillAlignment(alignment, |fields|)))
  }

  /** With an alignment pair for every field the two versions agree. */
  lemma TableAsWrittenAgrees(records: seq<seq<string>>, fields: seq<nat>, headings: seq<string>,
                             alignment: Option<seq<(Align, Align)>>)
    requires |alignment.GetOr([])| >= |fields|
    ensures TableAsWritten(records, fields, headings, alignment) == Table(records, fields, headings, alignment)
  {
  }

  /** A one-column table without an alignment list: the corrected table is
      written, the code as written raises. */
  lemma TableAsWrittenRejectsDefaults()
    ensures TableAsWritten([["a"]], [0], [], None) == Raise(TypeError)
    ensures Table([["a"]], [0], [], None).Ok?
  {
    assert FieldsInRange([["a"]], [0]);
  }

  // ---------------------------------------------------------------------
  // The section writers

  const ContactColumn: seq<string> := ["Параметр", "Значение"]

  /** The labels of the access list's contact block, one per entry of the
      create-info data. */
  const ContactTable: seq<string> := [
    "ФИО", "E-mail", "Телефон", "Отдел/Управление", "Информационная система",
    "Описание/архитектура проекта", "Дата заполнения", "Дата ввода в эксплуатацию",
    "Дата вывода из эксплуатации", "Имя файла ACL в gitlab"
  ]

  const StandardColumn: seq<string> := ["IP-адрес", "Маска подсети/Префикс", "Описание"]

  const ExternalColumn: seq<string> := ["IP-адрес", "Полное доменное имя источника", "Маска подсети/Префикс", "Описание"]

  const TrafficColumn: seq<string> := [
    "Hostname (Источник)", "IP Address (Источник)", "Hostname (Назначение)",
    "IP Address (Назначение)", "Protocol/Port (Назначение)",
    "ПО использующее нестандартный порт", "Описание (цель)", "Этот доступ резервный?"
  ]

  /** The section titles. The reader recognises the three resource lists
      by the part before the parenthesis, kept apart here as `...Head`. */
  const CreateInfoTitle: string := "##### Описание доступа к ресурсам"
  const InternalHead: string := "##### Список внутренних ресурсов"
  const InternalTitle: string := InternalHead + " (СГ АльфаСтрахование)"
  const DmzHead: string := "##### Список DMZ ресурсов"
  const DmzTitle: string := DmzHead + " (СГ АльфаСтрахование)"
  const ExternalHead: string := "##### Список внешних ресурсов"
  const ExternalTitle: string := ExternalHead + " (Internet)"
  const TrafficTitle: string := "##### Потоки трафика"

  /** The four row-table sections of an access list. */
  datatype Resource = Internal | Dmz | External | Traffic

  function Title(k: Resource): string {
    match k
    case Internal => InternalTitle
    case Dmz => DmzTitle
    case External => ExternalTitle
    case Traffic => TrafficTitle
  }

  function Headings(k: Resource): seq<string> {
    match k
    case Internal => StandardColumn
    case Dmz => StandardColumn
    case External => ExternalColumn
    case Traffic => TrafficColumn
  }

  function Range(n: nat): (r: seq<nat>)
    ensures |r| == n && forall i :: 0 <= i < n ==> r[i] == i
  {
    seq(n, i requires 0 <= i < n => i)
  }

  function LeftPairs(n: nat): (ps: seq<(Align, Align)>)
    ensures |ps| == n && forall i :: 0 <= i < n ==> ps[i] == (Left, Left)
  {
    seq(n, _ => (Left, Left))
  }

  /** `prepare_data_for_table`: every row cut or padded with empty cells to
      `n` cells. */
  function PrepareRows(rows: seq<seq<string>>, n: nat): (out: seq<seq<string>>)
    ensures |out| == |rows| && Rectangular(out, n)
    ensures forall r, i :: 0 <= r < |rows| && 0 <= i < n ==>
      out[r][i] == if i < |rows[r]| then rows[r][i] else ""
  {
    seq(|rows|, r requires 0 <= r < |rows| =>
      var row := rows[r];
      if |row| >= n then row[..n] else row + seq(n - |row|, _ => ""))
  }

  /** `md_write_acl_create_info`: a level-two title from the fifth entry
      (which must exist), the section title, and a two-column table pairing
      each contact label with its entry. */
  function WriteCreateInfo(data: seq<string>): (r: Result<seq<string>>)
    ensures r.Raise? <==> |data| < 5
    ensures r.Ok? ==> |r.value| == 2 + 1 + 1 + (if |data| < |ContactTable| then |data| else |ContactTable|) + 2
    ensures r.Ok? ==> r.value[0] == "## " + data[4] && r.value[1] == CreateInfoTitle
  {
    if |data| < 5 then Raise(IndexError)
    else
      var records := ContactRecords(data);
      ContactTableOk(records);
      var t := Table(records, [0, 1], ContactColumn, Some(LeftPairs(|ContactColumn|)));
      Ok(["## " + data[4], CreateInfoTitle] + t.value)
  }

  /** Each contact label paired with its entry, as far as both go. */
  function ContactRecords(data: seq<string>): (records: seq<seq<string>>)
    ensures |records| == if |data| < |ContactTable| then |data| else |ContactTable|
    ensures forall i :: 0 <= i < |records| ==> records[i] == [ContactTable[i], data[i]]
  {
    var n := if |data| < |ContactTable| then |data| else |ContactTable|;
    seq(n, i requires 0 <= i < n => [ContactTable[i], data[i]])
  }

  /** Two-cell records always make a two-column table. */
  lemma ContactTableOk(records: seq<seq<string>>)
    requires forall i :: 0 <= i < |records| ==> |records[i]| == 2
    ensures Table(records, [0, 1], ContactColumn, Some(LeftPairs(|ContactColumn|))).Ok?
    ensures |Table(records, [0, 1], ContactColumn, Some(LeftPairs(|ContactColumn|))).value| == |records| + 4
  {
    assert |ContactColumn| == 2;
    assert FieldsInRange(records, [0, 1]);
  }

  /** `md_write_acl_internal_resources`, `..._dmz_...` and
      `..._external_...`: an empty line and the section title, then, when
      there are rows, a table with one column per cell of the first row
      under the section's headings (so the first row must have exactly as
      many cells as there are headings, and no row fewer). The traffic
      writer first cuts or pads every row to the eight traffic columns. */
  function WriteResource(k: Resource, data: seq<seq<string>>): (r: Result<seq<string>>)
    ensures k != Traffic && |data| > 0 && |data[0]| != |Headings(k)| ==> r == Raise(AssertionError)
    ensures k == Traffic ==> r.Ok?
    ensures r.Ok? ==> |r.value| == (if |data| == 0 then 2 else 2 + 2 + |data| + 2)
    ensures r.Ok? ==> r.value[..2] == ["", Title(k)]
  {
    var head := ["", Title(k)];
    if |data| == 0 then Ok(head)
    else
      var h := Headings(k);
      var width := if k == Traffic then |TrafficColumn| else |data[0]|;
      var records := if k == Traffic then PrepareRows(data, |TrafficColumn|) else data;
      var t := Table(records, Range(width), h, Some(LeftPairs(|h|)));
      if t.Raise? then Raise(t.exc)
      else Ok(head + t.value)
  }

  /** The form data of an access list, one entry per section key of the
      JSON object the writer receives; keys it does not know are skipped. */
  datatype SectionData =
    | CreateInfo(values: seq<string>)
    | Rows(kind: Resource, rows: seq<seq<string>>)
    | Unknown

  /** `create_markdown_file`: the sections written in order; any exception
      makes the whole call report failure (`False`). */
  function CreateMarkdown(items: seq<SectionData>): (r: Option<seq<string>>)
    ensures r.Some? ==> forall i :: 0 <= i < |items| && items[i].CreateInfo? ==> |items[i].values| >= 5
    ensures (forall i :: 0 <= i < |items| ==> WriteSection(items[i]).Ok?) <==> r.Some?
  {
    if |items| == 0 then Some([])
    else
      match WriteSection(items[0])
      case Raise(_) => None
      case Ok(first) =>
        match CreateMarkdown(items[1..])
        case None => None
        case Some(rest) => Some(first + rest)
  }

  function WriteSection(item: SectionData): Result<seq<string>> {
    match item
    case CreateInfo(values) => WriteCreateInfo(values)
    case Rows(k, rows) => WriteResource(k, rows)
    case Unknown => Ok([])
  }

  /** The file text: every line followed by a newline. */
  function Unlines(lines: seq<string>): string {
    if |lines| == 0 then "" else lines[0] + "\n" + Unlines(lines[1..])
  }
}

=== FILE: omni.dfy ===
/** The replies of the OmniTracker service desk, as the portal reads them:
    the value a SOAP reply carries after its `strResponse` marker, the
    ticket number a new incident gets, the ticket state mapped to an
    access-list status, the ticket number found for an access list, and the
    progress notes the portal keeps per background task. The HTTP transport
    is not modelled: each call attempt arrives as an `Attempt`. */
module Omni {
  import opened Wrappers
  import opened Strings

  /** The two spellings of the marker that precedes a reply's value, and
      the text that ends the value. */
  const Marker: string := "strResponse\">"
  const BareMarker: string := "strResponse>"
  const Closing: string := "</"
  const MarkerWord: string := "strResponse"

  /** One call attempt: a reply with status 200 and its body, a reply with
      any other status, or an exception (timeout, refused connection). */
  datatype Attempt = Answer(text: string) | OtherStatus | Failure

  lemma MarkersShape()
    ensures LastCharUnique(Marker) && LastCharUnique(BareMarker) && LastCharUnique(Closing)
  {
  }

  /** `text.split(marker)[1].split("</")[0]`, or `None` when the split has a
      single part. */
  function After(text: string, marker: string): (r: Option<string>)
    requires |marker| > 0
    ensures r.Some? <==> Contains(text, marker)
    ensures r.Some? ==> !Contains(r.value, Closing)
  {
    var parts := Split(text, marker);
    if |parts| > 1 then Some(Split(parts[1], Closing)[0]) else None
  }

  /** A reply body carrying `value` once, between the marker and "</". */
  function Envelope(pre: string, value: string, post: string): string {
    pre + Marker + value + Closing + post
  }

  /** The marker occurs only where the envelope puts it, and the value does
      not contain the closing text. */
  predicate WellFormed(pre: string, value: string, post: string) {
    !Contains(pre, Marker) && !Contains(value + Closing + post, Marker) && !Contains(value, Closing)
  }

  /** Reading an envelope gives back the value it carries. */
  lemma AfterEnvelope(pre: string, value: string, post: string)
    requires WellFormed(pre, value, post)
    ensures After(Envelope(pre, value, post), Marker).Some?
    ensures After(Envelope(pre, value, post), Marker).value == value
  {
    MarkersShape();
    var rest := value + Closing + post;
    assert Envelope(pre, value, post) == pre + Marker + rest;
    SplitAfter(pre, Marker, rest);
    SplitAbsent(rest, Marker);
    SplitAfter(value, Closing, post);
  }

  /** An envelope is long enough to be read, and mentions the marker word. */
  lemma EnvelopeMentionsMarker(pre: string, value: string, post: string)
    ensures |Envelope(pre, value, post)| > 3
    ensures Contains(Envelope(pre, value, post), MarkerWord)
  {
    var s := Envelope(pre, value, post);
    assert s[|pre|..|pre| + |MarkerWord|] == MarkerWord;
    assert OccursAt(s, MarkerWord, |pre|);
  }

  /** The index of the first attempt that got a reply with status 200. */
  function FirstAnswer(attempts: seq<Attempt>): (r: Option<nat>)
    ensures r.Some? ==> r.value < |attempts| && attempts[r.value].Answer?
    ensures r.Some? ==> forall i :: 0 <= i < r.value ==> !attempts[i].Answer?
    ensures r.None? ==> forall i :: 0 <= i < |attempts| ==> !attempts[i].Answer?
  {
    if |attempts| == 0 then None
    else if attempts[0].Answer? then Some(0)
    else
      match FirstAnswer(attempts[1..])
      case None => None
      case Some(i) => Some(i + 1)
  }

  // ---------------------------------------------------------------------
  // Creating an incident: `send_onmitracker` and `celery_send_omnitracker`.

  /** `send_onmitracker` on a reply with status 200: when the text is longer
      than 3 characters and mentions `strResponse`, the value after the
      quoted marker, else after the bare one, else nothing; otherwise the
      whole text. A value that is empty or missing is reported as 0, which
      the model writes `None`. */
  function TicketOfText(text: string): (r: Option<string>)
    ensures r.Some? ==> r.value != ""
  {
    var result :=
      if |text| > 3 && Contains(text, MarkerWord) then
        match After(text, Marker)
        case Some(v) => v
        case None => After(text, BareMarker).GetOr("")
      else text;
    if result == "" then None else Some(result)
  }

  /** `send_onmitracker`: the first reply with status 200 decides; when no
      attempt gets one the result is 0 (`None`). */
  function SendTicket(attempts: seq<Attempt>): (r: Option<string>)
    ensures r.Some? ==> r.value != ""
    ensures FirstAnswer(attempts).None? ==> r.None?
  {
    match FirstAnswer(attempts)
    case None => None
    case Some(i) => TicketOfText(attempts[i].text)
  }

  /** `celery_send_omnitracker` on a reply with status 200: the same reading,
      except that the text is returned even when empty, and a text that
      mentions `strResponse` without either marker gives `None`. */
  function CeleryTicketOfText(text: string): (r: Option<string>)
  {
    if |text| > 3 && Contains(text, MarkerWord) then
      match After(text, Marker)
      case Some(v) => Some(v)
      case None => After(text, BareMarker)
    else Some(text)
  }

  /** `celery_send_omnitracker`: the first reply with status 200 decides;
      `None` when no attempt gets one. */
  function CelerySendTicket(attempts: seq<Attempt>): (r: Option<string>)
    ensures FirstAnswer(attempts).None? ==> r.None?
  {
    match FirstAnswer(attempts)
    case None => None
    case Some(i) => CeleryTicketOfText(attempts[i].text)
  }

  /** The two readings agree on every reply, except that only the Celery
      one passes an empty value on. */
  lemma TicketReadingsAgree(text: string)
    ensures TicketOfText(text).Some? <==>
      CeleryTicketOfText(text).Some? && CeleryTicketOfText(text).value != ""
    ensures TicketOfText(text).Some? ==> TicketOfText(text).value == CeleryTicketOfText(text).value
  {
  }

  /** A well-formed reply with a non-empty value yields that value as the
      ticket, through either reading. */
  lemma TicketOfEnvelope(pre: string, value: string, post: string)
    requires WellFormed(pre, value, post)
    ensures CeleryTicketOfText(Envelope(pre, value, post)).Some?
    ensures CeleryTicketOfText(Envelope(pre, value, post)).value == value
    ensures TicketOfText(Envelope(pre, value, post)).Some? <==> value != ""
    ensures value != "" ==> TicketOfText(Envelope(pre, value, post)).value == value
  {
    EnvelopeMentionsMarker(pre, value, post);
    AfterEnvelope(pre, value, post);
  }

  /** Attempts that fail before the first reply with status 200 do not
      change the ticket that reply carries. */
  lemma SendTicketAfterFailures(failed: seq<Attempt>, text: string, later: seq<Attempt>)
    requires forall i :: 0 <= i < |failed| ==> !failed[i].Answer?
    ensures SendTicket(failed + [Answer(text)] + later) == TicketOfText(text)
    ensures CelerySendTicket(failed + [Answer(text)] + later) == CeleryTicketOfText(text)
  {
    var all := failed + [Answer(text)] + later;
    assert all[|failed|] == Answer(text);
    assert forall i :: 0 <= i < |failed| ==> all[i] == failed[i];
  }

  // ---------------------------------------------------------------------
  // The state of a ticket: `omni_check_status`.

  /** `OMNI_ACL_STATUS`: ticket states to access-list statuses. */
  const AclStatusOf: map<string, string> := map[
    "inProgress" := "JOB", "Done" := "CMP", "Closed" := "CMP", "Assigned" := "JOB",
    "Registered" := "JOB", "RejectedByUser" := "CNL", "" := "UNK"]

  /** `OMNI_HTTP_STATUS`: ticket states to the text shown to users. */
  const HttpStatusOf: map<string, string> := map[
    "inProgress" := "В работе", "Done" := "Выполнено", "Closed" := "Закрыто",
    "Assigned" := "На исполнении", "Registered" := "Новое", "RejectedByUser" := "Отклолено",
    "UNK" := "Статус не известен", "" := "Статус не известен"]

  /** Python's `m.get(k)`. */
  function Lookup(m: map<string, string>, k: string): (r: Option<string>)
    ensures r.Some? <==> k in m
    ensures r.Some? ==> r.value == m[k]
  {
    if k in m then Some(m[k]) else None
  }

  /** The key a reply with status 200 is looked up by: a text longer than 3
      characters must carry the quoted marker (otherwise the `IndexError` is
      caught, `None` here), a shorter one is its own key. */
  function StateKey(text: string): (r: Option<string>)
    ensures |text| <= 3 ==> r.Some? && r.value == text
    ensures |text| > 3 ==> (r.Some? <==> Contains(text, Marker))
  {
    if |text| > 3 then After(text, Marker) else Some(text)
  }

  /** The pair of lookups a reply with status 200 returns. */
  datatype StatePair = StatePair(acl: Option<string>, http: Option<string>)

  function StateOfText(text: string): (r: StatePair)
    ensures StateKey(text).None? ==> r.acl.None? && r.http.None?
  {
    match StateKey(text)
    case None => StatePair(None, None)
    case Some(k) => StatePair(Lookup(AclStatusOf, k), Lookup(HttpStatusOf, k))
  }

  /** The statuses a ticket state can map to. */
  predicate RemoteStatus(s: string) {
    s == "JOB" || s == "CMP" || s == "CNL" || s == "UNK"
  }

  /** A state the portal maps to a status also has a text for users, the
      status is one of four, and "UNK" comes exactly from an empty state. */
  lemma StateRange(text: string)
    ensures StateOfText(text).acl.Some? ==>
      RemoteStatus(StateOfText(text).acl.value) && StateOfText(text).http.Some?
    ensures StateOfText(text).acl.Some? && StateOfText(text).acl.value == "UNK" <==>
      StateKey(text).Some? && StateKey(text).value == ""
  {
  }

  /** A well-formed reply is looked up by the value it carries. */
  lemma StateOfEnvelope(pre: string, value: string, post: string)
    requires WellFormed(pre, value, post)
    ensures StateOfText(Envelope(pre, value, post)) ==
      StatePair(Lookup(AclStatusOf, value), Lookup(HttpStatusOf, value))
  {
    EnvelopeMentionsMarker(pre, value, post);
    AfterEnvelope(pre, value, post);
  }

  const MaxRetries: nat := 3

  /** What `omni_check_status` hands back: a pair, or nothing at all when the
      loop runs out. */
  datatype StateReply = NoReturn | Returned(pair: StatePair)

  /** The retry loop as written: the first reply with status 200 decides;
      an exception on the last attempt gives `(None, None)`; a reply with
      another status on the last attempt leaves the loop without a
      `return`, so the caller receives a bare `None`. */
  function CheckLoop(attempts: seq<Attempt>): (r: StateReply)
  {
    if |attempts| == 0 then NoReturn
    else
      match attempts[0]
      case Answer(text) => Returned(StateOfText(text))
      case OtherStatus => CheckLoop(attempts[1..])
      case Failure => if |attempts| == 1 then Returned(StatePair(None, None)) else CheckLoop(attempts[1..])
  }

  function CheckStatusAsWritten(attempts: seq<Attempt>): (r: StateReply)
    requires |attempts| == MaxRetries
  {
    CheckLoop(attempts)
  }

  /** The loop ends without a pair exactly when no attempt got a reply with
      status 200 and the last one got a reply with another status. */
  lemma {:induction false} CheckLoopNoReturn(attempts: seq<Attempt>)
    ensures CheckLoop(attempts).NoReturn? <==>
      (|attempts| == 0 ||
       ((forall i :: 0 <= i < |attempts| ==> !attempts[i].Answer?) && attempts[|attempts| - 1].OtherStatus?))
    decreases |attempts|
  {
    if |attempts| > 1 {
      CheckLoopNoReturn(attempts[1..]);
      assert attempts[1..][|attempts| - 2] == attempts[|attempts| - 1];
      assert forall i :: 1 <= i < |attempts| ==> attempts[1..][i - 1] == attempts[i];
    }
  }

  /** Three replies with a status other than 200 leave the caller, which
      unpacks two values, with nothing to unpack. */
  lemma CheckStatusUnpackFails()
    ensures CheckStatusAsWritten([OtherStatus, OtherStatus, OtherStatus]).NoReturn?
  {
  }

  /** `omni_check_status` as evidently intended: every way out of the loop
      hands back a pair, `(None, None)` when no reply with status 200 came. */
  function CheckStatus(attempts: seq<Attempt>): (r: StatePair)
    requires |attempts| == MaxRetries
    ensures CheckStatusAsWritten(attempts).Returned? ==> r == CheckStatusAsWritten(attempts).pair
    ensures FirstAnswer(attempts).Some? ==> r == StateOfText(attempts[FirstAnswer(attempts).value].text)
    ensures FirstAnswer(attempts).None? ==> r.acl.None? && r.http.None?
  {
    CheckLoopFirstAnswer(attempts);
    match CheckLoop(attempts)
    case NoReturn => StatePair(None, None)
    case Returned(p) => p
  }

  /** Whatever the attempts, a status code the check reports is one of the
      four. */
  lemma CheckStatusRange(attempts: seq<Attempt>)
    requires |attempts| == MaxRetries
    ensures CheckStatusAsWritten(attempts).Returned? && CheckStatusAsWritten(attempts).pair.acl.Some? ==>
      RemoteStatus(CheckStatusAsWritten(attempts).pair.acl.value)
    ensures CheckStatus(attempts).acl.Some? ==> RemoteStatus(CheckStatus(attempts).acl.value)
  {
    CheckLoopFirstAnswer(attempts);
    var f := FirstAnswer(attempts);
    if f.Some? {
      StateRange(attempts[f.value].text);
    }
  }

  /** The loop's pair comes from the first reply with status 200, or is
      `(None, None)` when there is none. */
  lemma {:induction false} CheckLoopFirstAnswer(attempts: seq<Attempt>)
    ensures FirstAnswer(attempts).Some? ==>
      CheckLoop(attempts).Returned? &&
      CheckLoop(attempts).pair == StateOfText(attempts[FirstAnswer(attempts).value].text)
    ensures FirstAnswer(attempts).None? && CheckLoop(attempts).Returned? ==>
      CheckLoop(attempts).pair == StatePair(None, None)
    decreases |attempts|
  {
    if |attempts| > 0 && !attempts[0].Answer? {
      CheckLoopFirstAnswer(attempts[1..]);
    }
  }

  // ---------------------------------------------------------------------
  // The ticket number of an access list: `check_taskId_by_uuid`.

  /** The text before the integer conversion. A reply longer than 3
      characters is read after the quoted marker, else after the bare one,
      else as ""; a shorter reply is kept whole. Without a reply with status
      200 the name stays unbound, and the conversion below fails, as on "". */
  function TaskIdText(reply: Attempt): string {
    match reply
    case Answer(text) =>
      if |text| > 3 then
        match After(text, Marker)
        case Some(v) => v
        case None => After(text, BareMarker).GetOr("")
      else text
    case _ => ""
  }

  /** `str(int(result))`, or "" when `int` fails: the ticket number in
      canonical decimal form, or "". */
  function TaskIdOf(reply: Attempt): (r: string)
    ensures r == "" || (ParseInt(r).Some? && IntToString(ParseInt(r).value) == r)
    ensures r == "" <==> ParseInt(TaskIdText(reply)).None?
    ensures r != "" ==> ParseInt(r) == ParseInt(TaskIdText(reply))
  {
    match ParseInt(TaskIdText(reply))
    case None => ""
    case Some(n) =>
      IntToStringRoundTrip(n);
      IntToString(n)
  }

  /** A reply carrying a number in any form `int` accepts yields that number
      in canonical form; one carrying its canonical form yields it back. */
  lemma TaskIdOfEnvelope(pre: string, value: string, post: string)
    requires WellFormed(pre, value, post)
    ensures ParseInt(value).Some? ==> TaskIdOf(Answer(Envelope(pre, value, post))) == IntToString(ParseInt(value).value)
    ensures ParseInt(value).None? ==> TaskIdOf(Answer(Envelope(pre, value, post))) == ""
  {
    EnvelopeMentionsMarker(pre, value, post);
    AfterEnvelope(pre, value, post);
  }

  /** Reading a task id twice changes nothing: a canonical number read back
      from an envelope is itself. */
  lemma TaskIdCanonical(pre: string, n: int, post: string)
    requires WellFormed(pre, IntToString(n), post)
    ensures TaskIdOf(Answer(Envelope(pre, IntToString(n), post))) == IntToString(n)
  {
    IntToStringRoundTrip(n);
    TaskIdOfEnvelope(pre, IntToString(n), post);
  }

  // ---------------------------------------------------------------------
  // Progress notes: `update_callback_status`.

  /** The one-entry dictionary a note holds: its key and its value. */
  datatype Note = Note(field: string, value: string)

  /** The notes kept per task id, and within a task per name. */
  type Progress = map<string, map<string, Note>>

  function NoteField(event: int): string {
    if event == 2 then "done" else if event == 1 then "status" else "error"
  }

  /** `update_callback_status`: the task's notes (none yet: an empty
      dictionary) with the named note replaced. */
  function UpdateCallbackStatus(cache: Progress, taskid: string, name: string, value: string, event: int): (r: Progress)
    ensures r.Keys == cache.Keys + {taskid}
    ensures name in r[taskid] && r[taskid][name].value == value
    ensures r[taskid][name].field == "done" <==> event == 2
    ensures r[taskid][name].field == "status" <==> event == 1
    ensures r[taskid][name].field == "error" <==> event != 1 && event != 2
    ensures r[taskid].Keys == (if taskid in cache then cache[taskid].Keys else {}) + {name}
    ensures forall n :: n in r[taskid] && n != name ==> r[taskid][n] == cache[taskid][n]
    ensures forall t :: t in cache && t != taskid ==> r[t] == cache[t]
  {
    var job := if taskid in cache then cache[taskid] else map[];
    cache[taskid := job[name := Note(NoteField(event), value)]]
  }

  /** A later note under the same name replaces an earlier one. */
  lemma CallbackLastWins(cache: Progress, taskid: string, name: string, v1: string, e1: int, v2: string, e2: int)
    ensures UpdateCallbackStatus(UpdateCallbackStatus(cache, taskid, name, v1, e1), taskid, name, v2, e2)
         == UpdateCallbackStatus(cache, taskid, name, v2, e2)
  {
    var job: map<string, Note> := if taskid in cache then cache[taskid] else map[];
    var n1 := Note(NoteField(e1), v1);
    var n2 := Note(NoteField(e2), v2);
    assert job[name := n1][name := n2] == job[name := n2];
    assert cache[taskid := job[name := n1]][taskid := job[name := n2]] == cache[taskid := job[name := n2]];
  }

  /** Notes under different names, or for different tasks, do not interfere. */
  lemma CallbackCommute(cache: Progress, t1: string, n1: string, v1: string, e1: int,
                        t2: string, n2: string, v2: string, e2: int)
    requires t1 != t2 || n1 != n2
    ensures UpdateCallbackStatus(UpdateCallbackStatus(cache, t1, n1, v1, e1), t2, n2, v2, e2)
         == UpdateCallbackStatus(UpdateCallbackStatus(cache, t2, n2, v2, e2), t1, n1, v1, e1)
  {
    var j1: map<string, Note> := if t1 in cache then cache[t1] else map[];
    var j2: map<string, Note> := if t2 in cache then cache[t2] else map[];
    var x1 := Note(NoteField(e1), v1);
    var x2 := Note(NoteField(e2), v2);
    if t1 == t2 {
      assert j1[n1 := x1][n2 := x2] == j1[n2 := x2][n1 := x1];
      assert cache[t1 := j1[n1 := x1]][t1 := j1[n1 := x1][n2 := x2]] == cache[t1 := j1[n1 := x1][n2 := x2]];
      assert cache[t1 := j1[n2 := x2]][t1 := j1[n2 := x2][n1 := x1]] == cache[t1 := j1[n2 := x2][n1 := x1]];
    } else {
      assert cache[t1 := j1[n1 := x1]][t2 := j2[n2 := x2]] == cache[t2 := j2[n2 := x2]][t1 := j1[n1 := x1]];
    }
  }
}

=== FILE: port_rules.dfy ===
/** `APIACLInfoView.post`: does some listed ACL open traffic from one address
    to another on a given port? A rule's port text is a single port, an
    inclusive range `a-b`, or a comma list of either. */
module PortRules {
  import opened Wrappers
  import opened Strings

  /** `re.match(r"^\d+$", s)`: digits, and at most one newline after them,
      which `$` lets through. */
  predicate IsNumber(s: string) {
    |Chomp(s)| > 0 && AllDigits(Chomp(s))
  }

  /** `re.match(r"^\d+-\d+$", s)`: exactly two dash-separated numbers, the
      second one possibly followed by a newline. */
  predicate IsRange(s: string) {
    var p := Split(s, "-");
    |p| == 2 && |p[0]| > 0 && AllDigits(p[0]) && IsNumber(p[1])
  }

  /** `int(start_num)` and `int(end_num)`; `int` ignores the newline. */
  function Low(s: string): nat
    requires IsRange(s)
  {
    DigitsValue(Split(s, "-")[0])
  }

  function High(s: string): nat
    requires IsRange(s)
  {
    DigitsValue(Chomp(Split(s, "-")[1]))
  }

  /** The reference meaning of one element of a rule: the same port text,
      or a range whose bounds enclose the port's value. */
  predicate Holds(el: string, port: string) {
    || (IsNumber(el) && el == port)
    || (IsRange(el) && ParseInt(port).Some? && Low(el) <= ParseInt(port).value <= High(el))
  }

  /** The reference meaning of a whole rule: some comma-separated element
      holds. */
  predicate RuleHolds(row: string, port: string) {
    var els := Split(row, ",");
    exists i :: 0 <= i < |els| && Holds(els[i], port)
  }

  /** One element as the handler tests it; `int(port)` raises `ValueError`
      when the requested port is not an integer and a range is reached. */
  function ElementMatch(el: string, port: string): Result<bool> {
    if IsNumber(el) then Ok(el == port)
    else if IsRange(el) then
      match ParseInt(port)
      case None => Raise(ValueError)
      case Some(n) => Ok(Low(el) <= n <= High(el))
    else Ok(false)
  }

  /** A number has no dash, so it is not a range. */
  lemma NumberNotRange(el: string)
    requires IsNumber(el)
    ensures !IsRange(el)
  {
    NumberHasNo(el, '-');
    SplitAbsent(el, "-");
  }

  /** The element test answers the reference meaning, and raises only for a
      range and a port that is not an integer. */
  lemma ElementMatchHolds(el: string, port: string)
    ensures ElementMatch(el, port).Ok? ==> (ElementMatch(el, port).value <==> Holds(el, port))
    ensures ElementMatch(el, port).Raise? ==> IsRange(el) && ParseInt(port).None?
  {
    if IsNumber(el) {
      NumberNotRange(el);
    } else if IsRange(el) {
      var n := ParseInt(port);
      if n.Some? {
        assert ElementMatch(el, port) == Ok(Low(el) <= n.value <= High(el));
      }
    }
  }

  /** The loop over a comma list: it stops at the first element that
      matches, and an exception ends it. */
  function AnyElement(els: seq<string>, port: string): (r: Result<bool>)
  {
    if |els| == 0 then Ok(false)
    else
      match ElementMatch(els[0], port)
      case Raise(e) => Raise(e)
      case Ok(b) => if b then Ok(true) else AnyElement(els[1..], port)
  }

  /** The list loop agrees with the reference meaning whenever it returns,
      and it always returns when the port is an integer. */
  lemma AnyElementHolds(els: seq<string>, port: string)
    ensures AnyElement(els, port).Ok? ==>
      (AnyElement(els, port).value <==> exists i :: 0 <= i < |els| && Holds(els[i], port))
    ensures ParseInt(port).Some? ==> AnyElement(els, port).Ok?
    ensures AnyElement(els, port).Raise? ==>
      ParseInt(port).None? && exists i :: 0 <= i < |els| && IsRange(els[i])
  {
    AnyElementAgrees(els, port);
    AnyElementReturns(els, port);
    AnyElementRaises(els, port);
  }

  lemma {:induction false} AnyElementAgrees(els: seq<string>, port: string)
    ensures AnyElement(els, port).Ok? ==>
      (AnyElement(els, port).value <==> exists i :: 0 <= i < |els| && Holds(els[i], port))
    decreases |els|
  {
    if |els| > 0 {
      ElementMatchHolds(els[0], port);
      var m := ElementMatch(els[0], port);
      if m.Ok? && !m.value {
        AnyElementAgrees(els[1..], port);
        assert AnyElement(els, port) == AnyElement(els[1..], port);
        if exists i :: 0 <= i < |els| && Holds(els[i], port) {
          var i :| 0 <= i < |els| && Holds(els[i], port);
          assert i != 0;
          assert els[i] == els[1..][i - 1];
        }
        if exists i :: 0 <= i < |els[1..]| && Holds(els[1..][i], port) {
          var i :| 0 <= i < |els[1..]| && Holds(els[1..][i], port);
          assert els[1..][i] == els[i + 1];
        }
      } else if m.Ok? {
        assert Holds(els[0], port);
      }
    }
  }

  lemma {:induction false} AnyElementReturns(els: seq<string>, port: string)
    ensures ParseInt(port).Some? ==> AnyElement(els, port).Ok?
    decreases |els|
  {
    if |els| > 0 {
      ElementMatchHolds(els[0], port);
      AnyElementReturns(els[1..], port);
    }
  }

  lemma {:induction false} AnyElementRaises(els: seq<string>, port: string)
    ensures AnyElement(els, port).Raise? ==>
      ParseInt(port).None? && exists i :: 0 <= i < |els| && IsRange(els[i])
    decreases |els|
  {
    if |els| > 0 {
      ElementMatchHolds(els[0], port);
      var m := ElementMatch(els[0], port);
      if m.Raise? {
        assert IsRange(els[0]);
      } else if !m.value {
        AnyElementRaises(els[1..], port);
        if AnyElement(els, port).Raise? {
          var i :| 0 <= i < |els[1..]| && IsRange(els[1..][i]);
          assert IsRange(els[i + 1]);
        }
      }
    }
  }

  /** The test on one rule's port text, branch by branch as written. */
  function RuleMatch(row: string, port: string): Result<bool> {
    if IsNumber(row) then Ok(row == port)
    else if IsRange(row) then
      match ParseInt(port)
      case None => Raise(ValueError)
      case Some(n) => Ok(Low(row) <= n <= High(row))
    else AnyElement(Split(row, ","), port)
  }

  lemma DigitsHaveNo(s: string, c: char)
    requires AllDigits(s) && !IsDigit(c)
    ensures !Contains(s, [c])
  {
    ContainsChar(s, c);
  }

  /** A number holds digits and at most a final newline. */
  lemma NumberHasNo(s: string, c: char)
    requires IsNumber(s) && !IsDigit(c) && c != '\n'
    ensures !Contains(s, [c])
  {
    ContainsChar(s, c);
    var t := Chomp(s);
    forall k | 0 <= k < |s| ensures s[k] != c {
      if k < |t| {
        assert s[k] == t[k];
      }
    }
  }

  /** A range is its two numbers around the dash. */
  lemma RangeShape(s: string)
    requires IsRange(s)
    ensures s == Split(s, "-")[0] + "-" + Split(s, "-")[1]
  {
    var p := Split(s, "-");
    JoinSplit(s, "-");
    assert p[1..] == [p[1]];
  }

  /** Neither a number nor a range holds a comma, so the first two branches
      are the comma list's own test on a one-element list. */
  lemma RuleMatchIsAny(row: string, port: string)
    ensures RuleMatch(row, port) == AnyElement(Split(row, ","), port)
  {
    if IsNumber(row) || IsRange(row) {
      if IsNumber(row) {
        NumberHasNo(row, ',');
      } else {
        RangeHasNoComma(row);
      }
      SplitAbsent(row, ",");
      assert Split(row, ",") == [row];
      assert [row][1..] == [];
    }
  }

  /** A range holds digits, one dash and at most a final newline. */
  lemma RangeHasNoComma(row: string)
    requires IsRange(row)
    ensures !Contains(row, ",")
  {
    var p := Split(row, "-");
    RangeShape(row);
    NumberHasNo(p[1], ',');
    ContainsChar(p[1], ',');
    ContainsChar(row, ',');
    forall k | 0 <= k < |row| ensures row[k] != ',' {
      if k < |p[0]| {
        assert row[k] == p[0][k];
      } else if k > |p[0]| {
        assert row[k] == p[1][k - |p[0]| - 1];
      }
    }
  }

  /** Rule matching is true exactly when the port text equals the rule or
      one of its comma elements, or falls in one of its inclusive ranges;
      it can fail only on a port that is not an integer. */
  lemma RuleMatchHolds(row: string, port: string)
    ensures RuleMatch(row, port).Ok? ==> (RuleMatch(row, port).value <==> RuleHolds(row, port))
    ensures ParseInt(port).Some? ==> RuleMatch(row, port).Ok?
  {
    RuleMatchIsAny(row, port);
    AnyElementHolds(Split(row, ","), port);
  }

  /** The text `a-b` for two numbers is a range with those bounds. */
  lemma RangeText(a: string, b: string)
    requires |a| > 0 && AllDigits(a) && IsNumber(b)
    ensures IsRange(a + "-" + b)
    ensures Low(a + "-" + b) == DigitsValue(a) && High(a + "-" + b) == DigitsValue(Chomp(b))
  {
    RangeSplit(a, b);
  }

  lemma RangeSplit(a: string, b: string)
    requires AllDigits(a) && IsNumber(b)
    ensures Split(a + "-" + b, "-") == [a, b]
  {
    DigitsHaveNo(a, '-');
    NumberHasNo(b, '-');
    SplitAfter(a, "-", b);
    SplitAbsent(b, "-");
  }

  /** A range rule `a-b` matches an integer port exactly when `a <= port <= b`;
      a newline after `b` changes nothing. */
  lemma RangeRuleInclusive(a: string, b: string, n: nat)
    requires |a| > 0 && AllDigits(a) && IsNumber(b)
    ensures RuleMatch(a + "-" + b, NatToString(n)).Ok?
    ensures RuleMatch(a + "-" + b, NatToString(n)).value <==> DigitsValue(a) <= n <= DigitsValue(Chomp(b))
  {
    RangeText(a, b);
    IntToStringRoundTrip(n);
    var row := a + "-" + b;
    assert !IsNumber(row) by {
      var t := Chomp(row);
      assert t == row || t + "\n" == row;
      assert |t| > |a| && t[|a|] == row[|a|] == '-';
    }
  }

  /** The rule "1-100" followed by a newline admits port 50. */
  lemma RangeWithNewline()
    ensures RuleMatch("1-100\n", "50").Ok? && RuleMatch("1-100\n", "50").value
  {
    assert "1-100\n" == "1" + "-" + "100\n";
    assert Chomp("100\n") == "100";
    assert DigitsValue("1") == 1 && DigitsValue("100") == 100;
    assert NatToString(50) == "50" by {
      assert NatToString(5) == "5";
    }
    RangeRuleInclusive("1", "100\n", 50);
  }

  /** One entry of an ACL's `traffic_rules`; a missing key is `None`. */
  datatype TrafficRule = TrafficRule(source: Option<string>, destination: Option<string>, protocolPort: Option<string>)

  /** What the handler reads of an ACL: its task id and its traffic rules. */
  datatype Listed = Listed(taskid: Option<string>, rules: seq<TrafficRule>)

  /** The port part of `protocol_port` ("tcp/80" gives "80"), blanks removed.
      A missing value raises `AttributeError`, one without "/" `IndexError`. */
  function RowPort(pp: Option<string>): (r: Result<string>)
    ensures r.Raise? <==> pp.None? || !Contains(pp.value, "/")
    ensures r.Ok? ==> ' ' !in r.value
  {
    match pp
    case None => Raise(AttributeError)
    case Some(t) =>
      var parts := Split(t, "/");
      if |parts| < 2 then
        SplitAbsent(t, "/");
        Raise(IndexError)
      else
        NoBlanks(parts[1]);
        Ok(ReplaceAll(parts[1], " ", ""))
  }

  lemma NoBlanks(s: string)
    ensures ' ' !in ReplaceAll(s, " ", "")
  {
    var ps := Split(s, " ");
    forall i | 0 <= i < |ps| ensures ' ' !in ps[i] {
      ContainsChar(ps[i], ' ');
    }
    JoinNoChar(ps, ' ');
  }

  lemma {:induction false} JoinNoChar(ps: seq<string>, c: char)
    requires forall i :: 0 <= i < |ps| ==> c !in ps[i]
    ensures c !in Join(ps, "")
    decreases |ps|
  {
    if |ps| > 1 {
      JoinNoChar(ps[1..], c);
      assert Join(ps, "") == ps[0] + "" + Join(ps[1..], "");
    }
  }

  /** A rule that applies to the two addresses and whose port text holds. */
  predicate ItemHolds(item: TrafficRule, src: string, dst: string, port: string) {
    && item.source == Some(src) && item.destination == Some(dst)
    && RowPort(item.protocolPort).Ok?
    && RuleHolds(RowPort(item.protocolPort).value, port)
  }

  /** The inner loop over one ACL's rules. A match sets the flag but the
      loop goes on, so a later malformed rule can still raise. */
  function ScanRules(rules: seq<TrafficRule>, src: string, dst: string, port: string, found: bool): Result<bool>
    decreases |rules|
  {
    if |rules| == 0 then Ok(found)
    else
      var item := rules[0];
      if item.source == Some(src) && item.destination == Some(dst) then
        match RowPort(item.protocolPort)
        case Raise(e) => Raise(e)
        case Ok(row) =>
          match RuleMatch(row, port)
          case Raise(e) => Raise(e)
          case Ok(b) => ScanRules(rules[1..], src, dst, port, found || b)
      else ScanRules(rules[1..], src, dst, port, found)
  }

  /** Some rule of the list applies to the addresses and admits the port. */
  predicate SomeItemHolds(rules: seq<TrafficRule>, src: string, dst: string, port: string) {
    exists j :: 0 <= j < |rules| && ItemHolds(rules[j], src, dst, port)
  }

  lemma SomeItemHoldsCons(rules: seq<TrafficRule>, src: string, dst: string, port: string)
    requires |rules| > 0
    ensures SomeItemHolds(rules, src, dst, port) <==>
      ItemHolds(rules[0], src, dst, port) || SomeItemHolds(rules[1..], src, dst, port)
  {
    if SomeItemHolds(rules[1..], src, dst, port) {
      var j :| 0 <= j < |rules[1..]| && ItemHolds(rules[1..][j], src, dst, port);
      assert rules[j + 1] == rules[1..][j];
    }
    if SomeItemHolds(rules, src, dst, port) {
      var j :| 0 <= j < |rules| && ItemHolds(rules[j], src, dst, port);
      if j > 0 {
        assert rules[1..][j - 1] == rules[j];
      }
    }
  }

  lemma {:induction false} ScanRulesHolds(rules: seq<TrafficRule>, src: string, dst: string, port: string, found: bool)
    ensures ScanRules(rules, src, dst, port, found).Ok? ==>
      (ScanRules(rules, src, dst, port, found).value <==> found || SomeItemHolds(rules, src, dst, port))
    decreases |rules|
  {
    if |rules| > 0 {
      var item := rules[0];
      SomeItemHoldsCons(rules, src, dst, port);
      if item.source == Some(src) && item.destination == Some(dst) && RowPort(item.protocolPort).Ok? {
        var row := RowPort(item.protocolPort).value;
        RuleMatchHolds(row, port);
        if RuleMatch(row, port).Ok? {
          ScanRulesHolds(rules[1..], src, dst, port, found || RuleMatch(row, port).value);
        }
      } else {
        ScanRulesHolds(rules[1..], src, dst, port, found);
        assert !ItemHolds(item, src, dst, port);
      }
    }
  }

  /** The queryset leaves out ACLs whose task id is the empty string (a
      null task id is kept). */
  predicate Queried(a: Listed) {
    a.taskid != Some("")
  }

  /** The outer loop: the first ACL with a match ends it. */
  function ScanAcls(acls: seq<Listed>, src: string, dst: string, port: string): Result<bool>
    decreases |acls|
  {
    if |acls| == 0 then Ok(false)
    else if !Queried(acls[0]) then ScanAcls(acls[1..], src, dst, port)
    else
      match ScanRules(acls[0].rules, src, dst, port, false)
      case Raise(e) => Raise(e)
      case Ok(b) => if b then Ok(true) else ScanAcls(acls[1..], src, dst, port)
  }

  /** Some queried ACL holds a rule for the two addresses that admits the
      port. */
  predicate Covers(acls: seq<Listed>, src: string, dst: string, port: string) {
    exists a, j :: 0 <= a < |acls| && Queried(acls[a]) && 0 <= j < |acls[a].rules| &&
      ItemHolds(acls[a].rules[j], src, dst, port)
  }

  lemma {:induction false} ScanAclsCovers(acls: seq<Listed>, src: string, dst: string, port: string)
    ensures ScanAcls(acls, src, dst, port).Ok? ==>
      (ScanAcls(acls, src, dst, port).value <==> Covers(acls, src, dst, port))
    decreases |acls|
  {
    if |acls| > 0 {
      ScanAclsCovers(acls[1..], src, dst, port);
      ScanRulesHolds(acls[0].rules, src, dst, port, false);
      forall a | 1 <= a < |acls| ensures acls[a] == acls[1..][a - 1] {}
      if Covers(acls[1..], src, dst, port) {
        var a, j :| 0 <= a < |acls[1..]| && Queried(acls[1..][a]) && 0 <= j < |acls[1..][a].rules| &&
          ItemHolds(acls[1..][a].rules[j], src, dst, port);
        assert ItemHolds(acls[a + 1].rules[j], src, dst, port);
      }
      if Covers(acls, src, dst, port) {
        var a, j :| 0 <= a < |acls| && Queried(acls[a]) && 0 <= j < |acls[a].rules| &&
          ItemHolds(acls[a].rules[j], src, dst, port);
        if a > 0 {
          assert ItemHolds(acls[1..][a - 1].rules[j], src, dst, port);
        }
      }
    }
  }

  /** `APIACLInfoView.post` after validation: blanks are removed from the
      requested port, and an empty address or port answers `False` at
      once. */
  function Post(acls: seq<Listed>, src: string, dst: string, rawPort: string): Result<bool> {
    var port := ReplaceAll(rawPort, " ", "");
    if src == "" || dst == "" || port == "" then Ok(false)
    else ScanAcls(acls, src, dst, port)
  }

  /** Whenever the handler answers, the answer is `True` exactly when some
      queried ACL has a rule for the two addresses admitting the port. */
  lemma PostAnswers(acls: seq<Listed>, src: string, dst: string, rawPort: string)
    ensures var port := ReplaceAll(rawPort, " ", "");
      Post(acls, src, dst, rawPort).Ok? ==>
        (Post(acls, src, dst, rawPort).value <==>
          src != "" && dst != "" && port != "" && Covers(acls, src, dst, port))
  {
    ScanAclsCovers(acls, src, dst, ReplaceAll(rawPort, " ", ""));
  }
}

=== FILE: seqs.dfy ===
/** List comprehensions with a condition, `[x for x in xs if p(x)]`, which
    several of the modelled loops compute. */
module Seqs {

  function Filter<T>(xs: seq<T>, p: T -> bool): (r: seq<T>)
    ensures |r| <= |xs|
    ensures forall i :: 0 <= i < |r| ==> p(r[i])
    decreases |xs|
  {
    if |xs| == 0 then []
    else (if p(xs[0]) then [xs[0]] else []) + Filter(xs[1..], p)
  }

  /** The kept elements are exactly the elements satisfying `p`. */
  lemma {:induction false} FilterMembers<T>(xs: seq<T>, p: T -> bool)
    ensures forall x :: x in Filter(xs, p) <==> x in xs && p(x)
    decreases |xs|
  {
    if |xs| > 0 {
      FilterMembers(xs[1..], p);
      assert xs == [xs[0]] + xs[1..];
    }
  }

  /** Filtering goes piece by piece, so the kept elements keep their
      order. */
  lemma {:induction false} FilterAppend<T>(xs: seq<T>, ys: seq<T>, p: T -> bool)
    ensures Filter(xs + ys, p) == Filter(xs, p) + Filter(ys, p)
    decreases |xs|
  {
    if |xs| == 0 {
      assert xs + ys == ys;
    } else {
      FilterAppend(xs[1..], ys, p);
      assert (xs + ys)[1..] == xs[1..] + ys;
    }
  }

  /** The step a loop takes when it looks at one more element. */
  lemma FilterSnoc<T>(xs: seq<T>, x: T, p: T -> bool)
    ensures Filter(xs + [x], p) == Filter(xs, p) + (if p(x) then [x] else [])
  {
    FilterAppend(xs, [x], p);
  }

  /** Everything is kept exactly when every element satisfies `p`. */
  lemma {:induction false} FilterAll<T>(xs: seq<T>, p: T -> bool)
    ensures Filter(xs, p) == xs <==> forall i :: 0 <= i < |xs| ==> p(xs[i])
    decreases |xs|
  {
    if |xs| > 0 {
      FilterAll(xs[1..], p);
      if !p(xs[0]) {
        assert |Filter(xs, p)| < |xs|;
      }
      if forall i :: 0 <= i < |xs| ==> p(xs[i]) {
        assert forall i :: 0 <= i < |xs[1..]| ==> p(xs[1..][i]) by {
          forall i | 0 <= i < |xs[1..]| ensures p(xs[1..][i]) {
            assert xs[1..][i] == xs[i + 1];
          }
        }
      }
      if forall i :: 0 <= i < |xs[1..]| ==> p(xs[1..][i]) {
        forall i | 1 <= i < |xs| ensures p(xs[i]) {
          assert xs[i] == xs[1..][i - 1];
        }
      }
      assert xs == [xs[0]] + xs[1..];
    }
  }
}

=== FILE: session.dfy ===
/** `ClearSessionMeta`: dropping a page's keys from the web session when the
    user moves to another page, and deleting the generated download files
    the session points at. */
module SessionMeta {
  import opened Strings

  /** The keys the first loop deletes, in its order. */
  const SessionStore: seq<string> :=
    ["LOCAL_STORAGE", "uuid", "taskid", "ACT_MAKE_GIT", "ACT_MAKE_DOCX", "ACT_OMNI", "file_download"]

  const DocxKey: string := "file_download"
  const MdKey: string := "file_download_md"

  /** Where the two download keys stand with respect to the first loop. */
  lemma StoreFacts()
    ensures DocxKey in SessionStore && MdKey !in SessionStore
  {
    assert SessionStore[6] == DocxKey;
    forall i | 0 <= i < |SessionStore| ensures |SessionStore[i]| < |MdKey| {}
  }

  /** The two static folders generated files are written to. */
  datatype Folder = DocxFolder | MdFolder

  /** A file under one of the static folders, by base name. */
  datatype StaticFile = StaticFile(folder: Folder, name: string)

  /** The session (key to stored text) and the files that exist. */
  datatype Cleared = Cleared(session: map<string, string>, files: set<StaticFile>)

  /** `os.path.basename`: what follows the last "/". */
  function Basename(p: string): (b: string)
    ensures '/' !in b && EndsWith(p, b)
    decreases |p|
  {
    if |p| == 0 || p[|p| - 1] == '/' then ""
    else
      var b := Basename(p[..|p| - 1]) + [p[|p| - 1]];
      assert p[|p| - |b|..] == p[..|p| - 1][|p| - |b|..] + [p[|p| - 1]];
      b
  }

  /** The first loop: each listed key that is present is deleted. It
      removes exactly the listed keys and keeps every other entry. */
  function DropKeys(session: map<string, string>, keys: seq<string>): (r: map<string, string>)
    ensures forall k :: k in r <==> k in session && k !in keys
    ensures forall k :: k in r ==> r[k] == session[k]
    decreases |keys|
  {
    if |keys| == 0 then session
    else DropKeys(if keys[0] in session then session - {keys[0]} else session, keys[1..])
  }

  /** Deleting a listed key beforehand makes no difference to the loop. */
  lemma DropKeysAbsorbs(session: map<string, string>, x: string, keys: seq<string>)
    requires x in keys
    ensures DropKeys(session - {x}, keys) == DropKeys(session, keys)
  {
  }

  /** One `if "<key>" in request.session` block: the file named by the
      entry's base name is removed from the folder when it exists (a blank
      base name removes nothing), and the entry is deleted. */
  function RemoveDownload(c: Cleared, key: string, folder: Folder): (r: Cleared)
    ensures key !in r.session && r.session == c.session - {key}
    ensures key in c.session && Basename(c.session[key]) != "" ==>
      r.files == c.files - {StaticFile(folder, Basename(c.session[key]))}
    ensures key !in c.session || Basename(c.session[key]) == "" ==> r.files == c.files
  {
    if key in c.session then
      var base := Basename(c.session[key]);
      Cleared(c.session - {key}, if base != "" then c.files - {StaticFile(folder, base)} else c.files)
    else Cleared(c.session, c.files)
  }

  /** The first loop and the two download blocks, for a given key list
      and download keys. */
  function ClearWith(keys: seq<string>, docxKey: string, mdKey: string, fixOrder: bool, c: Cleared): Cleared
  {
    if fixOrder then
      var docx := RemoveDownload(c, docxKey, DocxFolder);
      RemoveDownload(Cleared(DropKeys(docx.session, keys), docx.files), mdKey, MdFolder)
    else
      var first := Cleared(DropKeys(c.session, keys), c.files);
      RemoveDownload(RemoveDownload(first, docxKey, DocxFolder), mdKey, MdFolder)
  }

  /** `ClearSessionMeta` as written. The first loop already deletes
      "file_download", so the block that would remove the generated .docx
      file never runs. Without a request nothing happens. */
  function ClearSessionMetaAsWritten(hasRequest: bool, c: Cleared): (r: Cleared)
  {
    if !hasRequest then c
    else ClearWith(SessionStore, DocxKey, MdKey, false, c)
  }

  /** As written, no .docx file is ever removed. */
  lemma ClearKeepsDocx(hasRequest: bool, c: Cleared, f: StaticFile)
    requires f in c.files && f.folder == DocxFolder
    ensures f in ClearSessionMetaAsWritten(hasRequest, c).files
  {
    if hasRequest {
      StoreFacts();
      ClearWithKeepsDocx(SessionStore, DocxKey, MdKey, c, f);
    }
  }

  lemma ClearWithKeepsDocx(keys: seq<string>, docxKey: string, mdKey: string, c: Cleared, f: StaticFile)
    requires docxKey in keys && f in c.files && f.folder == DocxFolder
    ensures f in ClearWith(keys, docxKey, mdKey, false, c).files
  {
  }

  /** A download left behind: the session names "dir/acl.docx", which
      exists, and it is still there afterwards. */
  lemma ClearLeavesDownload()
    ensures var c := Cleared(map[DocxKey := "dir/acl.docx"], {StaticFile(DocxFolder, "acl.docx")});
      StaticFile(DocxFolder, "acl.docx") in ClearSessionMetaAsWritten(true, c).files
  {
    ClearKeepsDocx(true, Cleared(map[DocxKey := "dir/acl.docx"], {StaticFile(DocxFolder, "acl.docx")}),
      StaticFile(DocxFolder, "acl.docx"));
  }

  /** `ClearSessionMeta` as evidently intended: the .docx block runs before
      the loop deletes its key. */
  function ClearSessionMeta(hasRequest: bool, c: Cleared): (r: Cleared)
  {
    if !hasRequest then c
    else ClearWith(SessionStore, DocxKey, MdKey, true, c)
  }

  /** The page keys, both download keys and both named files are gone;
      every other key and file is kept. */
  lemma ClearSessionMetaClears(c: Cleared)
    ensures var r := ClearSessionMeta(true, c);
      && (forall k :: k in SessionStore ==> k !in r.session)
      && MdKey !in r.session
      && (forall k :: k in c.session && k !in SessionStore && k != MdKey ==> k in r.session && r.session[k] == c.session[k])
      && (DocxKey in c.session && Basename(c.session[DocxKey]) != "" ==> StaticFile(DocxFolder, Basename(c.session[DocxKey])) !in r.files)
      && (MdKey in c.session && Basename(c.session[MdKey]) != "" ==> StaticFile(MdFolder, Basename(c.session[MdKey])) !in r.files)
      && (forall f: StaticFile :: f in c.files && f.folder == DocxFolder && (DocxKey !in c.session || f.name != Basename(c.session[DocxKey])) ==> f in r.files)
      && (forall f: StaticFile :: f in c.files && f.folder == MdFolder && (MdKey !in c.session || f.name != Basename(c.session[MdKey])) ==> f in r.files)
  {
    StoreFacts();
    ClearWithClears(SessionStore, DocxKey, MdKey, c);
  }

  lemma ClearWithClears(keys: seq<string>, docxKey: string, mdKey: string, c: Cleared)
    requires docxKey in keys && mdKey !in keys && docxKey != mdKey
    ensures var r := ClearWith(keys, docxKey, mdKey, true, c);
      && (forall k :: k in keys ==> k !in r.session)
      && mdKey !in r.session
      && (forall k :: k in c.session && k !in keys && k != mdKey ==> k in r.session && r.session[k] == c.session[k])
      && (docxKey in c.session && Basename(c.session[docxKey]) != "" ==> StaticFile(DocxFolder, Basename(c.session[docxKey])) !in r.files)
      && (mdKey in c.session && Basename(c.session[mdKey]) != "" ==> StaticFile(MdFolder, Basename(c.session[mdKey])) !in r.files)
      && (forall f: StaticFile :: f in c.files && f.folder == DocxFolder && (docxKey !in c.session || f.name != Basename(c.session[docxKey])) ==> f in r.files)
      && (forall f: StaticFile :: f in c.files && f.folder == MdFolder && (mdKey !in c.session || f.name != Basename(c.session[mdKey])) ==> f in r.files)
  {
    var docx := RemoveDownload(c, docxKey, DocxFolder);
    var first := Cleared(DropKeys(docx.session, keys), docx.files);
    if mdKey in c.session {
      assert mdKey in first.session && first.session[mdKey] == c.session[mdKey];
    }
  }

  /** Both versions leave the same session; the only difference is the
      .docx file the session named, which only the corrected one removes. */
  lemma ClearSessionMetaAgrees(hasRequest: bool, c: Cleared)
    ensures ClearSessionMeta(hasRequest, c).session == ClearSessionMetaAsWritten(hasRequest, c).session
    ensures ClearSessionMeta(hasRequest, c).files ==
      if hasRequest && DocxKey in c.session && Basename(c.session[DocxKey]) != "" then
        ClearSessionMetaAsWritten(hasRequest, c).files - {StaticFile(DocxFolder, Basename(c.session[DocxKey]))}
      else ClearSessionMetaAsWritten(hasRequest, c).files
  {
    if hasRequest {
      StoreFacts();
      ClearWithAgrees(SessionStore, DocxKey, MdKey, c);
    }
  }

  lemma ClearWithAgrees(keys: seq<string>, docxKey: string, mdKey: string, c: Cleared)
    requires docxKey in keys && mdKey !in keys && docxKey != mdKey
    ensures ClearWith(keys, docxKey, mdKey, true, c).session == ClearWith(keys, docxKey, mdKey, false, c).session
    ensures ClearWith(keys, docxKey, mdKey, true, c).files ==
      if docxKey in c.session && Basename(c.session[docxKey]) != "" then
        ClearWith(keys, docxKey, mdKey, false, c).files - {StaticFile(DocxFolder, Basename(c.session[docxKey]))}
      else ClearWith(keys, docxKey, mdKey, false, c).files
  {
    var docx := RemoveDownload(c, docxKey, DocxFolder);
    if docxKey in c.session {
      DropKeysAbsorbs(c.session, docxKey, keys);
    }
    var fixed := Cleared(DropKeys(docx.session, keys), docx.files);
    var first := Cleared(DropKeys(c.session, keys), c.files);
    assert RemoveDownload(first, docxKey, DocxFolder) == first;
    assert fixed.session == first.session;
  }
}

=== FILE: sheets.dfy ===
/** `ExtractDataXls.is_row_empty`: a spreadsheet row with no filled cell. */
module Sheets {

  /** Every cell of the row is the empty string. */
  predicate Blank(row: seq<string>) {
    forall i :: 0 <= i < |row| ==> row[i] == ""
  }

  /** The scan of `is_row_empty`: it stops at the first filled cell. */
  method IsRowEmpty(row: seq<string>) returns (empty: bool)
    ensures empty <==> Blank(row)
  {
    empty := true;
    var i := 0;
    while i < |row|
      invariant 0 <= i <= |row|
      invariant empty && forall k :: 0 <= k < i ==> row[k] == ""
    {
      if row[i] != "" {
        empty := false;
        return;
      }
      i := i + 1;
    }
  }
}

=== FILE: strings.dfy ===
/** The handful of Python `str` operations the modelled code relies on:
    `find`/`in`, `startswith`, `split`, `join`, `strip`, `replace`, slicing,
    and `int(...)`/`str(...)` on decimal text. Strings are sequences of
    code points, as in Python 3. */
module Strings {
  import opened Wrappers

  predicate StartsWith(s: string, p: string) {
    |p| <= |s| && s[..|p|] == p
  }

  predicate EndsWith(s: string, p: string) {
    |p| <= |s| && s[|s| - |p|..] == p
  }

  /** `d` occurs in `s` starting at index `i`. */
  predicate OccursAt(s: string, d: string, i: nat) {
    i + |d| <= |s| && s[i..i + |d|] == d
  }

  lemma OccursShift(s: string, d: string, j: nat)
    requires |s| >= 1
    ensures OccursAt(s, d, j + 1) <==> OccursAt(s[1..], d, j)
  {
    if j + 1 + |d| <= |s| {
      assert s[1..][j..j + |d|] == s[j + 1..j + 1 + |d|];
    }
  }

  /** Python's `s.find(d)`, with `None` for -1: the first occurrence. */
  function Find(s: string, d: string): (r: Option<nat>)
    ensures r.Some? ==> OccursAt(s, d, r.value)
    ensures r.Some? ==> forall j: nat :: j < r.value ==> !OccursAt(s, d, j)
    ensures r.None? ==> forall j: nat :: !OccursAt(s, d, j)
    decreases |s|
  {
    if |s| < |d| then None
    else if s[..|d|] == d then Some(0)
    else
      match Find(s[1..], d)
      case None =>
        assert forall j: nat :: !OccursAt(s, d, j) by {
          forall j: nat ensures !OccursAt(s, d, j) {
            if j > 0 { OccursShift(s, d, j - 1); }
          }
        }
        None
      case Some(i) =>
        assert forall j: nat :: j < i + 1 ==> !OccursAt(s, d, j) by {
          forall j: nat | j < i + 1 ensures !OccursAt(s, d, j) {
            if j > 0 { OccursShift(s, d, j - 1); }
          }
        }
        OccursShift(s, d, i);
        Some(i + 1)
  }

  /** Python's `d in s`. */
  predicate Contains(s: string, d: string) {
    Find(s, d).Some?
  }

  /** Python's `s.split(d)` for a non-empty separator. */
  function Split(s: string, d: string): (parts: seq<string>)
    requires |d| > 0
    ensures |parts| >= 1
    ensures forall k :: 0 <= k < |parts| ==> !Contains(parts[k], d)
    decreases |s|
  {
    match Find(s, d)
    case None => [s]
    case Some(i) =>
      var head := s[..i];
      assert !Contains(head, d) by {
        var h := Find(head, d);
        if h.Some? {
          var j := h.value;
          assert head[j..j + |d|] == s[j..j + |d|];
          assert OccursAt(s, d, j);
        }
      }
      [head] + Split(s[i + |d|..], d)
  }

  /** Python's `d.join(parts)`. */
  function Join(parts: seq<string>, d: string): string
  {
    if |parts| == 0 then ""
    else if |parts| == 1 then parts[0]
    else parts[0] + d + Join(parts[1..], d)
  }

  /** Splitting and re-joining on the same separator gives the text back. */
  lemma {:induction false} JoinSplit(s: string, d: string)
    requires |d| > 0
    ensures Join(Split(s, d), d) == s
    decreases |s|
  {
    match Find(s, d)
    case None =>
    case Some(i) =>
      var head := s[..i];
      var tail := s[i + |d|..];
      var rest := Split(tail, d);
      assert Split(s, d) == [head] + rest;
      JoinSplit(tail, d);
      assert ([head] + rest)[1..] == rest;
      assert Join([head] + rest, d) == head + d + Join(rest, d);
      assert s == head + d + tail by {
        assert s[i..i + |d|] == d;
      }
  }

  /** `last` is what follows the last separator of `s`: it ends `s`, and
      it is either all of `s` or preceded by `d`. */
  predicate FollowsLast(s: string, d: string, last: string) {
    && EndsWith(s, last)
    && (last == s || (|last| + |d| <= |s| && s[|s| - |last| - |d|..|s| - |last|] == d))
  }

  function LastPart(s: string, d: string): string
    requires |d| > 0
  {
    var parts := Split(s, d);
    parts[|parts| - 1]
  }

  /** The last part of `s.split(d)` follows the last separator. */
  lemma {:induction false} SplitLast(s: string, d: string)
    requires |d| > 0
    ensures FollowsLast(s, d, LastPart(s, d))
    decreases |s|
  {
    var f := Find(s, d);
    if f.None? {
      assert Split(s, d) == [s];
      assert s[|s| - |s|..] == s;
    } else {
      var i := f.value;
      var tail := s[i + |d|..];
      SplitLastCons(s, d, i);
      SplitLast(tail, d);
      SplitLastStep(s, d, i, LastPart(tail, d));
    }
  }

  /** Past a first separator at `i`, the last part is that of the rest. */
  lemma SplitLastCons(s: string, d: string, i: nat)
    requires |d| > 0
    requires Find(s, d) == Some(i)
    ensures LastPart(s, d) == LastPart(s[i + |d|..], d)
  {
    var rest := Split(s[i + |d|..], d);
    var parts := [s[..i]] + rest;
    assert Split(s, d) == parts;
    assert parts[|parts| - 1] == rest[|rest| - 1];
  }

  /** The step of `SplitLast`: what follows the last separator of the text
      after a separator at `i` follows the last separator of `s`. */
  lemma SplitLastStep(s: string, d: string, i: nat, last: string)
    requires OccursAt(s, d, i)
    requires FollowsLast(s[i + |d|..], d, last)
    ensures FollowsLast(s, d, last)
  {
    var tail := s[i + |d|..];
    assert s[|s| - |last|..] == tail[|tail| - |last|..];
    if last == tail {
      assert s[|s| - |last| - |d|..|s| - |last|] == s[i..i + |d|];
    } else {
      assert s[|s| - |last| - |d|..|s| - |last|] == tail[|tail| - |last| - |d|..|tail| - |last|];
    }
  }

  lemma ContainsChar(s: string, c: char)
    ensures Contains(s, [c]) <==> c in s
  {
    if c in s {
      var i :| 0 <= i < |s| && s[i] == c;
      assert s[i..i + 1] == [c];
      assert OccursAt(s, [c], i);
    }
    var r := Find(s, [c]);
    if r.Some? {
      assert s[r.value..r.value + 1] == [c];
      assert s[r.value] == c;
    }
  }

  /** Finding a one-character separator right after a prefix free of it. */
  lemma FindAfterPrefix(p: string, c: char, rest: string)
    requires c !in p
    ensures Find(p + [c] + rest, [c]) == Some(|p|)
  {
    var s := p + [c] + rest;
    assert s[|p|..|p| + 1] == [c];
    assert OccursAt(s, [c], |p|);
    assert forall j: nat :: j < |p| ==> !OccursAt(s, [c], j) by {
      forall j: nat | j < |p|
        ensures !OccursAt(s, [c], j)
      {
        assert s[j..j + 1] == [p[j]];
        assert p[j] != c;
      }
    }
  }

  /** Joining parts that are free of a one-character separator and splitting
      on it again gives the parts back. */
  lemma {:induction false} SplitJoinChar(parts: seq<string>, c: char)
    requires |parts| >= 1
    requires forall k :: 0 <= k < |parts| ==> c !in parts[k]
    ensures Split(Join(parts, [c]), [c]) == parts
    decreases |parts|
  {
    if |parts| == 1 {
      ContainsChar(parts[0], c);
    } else {
      var p0 := parts[0];
      var rest := Join(parts[1..], [c]);
      var s := p0 + [c] + rest;
      assert Join(parts, [c]) == s;
      FindAfterPrefix(p0, c, rest);
      assert s[..|p0|] == p0;
      assert s[|p0| + 1..] == rest;
      assert Split(s, [c]) == [p0] + Split(rest, [c]);
      SplitJoinChar(parts[1..], c);
      assert parts == [p0] + parts[1..];
    }
  }

  /** The characters Python's `str.isspace` accepts. */
  predicate IsSpace(c: char) {
    || c == ' ' || c == '\t' || c == '\n' || c == '\r'
    || c == '\U{000B}' || c == '\U{000C}' || ('\U{001C}' <= c <= '\U{001F}')
    || c == '\U{0085}' || c == '\U{00A0}' || c == '\U{1680}'
    || ('\U{2000}' <= c <= '\U{200A}') || c == '\U{2028}' || c == '\U{2029}'
    || c == '\U{202F}' || c == '\U{205F}' || c == '\U{3000}'
  }

  predicate AllSpaces(s: string) {
    forall i :: 0 <= i < |s| ==> IsSpace(s[i])
  }

  /** Python's `s.lstrip()`. */
  function LStrip(s: string): (r: string)
    ensures |r| <= |s| && r == s[|s| - |r|..]
    ensures AllSpaces(s[..|s| - |r|])
    ensures r != "" ==> !IsSpace(r[0])
    decreases |s|
  {
    if |s| > 0 && IsSpace(s[0]) then
      var r := LStrip(s[1..]);
      assert s[1..][|s| - 1 - |r|..] == s[|s| - |r|..];
      assert s[..|s| - |r|] == [s[0]] + s[1..][..|s| - 1 - |r|];
      AllSpacesCons(s[0], s[1..][..|s| - 1 - |r|]);
      r
    else s
  }

  /** Python's `s.rstrip()`. */
  function RStrip(s: string): (r: string)
    ensures |r| <= |s| && r == s[..|r|]
    ensures AllSpaces(s[|r|..])
    ensures r != "" ==> !IsSpace(r[|r| - 1])
    decreases |s|
  {
    if |s| > 0 && IsSpace(s[|s| - 1]) then
      var t := s[..|s| - 1];
      var r := RStrip(t);
      assert s[..|r|] == t[..|r|];
      assert s[|r|..] == t[|r|..] + [s[|s| - 1]];
      AllSpacesSnoc(t[|r|..], s[|s| - 1]);
      r
    else s
  }

  lemma AllSpacesCons(c: char, t: string)
    requires IsSpace(c) && AllSpaces(t)
    ensures AllSpaces([c] + t)
  {
    assert forall i :: 0 < i <= |t| ==> ([c] + t)[i] == t[i - 1];
  }

  lemma AllSpacesSnoc(t: string, c: char)
    requires AllSpaces(t) && IsSpace(c)
    ensures AllSpaces(t + [c])
  {
    assert forall i :: 0 <= i < |t| ==> (t + [c])[i] == t[i];
  }

  /** No character of `d` but the last one equals its last character, so an
      occurrence of `d` cannot begin inside a text and end inside a later
      copy of `d`. */
  predicate LastCharUnique(d: string) {
    |d| > 0 && forall k :: 0 <= k < |d| - 1 ==> d[k] != d[|d| - 1]
  }

  /** The first occurrence of such a separator after a text free of it is
      the one right after that text. */
  lemma FindAfter(p: string, d: string, rest: string)
    requires LastCharUnique(d) && !Contains(p, d)
    ensures Find(p + d + rest, d).Some? && Find(p + d + rest, d).value == |p|
  {
    var s := p + d + rest;
    assert s[|p|..|p| + |d|] == d;
    assert OccursAt(s, d, |p|);
    forall j: nat | j < |p|
      ensures !OccursAt(s, d, j)
    {
      var e := j + |d| - 1;
      if e < |p| {
        assert s[j..j + |d|] == p[j..j + |d|];
        assert !OccursAt(p, d, j);
      } else {
        assert s[e] == d[e - |p|];
        assert d[e - |p|] != d[|d| - 1];
        assert s[j..j + |d|][|d| - 1] == s[e];
      }
    }
  }

  /** Splitting at such a separator after a text free of it: that text is the
      first part, and the rest is split on. */
  lemma SplitAfter(p: string, d: string, rest: string)
    requires LastCharUnique(d) && !Contains(p, d)
    ensures Split(p + d + rest, d) == [p] + Split(rest, d)
  {
    var s := p + d + rest;
    FindAfter(p, d, rest);
    assert s[..|p|] == p;
    assert s[|p| + |d|..] == rest;
  }

  /** A text lacking one of the separator's characters does not contain
      the separator. */
  lemma AbsentChar(s: string, d: string, k: nat)
    requires |d| > 0 && k < |d| && d[k] !in s
    ensures !Contains(s, d)
  {
    forall i: nat | i + |d| <= |s|
      ensures !OccursAt(s, d, i)
    {
      assert s[i..i + |d|][k] == s[i + k];
    }
  }

  /** A text free of the separator splits into itself alone. */
  lemma SplitAbsent(s: string, d: string)
    requires |d| > 0 && !Contains(s, d)
    ensures Split(s, d) == [s]
  {
  }

  /** Three texts free of the separator, joined by it, split back into
      them. */
  lemma SplitThree(p0: string, p1: string, p2: string, d: string)
    requires LastCharUnique(d) && !Contains(p0, d) && !Contains(p1, d) && !Contains(p2, d)
    ensures Split(p0 + d + (p1 + d + p2), d) == [p0, p1, p2]
  {
    SplitAbsent(p2, d);
    SplitAfter(p1, d, p2);
    SplitAfter(p0, d, p1 + d + p2);
  }

  /** Four texts free of the separator, joined by it, split back into
      them. */
  lemma SplitFour(p0: string, p1: string, p2: string, p3: string, d: string)
    requires LastCharUnique(d)
    requires !Contains(p0, d) && !Contains(p1, d) && !Contains(p2, d) && !Contains(p3, d)
    ensures Split(p0 + d + (p1 + d + (p2 + d + p3)), d) == [p0, p1, p2, p3]
  {
    SplitThree(p1, p2, p3, d);
    SplitAfter(p0, d, p1 + d + (p2 + d + p3));
  }

  /** Python's `s.strip()`. */
  function Strip(s: string): string {
    RStrip(LStrip(s))
  }

  /** Text with no whitespace at either end is its own strip. */
  predicate Trimmed(s: string) {
    s == "" || (!IsSpace(s[0]) && !IsSpace(s[|s| - 1]))
  }

  /** Leading whitespace is exactly what `lstrip` removes. */
  lemma {:induction false} LStripSpaces(pre: string, t: string)
    requires AllSpaces(pre)
    requires t == "" || !IsSpace(t[0])
    ensures LStrip(pre + t) == t
    decreases |pre|
  {
    if |pre| > 0 {
      assert (pre + t)[0] == pre[0];
      assert (pre + t)[1..] == pre[1..] + t;
      LStripSpaces(pre[1..], t);
    } else {
      assert pre + t == t;
    }
  }

  /** Trailing whitespace is exactly what `rstrip` removes. */
  lemma {:induction false} RStripSpaces(t: string, post: string)
    requires AllSpaces(post)
    requires t == "" || !IsSpace(t[|t| - 1])
    ensures RStrip(t + post) == t
    decreases |post|
  {
    if |post| > 0 {
      var s := t + post;
      assert s[|s| - 1] == post[|post| - 1];
      assert s[..|s| - 1] == t + post[..|post| - 1];
      RStripSpaces(t, post[..|post| - 1]);
    } else {
      assert t + post == t;
    }
  }

  /** Surrounding a trimmed non-empty text with whitespace does not survive a
      strip. */
  lemma StripPadded(pre: string, c: string, post: string)
    requires AllSpaces(pre) && AllSpaces(post)
    requires c != "" && Trimmed(c)
    ensures Strip(pre + c + post) == c
  {
    assert pre + c + post == pre + (c + post);
    LStripSpaces(pre, c + post);
    RStripSpaces(c, post);
  }

  /** Text made only of whitespace strips to nothing. */
  lemma StripSpacesOnly(s: string)
    requires AllSpaces(s)
    ensures Strip(s) == ""
  {
    LStripSpaces(s, "");
    assert s + "" == s;
  }

  /** Text that does not end in whitespace is its own `rstrip`. */
  lemma RStripNoTrailing(s: string)
    requires s != "" && !IsSpace(s[|s| - 1])
    ensures RStrip(s) == s
  {
  }

  /** Python's `s[:n]` for a non-negative `n`. */
  function Take(s: string, n: nat): (r: string)
    ensures |r| == if n < |s| then n else |s|
    ensures StartsWith(s, r)
  {
    if n < |s| then s[..n] else s
  }

  /** Python's `s.replace(pat, rep)`: every non-overlapping occurrence of
      `pat`, scanning left to right. */
  function ReplaceAll(s: string, pat: string, rep: string): string
    requires |pat| > 0
  {
    Join(Split(s, pat), rep)
  }

  lemma ReplaceAllAbsent(s: string, pat: string, rep: string)
    requires |pat| > 0 && !Contains(s, pat)
    ensures ReplaceAll(s, pat, rep) == s
  {
  }

  // ---------------------------------------------------------------------
  // Decimal integers: Python's `int(text)` and `str(n)`.

  predicate IsDigit(c: char) {
    '0' <= c <= '9'
  }

  predicate AllDigits(s: string) {
    forall i :: 0 <= i < |s| ==> IsDigit(s[i])
  }

  /** The text a regular expression's `$` sees as ending at the end: `s`
      without one final newline, which `$` also accepts before it. */
  function Chomp(s: string): (r: string)
    ensures r == s || r + "\n" == s
    ensures '\n' !in s ==> r == s
  {
    if |s| > 0 && s[|s| - 1] == '\n' then s[..|s| - 1] else s
  }

  function DigitValue(c: char): nat
    requires IsDigit(c)
  {
    (c as int - '0' as int) as nat
  }

  function DigitChar(d: nat): (c: char)
    requires d < 10
    ensures IsDigit(c) && DigitValue(c) == d
  {
    ('0' as int + d) as char
  }

  /** The value of a string of decimal digits (most significant first). */
  function DigitsValue(s: string): nat
    requires AllDigits(s)
  {
    if |s| == 0 then 0
    else 10 * DigitsValue(s[..|s| - 1]) + DigitValue(s[|s| - 1])
  }

  /** Python's `str(n)` for a natural number: no leading zeros. */
  function NatToString(n: nat): (s: string)
    ensures |s| >= 1 && AllDigits(s)
    ensures |s| > 1 ==> s[0] != '0'
    decreases n
  {
    if n < 10 then [DigitChar(n)]
    else NatToString(n / 10) + [DigitChar(n % 10)]
  }

  /** Python's `str(n)` for any integer. */
  function IntToString(n: int): string {
    if n < 0 then "-" + NatToString(-n) else NatToString(n)
  }

  lemma {:induction false} NatToStringValue(n: nat)
    ensures DigitsValue(NatToString(n)) == n
    decreases n
  {
    if n >= 10 {
      var s := NatToString(n);
      NatToStringValue(n / 10);
      assert s[..|s| - 1] == NatToString(n / 10);
    }
  }

  /** The optional sign and the digits of a Python integer literal, once the
      surrounding whitespace is gone. */
  function ParseSigned(t: string): Option<int> {
    if |t| > 0 && (t[0] == '+' || t[0] == '-') then
      var body := t[1..];
      if |body| > 0 && AllDigits(body) then
        Some(if t[0] == '-' then -(DigitsValue(body) as int) else DigitsValue(body))
      else None
    else if |t| > 0 && AllDigits(t) then Some(DigitsValue(t))
    else None
  }

  /** Python's `int(s)` on text: surrounding whitespace, an optional sign and
      ASCII digits; `None` stands for the `ValueError`. */
  function ParseInt(s: string): Option<int> {
    ParseSigned(Strip(s))
  }

  /** Canonical decimal text is already stripped. */
  lemma DecimalIsTrimmed(s: string)
    requires |s| >= 1 && (IsDigit(s[0]) || s[0] == '-') && IsDigit(s[|s| - 1])
    ensures Strip(s) == s
  {
    assert !IsSpace(s[0]);
    assert LStrip(s) == s;
    assert !IsSpace(s[|s| - 1]);
  }

  lemma ParseSignedDigits(t: string)
    requires |t| > 0 && AllDigits(t)
    ensures ParseSigned(t) == Some(DigitsValue(t) as int)
    ensures ParseSigned("-" + t) == Some(-(DigitsValue(t) as int))
  {
    ParseUnsigned(t);
    ParseNegative(t);
  }

  lemma ParseUnsigned(t: string)
    requires |t| > 0 && AllDigits(t)
    ensures ParseSigned(t) == Some(DigitsValue(t) as int)
  {
    assert IsDigit(t[0]);
  }

  lemma ParseNegative(t: string)
    requires |t| > 0 && AllDigits(t)
    ensures ParseSigned("-" + t) == Some(-(DigitsValue(t) as int))
  {
    var u := "-" + t;
    assert u[0] == '-' && u[1..] == t;
  }

  /** `int(str(n)) == n`. */
  lemma IntToStringRoundTrip(n: int)
    ensures ParseInt(IntToString(n)) == Some(n)
  {
    var m: nat := if n < 0 then -n else n;
    var t := NatToString(m);
    NatToStringValue(m);
    ParseSignedDigits(t);
    var s := IntToString(n);
    assert s == if n < 0 then "-" + t else t;
    assert s[|s| - 1] == t[|t| - 1];
    DecimalIsTrimmed(s);
  }
}

=== FILE: url_validation.dfy ===
/** `set_repo_url` and `url_validations`: accepting a GitHub repository URL
    typed by the user and taking the owner and repository names from it.
    The checks go through Python's `urllib.parse.urlparse`, modelled here
    for the parts the checks read; the names come from a regular
    expression applied to the URL as typed. */
module UrlValidation {
  import opened Wrappers
  import opened Strings
  import opened Seqs

  // ---------------------------------------------------------------------
  // Character scanning.

  /** The index of the first character of `s` in `cs`, or `|s|`. */
  function FirstOf(s: string, cs: set<char>): (r: nat)
    ensures r <= |s|
    ensures forall k :: 0 <= k < r ==> s[k] !in cs
    ensures r < |s| ==> s[r] in cs
    decreases |s|
  {
    if |s| == 0 then 0
    else if s[0] in cs then 0
    else 1 + FirstOf(s[1..], cs)
  }

  predicate Avoids(s: string, cs: set<char>) {
    forall k :: 0 <= k < |s| ==> s[k] !in cs
  }

  /** The first character from `cs` right after a text free of them. */
  lemma FirstOfAfter(p: string, c: char, rest: string, cs: set<char>)
    requires Avoids(p, cs) && c in cs
    ensures FirstOf(p + [c] + rest, cs) == |p|
  {
    var s := p + [c] + rest;
    assert s[|p|] == c;
    assert forall k :: 0 <= k < |p| ==> s[k] == p[k];
  }

  lemma FirstOfNone(s: string, cs: set<char>)
    requires Avoids(s, cs)
    ensures FirstOf(s, cs) == |s|
  {
  }

  /** The index of the last `c` in `s`: Python's `s.rfind(c)`. */
  function LastOf(s: string, c: char): (r: nat)
    requires c in s
    ensures r < |s| && s[r] == c
    ensures forall k :: r < k < |s| ==> s[k] != c
    decreases |s|
  {
    if s[|s| - 1] == c then |s| - 1
    else
      assert c in s[..|s| - 1] by {
        var k :| 0 <= k < |s| && s[k] == c;
        assert s[..|s| - 1][k] == c;
      }
      LastOf(s[..|s| - 1], c)
  }

  // ---------------------------------------------------------------------
  // `urlparse`.

  /** `str.rstrip('/')`. */
  function RStripSlash(s: string): (r: string)
    ensures |r| <= |s| && r == s[..|r|]
    ensures forall k :: |r| <= k < |s| ==> s[k] == '/'
    ensures r != "" ==> r[|r| - 1] != '/'
    decreases |s|
  {
    if |s| > 0 && s[|s| - 1] == '/' then RStripSlash(s[..|s| - 1]) else s
  }

  /** Leading C0 control characters and spaces, which `urlsplit` strips. */
  function LStripControl(s: string): (r: string)
    ensures |r| <= |s| && r == s[|s| - |r|..]
    ensures r != "" ==> r[0] > ' '
    decreases |s|
  {
    if |s| > 0 && s[0] <= ' ' then
      var r := LStripControl(s[1..]);
      assert s[1..][|s| - 1 - |r|..] == s[|s| - |r|..];
      r
    else s
  }

  /** Tab, carriage return and newline, which `urlsplit` deletes anywhere. */
  predicate Safe(c: char) {
    c != '\t' && c != '\r' && c != '\n'
  }

  function Sanitize(url: string): string {
    Filter(LStripControl(url), Safe)
  }

  predicate IsAsciiLetter(c: char) {
    ('a' <= c <= 'z') || ('A' <= c <= 'Z')
  }

  predicate IsSchemeChar(c: char) {
    IsAsciiLetter(c) || ('0' <= c <= '9') || c == '+' || c == '-' || c == '.'
  }

  function LowerChar(c: char): char {
    if 'A' <= c <= 'Z' then (c as int + 32) as char else c
  }

  function Lower(s: string): (r: string)
    ensures |r| == |s| && forall k :: 0 <= k < |s| ==> r[k] == LowerChar(s[k])
  {
    seq(|s|, k requires 0 <= k < |s| => LowerChar(s[k]))
  }

  /** The schemes for which `urlparse` splits `;params` off the path. */
  const UsesParams: set<string> :=
    {"", "ftp", "hdl", "prospero", "http", "imap", "https", "shttp", "rtsp",
     "rtspu", "sip", "sips", "mms", "sftp", "tel"}

  /** The parts of a parsed URL that the checks read. */
  datatype Parsed = Parsed(scheme: string, netloc: string, path: string)

  /** The scheme and what follows it: a scheme is recognised before the
      first ":" when it is non-empty, starts with an ASCII letter and uses
      only scheme characters. */
  function SplitScheme(url: string): (string, string) {
    var i := FirstOf(url, {':'});
    if 0 < i < |url| && IsAsciiLetter(url[0]) && forall k :: 0 <= k < i ==> IsSchemeChar(url[k])
    then (Lower(url[..i]), url[i + 1..])
    else ("", url)
  }

  /** `_splitparams`: the path without its `;params`, searched for from the
      last "/" on (or from the start when there is no "/"). */
  function DropParams(p: string): (r: string)
    ensures |r| <= |p| && r == p[..|r|]
  {
    if '/' in p then
      var k := LastOf(p, '/');
      var j := FirstOf(p[k..], {';'});
      if k + j == |p| then p else p[..k + j]
    else p[..FirstOf(p, {';'})]
  }

  /** The network location, when the text after the scheme starts with
      "//", runs to the first "/", "?" or "#"; the rest follows it. */
  function SplitNetloc(rest: string): (string, string) {
    if StartsWith(rest, "//") then
      var tail := rest[2..];
      var j := FirstOf(tail, {'/', '?', '#'});
      (tail[..j], tail[j..])
    else ("", rest)
  }

  /** The path: up to the fragment, then up to the query, then without its
      `;params` for the schemes that have them. */
  function PathOf(scheme: string, after: string): string {
    var noFragment := after[..FirstOf(after, {'#'})];
    var noQuery := noFragment[..FirstOf(noFragment, {'?'})];
    if scheme in UsesParams && ';' in noQuery then DropParams(noQuery) else noQuery
  }

  /** `urlparse`; a network location with only one of "[" and "]" raises
      `ValueError`. */
  function UrlParse(raw: string): (r: Result<Parsed>)
    ensures r.Raise? ==> r.exc == ValueError
  {
    var (scheme, rest) := SplitScheme(Sanitize(raw));
    var (netloc, after) := SplitNetloc(rest);
    if ('[' in netloc) != (']' in netloc) then Raise(ValueError)
    else Ok(Parsed(scheme, netloc, PathOf(scheme, after)))
  }

  // ---------------------------------------------------------------------
  // The checks.

  const GithubHosts: set<string> := {"github.com", "www.github.com"}

  function NonEmpty(s: string): bool {
    s != ""
  }

  /** The non-empty "/"-separated parts of a path. */
  function Segments(path: string): (r: seq<string>)
    ensures forall k :: 0 <= k < |r| ==> r[k] != "" && !Contains(r[k], "/")
    ensures forall x :: x in r <==> x in Split(path, "/") && x != ""
  {
    var parts := Split(path, "/");
    FilterMembers(parts, NonEmpty);
    Filter(parts, NonEmpty)
  }

  /** The `try` block shared by both functions: the path segments when the
      URL, without trailing slashes, parses, names one of the two GitHub
      hosts and has at least two path segments; `None` when it returns
      `False` (a `ValueError` from parsing is caught as `False` too). */
  function Checked(url: string): (r: Option<seq<string>>)
    ensures r.Some? ==> |r.value| >= 2
    ensures r.Some? <==>
      var p := UrlParse(RStripSlash(url));
      p.Ok? && p.value.netloc in GithubHosts && |Segments(p.value.path)| >= 2
  {
    match UrlParse(RStripSlash(url))
    case Raise(_) => None
    case Ok(p) =>
      if p.netloc !in GithubHosts then None
      else if |Segments(p.path)| < 2 then None
      else Some(Segments(p.path))
  }

  /** What follows `https://github.com/` or `http://github.com/` at the
      start of the URL. */
  function PatternRest(url: string): Option<string> {
    if StartsWith(url, "https://github.com/") then Some(url[19..])
    else if StartsWith(url, "http://github.com/") then Some(url[18..])
    else None
  }

  /** `([^/]+)/([^/]+)`: the two maximal runs of non-slash characters, the
      first followed by a slash. */
  function Groups(t: string): (r: Option<(string, string)>)
    ensures r.Some? ==> r.value.0 != "" && r.value.1 != ""
    ensures r.Some? ==> '/' !in r.value.0 && '/' !in r.value.1
  {
    var i := FirstOf(t, {'/'});
    if i == 0 || i == |t| then None
    else
      var u := t[i + 1..];
      var j := FirstOf(u, {'/'});
      if j == 0 then None else Some((t[..i], u[..j]))
  }

  /** The regular expression `https?://github\.com/([^/]+)/([^/]+)/?`
      matched at the start of the URL. */
  function OwnerRepoPattern(url: string): (r: Option<(string, string)>)
    ensures r.Some? ==> r.value.0 != "" && r.value.1 != ""
    ensures r.Some? ==> '/' !in r.value.0 && '/' !in r.value.1
  {
    match PatternRest(url)
    case None => None
    case Some(t) => Groups(t)
  }

  /** The result: `False`, or the owner and the repository. */
  datatype Verdict = Rejected | Repository(owner: string, repo: string)

  /** As written: after the checks pass, the names come from the regular
      expression, and when it does not match `match.group` is called on
      `None`, raising `AttributeError` outside the `try`. */
  function UrlValidationsAsWritten(url: string): (r: Result<Verdict>)
    ensures r.Raise? ==> r.exc == AttributeError
    ensures (r.Ok? && r.value.Rejected?) <==> Checked(url).None?
  {
    if Checked(url).None? then Ok(Rejected)
    else
      match OwnerRepoPattern(url)
      case None => Raise(AttributeError)
      case Some((o, r)) => Ok(Repository(o, r))
  }

  /** As evidently intended: the owner and the repository are the first two
      path segments that the checks already found. */
  function UrlValidations(url: string): (r: Verdict)
    ensures r.Rejected? <==> Checked(url).None?
    ensures r.Repository? ==> r.owner == Checked(url).value[0] && r.repo == Checked(url).value[1]
  {
    match Checked(url)
    case None => Rejected
    case Some(parts) => Repository(parts[0], parts[1])
  }

  // ---------------------------------------------------------------------
  // `set_repo_url`.

  /** The reply and the session after the call. */
  datatype Stored = Stored(reply: Result<bool>, session: map<string, string>)

  /** As written: the same checks; then the URL is stored before the
      regular expression is applied, so an `AttributeError` leaves the URL
      stored without its owner and repository. */
  function SetRepoUrlAsWritten(url: string, session: map<string, string>): (r: Stored)
    ensures r.reply.Ok? && !r.reply.value ==> r.session == session
  {
    if Checked(url).None? then Stored(Ok(false), session)
    else
      var withUrl := session["GIT_URL" := url];
      match OwnerRepoPattern(url)
      case None => Stored(Raise(AttributeError), withUrl)
      case Some((o, r)) => Stored(Ok(true), withUrl["OWNER" := o]["REPO" := r])
  }

  /** Corrected to take the names from the checked path. */
  function SetRepoUrl(url: string, session: map<string, string>): (r: Stored)
    ensures r.reply.Ok?
  {
    match UrlValidations(url)
    case Rejected => Stored(Ok(false), session)
    case Repository(o, r) => Stored(Ok(true), session["GIT_URL" := url]["OWNER" := o]["REPO" := r])
  }

  /** `set_repo_url` stores exactly what `url_validations` returns: the
      same inputs fail, and the stored names are the returned ones. */
  lemma SetRepoUrlMatchesAsWritten(url: string, session: map<string, string>)
    ensures var s := SetRepoUrlAsWritten(url, session);
      var v := UrlValidationsAsWritten(url);
      && (s.reply.Raise? <==> v.Raise?)
      && (s.reply.Ok? && !s.reply.value <==> v.Ok? && v.value.Rejected?)
      && (s.reply.Raise? ==> s.session == session["GIT_URL" := url])
      && (v.Ok? && v.value.Repository? ==>
            s.reply.Ok? && s.reply.value
            && s.session == session["GIT_URL" := url]["OWNER" := v.value.owner]["REPO" := v.value.repo])
  {
    match Checked(url)
    case None =>
    case Some(_) =>
      match OwnerRepoPattern(url)
      case None =>
      case Some(_) =>
  }

  lemma SetRepoUrlMatches(url: string, session: map<string, string>)
    ensures var s := SetRepoUrl(url, session);
      && (s.reply.value <==> UrlValidations(url).Repository?)
      && (!s.reply.value ==> s.session == session)
      && (s.reply.value ==>
            && s.session.Keys == session.Keys + {"GIT_URL", "OWNER", "REPO"}
            && s.session["GIT_URL"] == url
            && s.session["OWNER"] == UrlValidations(url).owner
            && s.session["REPO"] == UrlValidations(url).repo)
  {
    match UrlValidations(url)
    case Rejected =>
    case Repository(o, r) =>
      SessionKeysDistinct();
      StoreThree(session, "GIT_URL", "OWNER", "REPO", url, o, r);
  }

  lemma SessionKeysDistinct()
    ensures "GIT_URL" != "OWNER" && "GIT_URL" != "REPO" && "OWNER" != "REPO"
  {
    assert "GIT_URL"[0] != "OWNER"[0] && "GIT_URL"[0] != "REPO"[0] && "OWNER"[0] != "REPO"[0];
  }

  /** Three writes under distinct keys each read back. */
  lemma StoreThree(m: map<string, string>, k1: string, k2: string, k3: string, a: string, b: string, c: string)
    requires k1 != k2 && k1 != k3 && k2 != k3
    ensures var s := m[k1 := a][k2 := b][k3 := c];
      s.Keys == m.Keys + {k1, k2, k3} && s[k1] == a && s[k2] == b && s[k3] == c
  {
  }

  // ---------------------------------------------------------------------
  // Properties.

  /** Every host but the two GitHub ones is rejected, by both versions. */
  lemma OtherHostsRejected(url: string)
    requires UrlParse(RStripSlash(url)).Ok? && UrlParse(RStripSlash(url)).value.netloc !in GithubHosts
    ensures UrlValidationsAsWritten(url).Ok? && UrlValidationsAsWritten(url).value.Rejected?
    ensures UrlValidations(url).Rejected?
  {
  }

  /** A path with fewer than two non-empty segments is rejected. */
  lemma ShortPathRejected(url: string)
    requires UrlParse(RStripSlash(url)).Ok? && |Segments(UrlParse(RStripSlash(url)).value.path)| < 2
    ensures UrlValidationsAsWritten(url).Ok? && UrlValidationsAsWritten(url).value.Rejected?
    ensures UrlValidations(url).Rejected?
  {
  }

  /** Characters that would end or split a repository name inside a URL. */
  const Special: set<char> := {'/', '?', '#', ';', '[', ']', '\t', '\r', '\n'}

  lemma KeepNonEmpty(o: string, r: string)
    requires o != "" && r != ""
    ensures Filter(["", o, r], NonEmpty) == [o, r]
  {
    assert [r][1..] == [];
    assert Filter([r], NonEmpty) == [r] + Filter([], NonEmpty);
    assert [o, r][1..] == [r];
    assert Filter([o, r], NonEmpty) == [o] + Filter([r], NonEmpty);
    assert ["", o, r][1..] == [o, r];
    assert Filter(["", o, r], NonEmpty) == [] + Filter([o, r], NonEmpty);
  }

  /** The path "/owner/repo" has the two names as its segments. */
  lemma TwoSegments(o: string, r: string)
    requires o != "" && r != "" && !Contains(o, "/") && !Contains(r, "/")
    ensures Segments("/" + o + "/" + r) == [o, r]
  {
    AbsentChar("", "/", 0);
    assert "/" + o + "/" + r == "" + "/" + (o + "/" + r);
    SplitThree("", o, r, "/");
    KeepNonEmpty(o, r);
  }

  /** A name free of special characters contains no "/" substring. */
  lemma NoSlash(s: string)
    requires Avoids(s, Special)
    ensures !Contains(s, "/") && '/' !in s
  {
    AbsentChar(s, "/", 0);
  }

  const Unsafe: set<char> := {'\t', '\r', '\n'}

  lemma AvoidsConcat(a: string, b: string, cs: set<char>)
    ensures Avoids(a + b, cs) <==> Avoids(a, cs) && Avoids(b, cs)
  {
    if Avoids(a, cs) && Avoids(b, cs) {
      forall k | 0 <= k < |a + b| ensures (a + b)[k] !in cs {
        if k >= |a| { assert (a + b)[k] == b[k - |a|]; }
      }
    }
    if Avoids(a + b, cs) {
      forall k | 0 <= k < |b| ensures b[k] !in cs {
        assert (a + b)[|a| + k] == b[k];
      }
      forall k | 0 <= k < |a| ensures a[k] !in cs {
        assert (a + b)[k] == a[k];
      }
    }
  }

  /** `urlsplit` leaves a URL that starts with a printable character and
      holds no tab or line break unchanged. */
  lemma SanitizeKeeps(url: string)
    requires |url| > 0 && url[0] > ' ' && Avoids(url, Unsafe)
    ensures Sanitize(url) == url
  {
    assert forall k :: 0 <= k < |url| ==> Safe(url[k]) by {
      forall k | 0 <= k < |url| ensures Safe(url[k]) {
        assert url[k] !in Unsafe;
      }
    }
    FilterAll(url, Safe);
  }

  /** "/owner/repo" keeps the characters its names avoid. */
  lemma PathAvoids(o: string, r: string, cs: set<char>)
    requires Avoids(o, cs) && Avoids(r, cs) && '/' !in cs
    ensures Avoids("/" + o + "/" + r, cs)
  {
    AvoidsConcat("/", o, cs);
    AvoidsConcat("/" + o, "/", cs);
    AvoidsConcat("/" + o + "/", r, cs);
  }

  /** `scheme://host/owner/repo`. */
  function RepoPath(o: string, r: string): string {
    "/" + o + "/" + r
  }

  function RepoUrl(scheme: string, host: string, o: string, r: string): string {
    scheme + "://" + (host + RepoPath(o, r))
  }

  lemma SchemeOf(scheme: string, rest: string)
    requires scheme == "https" || scheme == "http"
    ensures SplitScheme(scheme + "://" + rest) == (scheme, "//" + rest)
  {
    var url := scheme + "://" + rest;
    assert url == scheme + [':'] + ("//" + rest);
    assert Avoids(scheme, {':'});
    FirstOfAfter(scheme, ':', "//" + rest, {':'});
    assert url[..|scheme|] == scheme;
    assert url[|scheme| + 1..] == "//" + rest;
    assert Lower(scheme) == scheme;
  }

  lemma NetlocOf(host: string, path: string)
    requires Avoids(host, {'/', '?', '#'}) && |path| > 0 && path[0] == '/'
    ensures SplitNetloc("//" + (host + path)) == (host, path)
  {
    var tail := host + path;
    assert ("//" + tail)[2..] == tail;
    assert tail == host + ['/'] + path[1..];
    FirstOfAfter(host, '/', path[1..], {'/', '?', '#'});
    assert tail[..|host|] == host && tail[|host|..] == path;
  }

  lemma PlainPath(scheme: string, path: string)
    requires Avoids(path, {'#', '?', ';'})
    ensures PathOf(scheme, path) == path
  {
    FirstOfNone(path, {'#'});
    FirstOfNone(path, {'?'});
    assert ';' !in path;
  }

  lemma AvoidsLess(s: string, cs: set<char>, ds: set<char>)
    requires Avoids(s, cs) && ds <= cs
    ensures Avoids(s, ds)
  {
  }

  /** The URL of a repository on the given host parses to that host and the
      path "/owner/repo". */
  lemma ParseRepoUrl(scheme: string, host: string, o: string, r: string)
    requires scheme == "https" || scheme == "http"
    requires Avoids(host, Special)
    requires Avoids(o, Special) && Avoids(r, Special)
    ensures UrlParse(RepoUrl(scheme, host, o, r)) == Ok(Parsed(scheme, host, RepoPath(o, r)))
  {
    var path := RepoPath(o, r);
    RepoUrlSanitized(scheme, host, o, r);
    SchemeOf(scheme, host + path);
    PathFacts(host, o, r);
    NetlocOf(host, path);
    PlainPath(scheme, path);
    NoBrackets(host);
    UrlParseSteps(RepoUrl(scheme, host, o, r), scheme, "//" + (host + path), host, path);
  }

  lemma RepoUrlSanitized(scheme: string, host: string, o: string, r: string)
    requires scheme == "https" || scheme == "http"
    requires Avoids(host, Special) && Avoids(o, Special) && Avoids(r, Special)
    ensures Sanitize(RepoUrl(scheme, host, o, r)) == RepoUrl(scheme, host, o, r)
  {
    var url := RepoUrl(scheme, host, o, r);
    UrlAvoids(scheme, host, o, r);
    assert url[0] == 'h';
    SanitizeKeeps(url);
  }

  lemma NoBrackets(host: string)
    requires Avoids(host, Special)
    ensures '[' !in host && ']' !in host
  {
    assert host[..] == host;
  }

  /** `urlparse` read off its three steps. */
  lemma UrlParseSteps(raw: string, scheme: string, rest: string, netloc: string, after: string)
    requires Sanitize(raw) == raw && SplitScheme(raw) == (scheme, rest)
    requires SplitNetloc(rest) == (netloc, after) && '[' !in netloc && ']' !in netloc
    ensures UrlParse(raw) == Ok(Parsed(scheme, netloc, PathOf(scheme, after)))
  {
  }

  lemma PathFacts(host: string, o: string, r: string)
    requires Avoids(host, Special) && Avoids(o, Special) && Avoids(r, Special)
    ensures Avoids(host, {'/', '?', '#'}) && Avoids(RepoPath(o, r), {'#', '?', ';'})
    ensures |RepoPath(o, r)| > 0 && RepoPath(o, r)[0] == '/'
  {
    AvoidsLess(o, Special, {'#', '?', ';'});
    AvoidsLess(r, Special, {'#', '?', ';'});
    AvoidsLess(host, Special, {'/', '?', '#'});
    PathAvoids(o, r, {'#', '?', ';'});
  }

  lemma UrlAvoids(scheme: string, host: string, o: string, r: string)
    requires scheme == "https" || scheme == "http"
    requires Avoids(host, Special) && Avoids(o, Special) && Avoids(r, Special)
    ensures Avoids(RepoUrl(scheme, host, o, r), Unsafe)
  {
    AvoidsLess(o, Special, Unsafe);
    AvoidsLess(r, Special, Unsafe);
    AvoidsLess(host, Special, Unsafe);
    PathAvoids(o, r, Unsafe);
    assert Avoids(scheme + "://", Unsafe) by {
      var h := scheme + "://";
      forall k | 0 <= k < |h| ensures h[k] !in Unsafe {
        assert h[k] in "https://";
      }
    }
    AvoidsConcat(host, RepoPath(o, r), Unsafe);
    AvoidsConcat(scheme + "://", host + RepoPath(o, r), Unsafe);
  }

  /** The checks pass with the given parse. */
  lemma CheckedBy(url: string, p: Parsed)
    requires UrlParse(RStripSlash(url)) == Ok(p) && p.netloc in GithubHosts
    requires |Segments(p.path)| >= 2
    ensures Checked(url) == Some(Segments(p.path))
  {
  }

  /** A repository URL has no trailing slash to strip. */
  lemma Unstripped(scheme: string, host: string, o: string, r: string)
    requires r != "" && '/' !in r
    ensures RStripSlash(RepoUrl(scheme, host, o, r)) == RepoUrl(scheme, host, o, r)
  {
    var url := RepoUrl(scheme, host, o, r);
    assert url[|url| - 1] == r[|r| - 1];
  }

  /** A repository URL on a GitHub host passes the checks, with the owner
      and the repository as its segments. */
  lemma RepoUrlChecked(scheme: string, host: string, o: string, r: string)
    requires scheme == "https" || scheme == "http"
    requires host in GithubHosts
    requires o != "" && r != "" && Avoids(o, Special) && Avoids(r, Special)
    ensures Checked(RepoUrl(scheme, host, o, r)) == Some([o, r])
  {
    NoSlash(o);
    NoSlash(r);
    Unstripped(scheme, host, o, r);
    assert Avoids(host, Special);
    ParseRepoUrl(scheme, host, o, r);
    TwoSegments(o, r);
    CheckedBy(RepoUrl(scheme, host, o, r), Parsed(scheme, host, RepoPath(o, r)));
  }

  /** `https://github.com/owner/repo`, and the same with `http`, gives the
      owner and the repository, as written and corrected. */
  lemma OwnerRepoFromGithub(scheme: string, o: string, r: string)
    requires scheme == "https" || scheme == "http"
    requires o != "" && r != "" && Avoids(o, Special) && Avoids(r, Special)
    ensures UrlValidationsAsWritten(RepoUrl(scheme, "github.com", o, r)) == Ok(Repository(o, r))
    ensures UrlValidations(RepoUrl(scheme, "github.com", o, r)) == Repository(o, r)
  {
    var url := RepoUrl(scheme, "github.com", o, r);
    assert Checked(url) == Some([o, r]) by {
      RepoUrlChecked(scheme, "github.com", o, r);
    }
    assert OwnerRepoPattern(url) == Some((o, r)) by {
      NoSlash(o);
      NoSlash(r);
      GithubUrl(scheme, o, r);
      PatternFinds(scheme, o + "/" + r);
      GroupsFind(o, r);
    }
  }

  lemma GithubUrl(scheme: string, o: string, r: string)
    ensures RepoUrl(scheme, "github.com", o, r) == scheme + "://github.com/" + (o + "/" + r)
  {
    assert "/" + o + "/" + r == "/" + (o + "/" + r);
    assert "github.com" + ("/" + (o + "/" + r)) == "github.com/" + (o + "/" + r);
  }

  lemma PatternFinds(scheme: string, t: string)
    requires scheme == "https" || scheme == "http"
    ensures PatternRest(scheme + "://github.com/" + t) == Some(t)
  {
    if scheme == "https" {
      HttpsRest(t);
    } else {
      HttpRest(t);
    }
  }

  lemma HttpsRest(t: string)
    ensures PatternRest("https" + "://github.com/" + t) == Some(t)
  {
    var p := "https://github.com/";
    var url := "https" + "://github.com/" + t;
    assert url == p + t;
    PrefixSplit(p, t);
  }

  lemma HttpRest(t: string)
    ensures PatternRest("http" + "://github.com/" + t) == Some(t)
  {
    var p := "http://github.com/";
    var url := "http" + "://github.com/" + t;
    assert url == p + t;
    PrefixSplit(p, t);
    assert !StartsWith(url, "https://github.com/") by {
      assert url[4] == ':';
    }
  }

  lemma PrefixSplit(p: string, t: string)
    ensures StartsWith(p + t, p) && (p + t)[|p|..] == t
  {
    assert (p + t)[..|p|] == p;
  }

  lemma GroupsFind(o: string, r: string)
    requires o != "" && r != "" && '/' !in o && '/' !in r
    ensures Groups(o + "/" + r) == Some((o, r))
  {
    var t := o + "/" + r;
    assert t == o + ['/'] + r;
    assert Avoids(o, {'/'}) && Avoids(r, {'/'});
    FirstOfAfter(o, '/', r, {'/'});
    assert t[..|o|] == o && t[|o| + 1..] == r;
    FirstOfNone(r, {'/'});
    assert r[..|r|] == r;
  }

  /** `https://www.github.com/owner/repo` passes the host check, but the
      pattern wants `github.com` right after the scheme, so the as-written
      function raises `AttributeError`; the corrected one gives the names. */
  lemma WwwHostRaises(o: string, r: string)
    requires o != "" && r != "" && Avoids(o, Special) && Avoids(r, Special)
    ensures UrlValidationsAsWritten(RepoUrl("https", "www.github.com", o, r)) == Raise(AttributeError)
    ensures UrlValidations(RepoUrl("https", "www.github.com", o, r)) == Repository(o, r)
  {
    var url := RepoUrl("https", "www.github.com", o, r);
    assert Checked(url) == Some([o, r]) by {
      RepoUrlChecked("https", "www.github.com", o, r);
    }
    assert OwnerRepoPattern(url).None? by {
      WwwNoPattern(o, r);
    }
  }

  lemma WwwNoPattern(o: string, r: string)
    ensures PatternRest(RepoUrl("https", "www.github.com", o, r)).None?
  {
    var url := RepoUrl("https", "www.github.com", o, r);
    var h := "https://www.github.com";
    assert url == h + RepoPath(o, r);
    assert url[4] == h[4] == 's';
    assert url[8] == h[8] == 'w';
    assert |url| >= 19 && url[..19][8] == 'w' && url[..18][4] == 's';
  }
}

=== FILE: wrappers.dfy ===
/** Failure-carrying datatypes shared by every module of the model.

    Python code signals failure in two ways that the model keeps apart:
    returning `None` (an `Option`), and raising an exception that nobody
    catches (a `Result` whose `Raise` case names the exception class). */
module Wrappers {

  datatype Option<+T> = None | Some(value: T) {

    /** The value, or `default` when there is none. */
    function GetOr(default: T): T {
      match this
      case Some(v) => v
      case None => default
    }
  }

  /** The Python exception classes that the modelled code can raise. */
  datatype Exc =
    | IndexError
    | KeyError
    | ValueError
    | TypeError
    | AttributeError
    | AssertionError

  /** Either a normal return value or an exception that escapes the call. */
  datatype Result<+T> = Ok(value: T) | Raise(exc: Exc) {

    predicate IsFailure() {
      Raise?
    }

    function PropagateFailure<U>(): Result<U>
      requires Raise?
    {
      Raise(exc)
    }

    function Extract(): T
      requires Ok?
    {
      value
    }
  }
}
